=== FILE: README.md ===
# Call-event ingestion service, modelled in Dafny

The application is a Laravel (PHP 8, `strict_types`) back end. It receives
telephony call events over HTTP and validates them. It turns each one into an
immutable record (`CallEventDTO`) and logs it to PostgreSQL through an
Eloquent model (`CallEventLog`). It then publishes the same payload to the
RabbitMQ queue `call-events`. Around this pipeline sit shared HTTP
infrastructure pieces:

- the query-string filter `ApiFilter`;
- the pagination trait `HasPaginationLinks`;
- the OpenAPI generator `SwaggerGenerator`;
- the JSON response envelope classes (`ApiBaseResponse` and its subclasses).

Each module of this project models one of those components:

| file | module | models |
|---|---|---|
| `wrappers.dfy` | `Wrappers` | `Option`, `Result`, `Outcome` |
| `php.dfy` | `Php` | PHP values and the runtime behaviour the code relies on: truthiness, `isset`, `??`, `(int)`, integer rendering, `strtolower`, `str_contains`, `explode` |
| `call_event_type.dfy` | `CallEventTypes` | the string-backed enum `CallEventTypeEnum` |
| `timestamp.dfy` | `Timestamps` | `Y-m-d H:i:s` parsing (`date_format`), `Carbon::parse` on the forms the pipeline meets, `toIso8601String()` |
| `call_event_dto.dfy` | `CallEventDtos` | `CallEventDTO::fromArray` / `toArray` under strict typing |
| `call_event_request.dfy` | `CallEventRequests` | the validation rules of `CallEventRequest` |
| `call_event_log.dfy` | `CallEventLogs` | the Eloquent model: fillable keys, casts, the `creating` hook |
| `repository.dfy` | `CallEventRepositories` | `PostgresCallEventRepository` over the `call_event_logs` table and its column types |
| `broker_exception.dfy` | `BrokerExceptions` | `BrokerConnectionException` and its named constructors |
| `rabbitmq_publisher.dfy` | `RabbitMQ` | `RabbitMQPublisher`: connection/channel life cycle, `publish`, `close` |
| `call_event_service.dfy` | `CallEventServices` | `CallEventService::handleCallEvent` |
| `api_filter.dfy` | `ApiFilters` | `ApiFilter::transform` / `buildQuery` |
| `pagination.dfy` | `Pagination` | `getPaginationParams`, `buildPaginationLinks` and the paginator numbers they read |
| `swagger.dfy` | `Swagger` | the pure parts of `SwaggerGenerator` |
| `responses.dfy` | `ApiResponses` | the response envelope: `make`, `toResponse`, `formatResult`, `formatErrorMessage`, default codes and messages |

Stateful components are classes:

- The repository (`rows`, `nextId`).
- The publisher (nullable `connection` and `channel` handles, plus a log of what the broker accepted).
- The model instance being created.
- The service.
- The Swagger generator's tag list.

Their methods are proved against specification functions (`InsertOutcome`,
`PublishSpec`, `EnsureSpec`, `TransformSpec`, `RequiredFields`, ...).
Loops in the source are `while`/`for` loops with invariants:

- `transform`;
- `extractRequiredFields`;
- `parseValidationRules`;
- `buildParameters`;
- `hasParameter`;
- `hasTag`;
- the `latest()->first()` scan.

The rest is functions and lemmas.

The environment enters as parameters:

- the clock reading (`now`);
- a database fault, if any;
- the broker's answer to each library call (`BrokerEnv`);
- the route URI found by reflection;
- `http_build_query`;
- the request path, method and time.

## Model

| member | source | states |
|---|---|---|
| CallEventTypes.Values | src/be/app/Modules/CallEvent/Enums/CallEventTypeEnum.php:16-19 | `values()` lists the six wire values in declaration order, pairwise distinct |
| CallEventTypes.CasesAreComplete | src/be/app/Modules/CallEvent/Enums/CallEventTypeEnum.php:7-14 | every case is in `cases()` and its value is in `values()` |
| CallEventTypes.From | src/be/app/Modules/CallEvent/Enums/CallEventTypeEnum.php:7-14 | `from(v)` yields a case whose value is `v`, and fails exactly when `v` is not among `values()` |
| CallEventTypes.FromWireValue | src/be/app/Modules/CallEvent/Enums/CallEventTypeEnum.php:7-14 | `from($t->value) === $t` for every case |
| CallEventTypes.DurationRequiredMatchesWireValue | src/be/app/Modules/CallEvent/Enums/CallEventTypeEnum.php:21-24 | the enum's `isDurationRequired()` holds for `from(v)` exactly when `v` is the string `call_ended`, which is the request's own comparison |
| CallEventDtos.EventTypeArgument | src/be/app/Modules/CallEvent/DTOs/CallEventDTO.php:28 | the enum argument is built exactly from a string among the wire values, and carries that string |
| CallEventDtos.TimestampArgument | src/be/app/Modules/CallEvent/DTOs/CallEventDTO.php:29 | null means the current time; a string succeeds exactly when Carbon parses it, to the parsed instant; an integer succeeds exactly when it is the Unix time of a four-digit-year date-time, and the result has that Unix time; any other type is rejected |
| CallEventDtos.TimestampOfArgument | src/be/app/Modules/CallEvent/DTOs/CallEventDTO.php:29 | the instant read is the current time for null, Carbon's parse of a string, and the UTC reading of an integer |
| CallEventDtos.IntegerTimestampIsUnixTime | src/be/app/Modules/CallEvent/DTOs/CallEventDTO.php:29 | the integer 1764844200 is read as 2025-12-04 10:30:00 UTC |
| CallEventDtos.DurationArgument | src/be/app/Modules/CallEvent/DTOs/CallEventDTO.php:30 | `?int $duration` accepts exactly null (absent) and integers, keeping the integer |
| CallEventDtos.FromArray | src/be/app/Modules/CallEvent/DTOs/CallEventDTO.php:22-32 | `fromArray` returns exactly on well-typed input holding the five keys it reads without `??` (a `timestamp` that is null, a string Carbon parses or an integer Unix time), with every field taken from the array; a missing key throws (a missing `call_id` first of all), and once the first four keys are present an unknown event type is the error reported |
| CallEventDtos.MissingTimestampThrows | src/be/app/Modules/CallEvent/DTOs/CallEventDTO.php:29 | an array without `timestamp` throws the undefined-key error; only an explicit null means the current time |
| CallEventDtos.ToArray | src/be/app/Modules/CallEvent/DTOs/CallEventDTO.php:34-44 | `toArray()` has exactly the six payload keys |
| CallEventDtos.FromArrayOfToArray | src/be/app/Modules/CallEvent/DTOs/CallEventDTO.php:22-44 | `fromArray(toArray(dto))` is `dto` again, whatever the clock reads |
| CallEventDtos.ToArrayOfFromArray | src/be/app/Modules/CallEvent/DTOs/CallEventDTO.php:22-44 | `toArray(fromArray(data))` agrees with `data` on every key except `timestamp`, which becomes the ISO 8601 rendering of the parsed time, of the Unix time read in UTC, or of the current time |
| Timestamps.ParseYmdHis | src/be/app/Modules/CallEvent/Http/Requests/CallEventRequest.php:29 | a string passes `date_format:Y-m-d H:i:s` only if it is the exact rendering of a valid date-time |
| Timestamps.FormatThenParse | src/be/app/Modules/CallEvent/Http/Requests/CallEventRequest.php:29 | every valid date-time, formatted as `Y-m-d H:i:s`, passes the rule and parses back to itself |
| Timestamps.ParseCarbon | src/be/app/Modules/CallEvent/DTOs/CallEventDTO.php:29 | `Carbon::parse` agrees with the strict format on the strings that format accepts, and only yields valid date-times |
| Timestamps.Iso8601RoundTrip | src/be/app/Modules/CallEvent/DTOs/CallEventDTO.php:41 | Carbon reads its own `toIso8601String()` back as the same date-time |
| Timestamps.FromUnixTime | src/be/app/Modules/CallEvent/DTOs/CallEventDTO.php:29 | `Carbon::parse` of an integer: a valid date-time whose time of day is the seconds past midnight UTC, or nothing when the year is not a four-digit one |
| Timestamps.UnixTimeRoundTrip | src/be/app/Modules/CallEvent/DTOs/CallEventDTO.php:29 | every date-time with a four-digit year reads back from its own Unix time |
| Timestamps.UnixTimeOfReading | src/be/app/Modules/CallEvent/DTOs/CallEventDTO.php:29 | every Unix time that reads as a date-time is that date-time's Unix time, so reading is injective |
| Timestamps.UnixEpoch | src/be/app/Modules/CallEvent/DTOs/CallEventDTO.php:29 | Unix time 0 is 1970-01-01 00:00:00 |
| Timestamps.SecondBeforeEpoch | src/be/app/Modules/CallEvent/DTOs/CallEventDTO.php:29 | Unix time -1 is 1969-12-31 23:59:59 (floor division, not truncation) |
| Timestamps.UnixTimeIn2025 | src/be/app/Modules/CallEvent/DTOs/CallEventDTO.php:29 | Unix time 1764844200 is 2025-12-04 10:30:00 |
| Timestamps.YearStartClosedForm | src/be/app/Modules/CallEvent/DTOs/CallEventDTO.php:29 | the day count to 1 January is 365 a year plus one per Gregorian leap year |
| Timestamps.Iso8601OfParsed | src/be/app/Modules/CallEvent/DTOs/CallEventDTO.php:41 | the stored timestamp of a request is its `Y-m-d H:i:s` text with `T` and `+00:00`, so it never equals what the client sent |
| CallEventRequests.PhoneCheckIsPattern | src/be/app/Modules/CallEvent/Http/Requests/CallEventRequest.php:26-27 | the character-by-character phone check accepts exactly the strings of `^\+?[0-9]{10,15}$` |
| CallEventRequests.IntegerIsNoTimestamp | src/be/app/Modules/CallEvent/Http/Requests/CallEventRequest.php:29 | no integer, read as text by the date rules, passes `date_format:Y-m-d H:i:s` |
| CallEventRequests.FailingFields | src/be/app/Modules/CallEvent/Http/Requests/CallEventRequest.php:22-37 | the fields reported are exactly the ruled fields whose rules fail |
| CallEventRequests.Validated | src/be/app/Modules/CallEvent/Http/Requests/CallEventRequest.php:22-37 | `validated()` keeps exactly the input's ruled keys, with their values |
| CallEventRequests.ValidatedAgrees | src/be/app/Modules/CallEvent/Http/Requests/CallEventRequest.php:22-37 | reading a ruled key from `validated()` gives what the input holds, including absence |
| CallEventRequests.EmptyInputFailures | src/be/tests/Feature/Modules/CallEvent/CallEventApiTest.php:160-173 | an empty body fails on exactly `call_id`, `caller_number`, `callee_number`, `event_type` and `timestamp` |
| CallEventRequests.MissingDurationRule | src/be/app/Modules/CallEvent/Http/Requests/CallEventRequest.php:30-35 | a missing or null `duration` is reported exactly when the raw `event_type` is identical to `call_ended` |
| CallEventRequests.IntegerDurationRule | src/be/app/Modules/CallEvent/Http/Requests/CallEventRequest.php:30-35 | an integer `duration` is reported exactly when it is negative |
| CallEventRequests.InvalidPhoneRejected | src/be/tests/Feature/Modules/CallEvent/CallEventApiTest.php:94-109 | `invalid-phone` as caller number is reported |
| CallEventRequests.UnknownEventTypeRejected | src/be/tests/Feature/Modules/CallEvent/CallEventApiTest.php:111-126 | an event type outside the enum is reported |
| CallEventRequests.AcceptedTimestampParses | src/be/app/Modules/CallEvent/Http/Requests/CallEventRequest.php:29 | a timestamp the validator accepts is a string that `Carbon::parse` reads, to the same date-time the strict format gives |
| CallEventRequests.AcceptedFields | src/be/app/Modules/CallEvent/Http/Requests/CallEventRequest.php:22-37 | an accepted request has string ids and numbers, a known event type and a parseable timestamp |
| CallEventRequests.WellTypedRequestBuildsDto | src/be/app/Modules/CallEvent/DTOs/CallEventDTO.php:22-32 | with well-typed required fields, `fromArray(validated())` returns exactly when `duration` is null/absent or an integer, and carries the request's values |
| CallEventRequests.AcceptedRequestBuildsDto | src/be/app/Modules/CallEvent/DTOs/CallEventDTO.php:22-32 | an accepted request builds a record exactly when `duration` is null/absent or an integer (a string `"300"` passes `integer` yet makes the strict constructor throw); the record carries the request's values |
| CallEventLogs.CastInteger | src/be/app/Modules/CallEvent/Models/CallEventLog.php:31 | the `integer` cast keeps null and casts everything else with `(int)` |
| CallEventLogs.CastEventType | src/be/app/Modules/CallEvent/Models/CallEventLog.php:29 | the enum cast yields a case exactly for stored wire values, and that case's value is the stored text |
| CallEventLogs.CallEventLog.constructor | src/be/app/Modules/CallEvent/Models/CallEventLog.php:21-26 | mass assignment keeps exactly the fillable keys of the input |
| CallEventLogs.CallEventLog.Creating | src/be/app/Modules/CallEvent/Models/CallEventLog.php:34-41 | the `creating` hook sets `created_at` to the clock when it reads falsy, and otherwise changes nothing |
| CallEventLogs.CreatingKeepsOnlyNonZero | src/be/app/Modules/CallEvent/Models/CallEventLog.php:36-39 | a `created_at` survives the hook exactly when it is present and casts to a non-zero integer |
| CallEventRepositories.InsertOutcome | src/be/app/Modules/CallEvent/Repositories/PostgresCallEventRepository.php:13-20 | `create` stores a row exactly when the database answers, `call_id` fits `varchar(100)` and the clock fits the four-byte `created_at` column |
| CallEventRepositories.StoredRowRebuildsDto | src/be/app/Modules/CallEvent/Repositories/PostgresCallEventRepository.php:13-20 | a stored row's payload rebuilds the record it came from; its event type reads back through the cast; `call_id` and `created_at` are the record's and the clock's |
| CallEventRepositories.StoringFailsAfter2038 | src/be/database/migrations/2025_12_04_000000_create_call_event_logs_table.php:18 | once the Unix clock passes 2^31 - 1, no insert succeeds |
| CallEventRepositories.EventTypeFitsColumn | src/be/database/migrations/2025_12_04_000000_create_call_event_logs_table.php:16 | every wire value fits `varchar(50)` |
| CallEventRepositories.PostgresCallEventRepository.constructor | src/be/database/migrations/2025_12_04_000000_create_call_event_logs_table.php:13-21 | the table starts empty with its id sequence at 1 |
| CallEventRepositories.PostgresCallEventRepository.Create | src/be/app/Modules/CallEvent/Repositories/PostgresCallEventRepository.php:13-20 | `create` appends the row `InsertOutcome` describes and advances the id, or changes nothing on failure |
| CallEventRepositories.PostgresCallEventRepository.Latest | src/be/app/Modules/CallEvent/Repositories/PostgresCallEventRepository.php:24-26 | `where(call_id)->latest(col)->first()`: an unknown column or the `json` column is a query error; otherwise the result is none exactly when no row has the call id, and else a row of that call with the greatest key |
| CallEventRepositories.PostgresCallEventRepository.FindByCallIdAsWritten | src/be/app/Modules/CallEvent/Repositories/PostgresCallEventRepository.php:22-27 | as written, `findByCallId` always fails with an undefined column `created_time` |
| CallEventRepositories.PostgresCallEventRepository.FindByCallId | src/be/app/Modules/CallEvent/Repositories/PostgresCallEventRepository.php:22-27 | ordering by `created_at`, it returns none exactly when the call has no row, and else a row of that call with the latest `created_at` |
| CallEventRepositories.FindAfterCreate | src/be/app/Modules/CallEvent/Repositories/PostgresCallEventRepository.php:22-27 | right after a successful `create`, the as-written lookup fails while the corrected one finds the new row |
| BrokerExceptions.ConnectionFailed | src/be/app/Shared/Exceptions/BrokerConnectionException.php:11-14 | the message starts with `Failed to connect to `, then the broker, then the reason at the end |
| BrokerExceptions.PublishFailed | src/be/app/Shared/Exceptions/BrokerConnectionException.php:16-19 | the message starts with `Failed to publish message to queue '`, then the queue, then the reason at the end |
| BrokerExceptions.ConstructorsNeverCollide | src/be/app/Shared/Exceptions/BrokerConnectionException.php:11-19 | no connection-failure message equals a publish-failure message |
| BrokerExceptions.ConnectionFailedDeterminesReason | src/be/app/Shared/Exceptions/BrokerConnectionException.php:11-14 | for one broker, the message determines the reason |
| BrokerExceptions.PublishFailedDeterminesReason | src/be/app/Shared/Exceptions/BrokerConnectionException.php:16-19 | for one queue, the message determines the reason |
| BrokerExceptions.NestedConnectionFailure | src/be/app/Shared/Brokers/RabbitMQ/RabbitMQPublisher.php:57-64 | a connection failure inside `publish` reaches the caller as a publish failure whose reason is the whole connection-failure message |
| RabbitMQ.EnsureSpec | src/be/app/Shared/Brokers/RabbitMQ/RabbitMQPublisher.php:86-116 | `ensureConnection` returns exactly when already connected, or when both the connection and the channel open |
| RabbitMQ.PublishSpec | src/be/app/Shared/Brokers/RabbitMQ/RabbitMQPublisher.php:29-66 | every failure of `publish` is a publish-failure message |
| RabbitMQ.PublishPassesIff | src/be/app/Shared/Brokers/RabbitMQ/RabbitMQPublisher.php:29-66 | `publish` returns exactly when the connection is ensured, the channel in use is usable, and the broker accepts the declaration and the message |
| RabbitMQ.ConnectionFailureMessage | src/be/app/Shared/Brokers/RabbitMQ/RabbitMQPublisher.php:107-114 | a refused connection reaches the caller as `Failed to publish message to queue '<q>': Failed to connect to RabbitMQ: <reason>` |
| RabbitMQ.RunSpec | src/be/app/Shared/Brokers/RabbitMQ/RabbitMQPublisher.php:29-66 | a run of publishes has one outcome per call |
| RabbitMQ.WedgedPublisherFailsForever | src/be/app/Shared/Brokers/RabbitMQ/RabbitMQPublisher.php:86-101 | connected without a usable channel, every later `publish` fails with the null-channel or closed-channel error, whatever the broker would answer |
| RabbitMQ.RabbitMQPublisher.constructor | src/be/app/Shared/Brokers/RabbitMQ/RabbitMQPublisher.php:20-27 | keeps the settings; no connection and no channel yet |
| RabbitMQ.RabbitMQPublisher.IsConnected | src/be/app/Shared/Brokers/RabbitMQ/RabbitMQPublisher.php:68-71 | true exactly when a connection exists and is alive |
| RabbitMQ.RabbitMQPublisher.EnsureConnection | src/be/app/Shared/Brokers/RabbitMQ/RabbitMQPublisher.php:86-116 | outcome as `EnsureSpec`; a fresh connection when not connected; a fresh channel only when it opened; nothing published |
| RabbitMQ.RabbitMQPublisher.Publish | src/be/app/Shared/Brokers/RabbitMQ/RabbitMQPublisher.php:29-66 | outcome as `PublishSpec`; new connected/channel state as `ConnectedAfter`/`ChannelAfter`; on success exactly one persistent delivery of the payload on the default exchange with the queue as routing key; on failure none |
| RabbitMQ.RabbitMQPublisher.Close | src/be/app/Shared/Brokers/RabbitMQ/RabbitMQPublisher.php:73-84 | closes the channel and the connection it holds, then forgets both |
| RabbitMQ.RabbitMQPublisher.Destruct | src/be/app/Shared/Brokers/RabbitMQ/RabbitMQPublisher.php:118-121 | the destructor leaves no connection and no channel |
| RabbitMQ.ReliableBrokerAcceptsEveryPublish | src/be/app/Shared/Brokers/RabbitMQ/RabbitMQPublisher.php:29-66 | redeclaring the queue on every publish is harmless: on a broker that accepts every call, a publisher that is disconnected or has a usable channel succeeds on each of any number of publishes |
| RabbitMQ.Deliveries | src/be/app/Shared/Brokers/RabbitMQ/RabbitMQPublisher.php:42-51 | one persistent message per payload, to the named queue through the default exchange, in payload order |
| RabbitMQ.PublishEach | src/be/app/Shared/Brokers/RabbitMQ/RabbitMQPublisher.php:29-66 | publishing N payloads in turn on a broker that accepts everything: all N publishes succeed, the broker receives exactly those N messages in order, and the publisher ends connected with a usable channel |
| RabbitMQ.PublishOnce | src/be/app/Shared/Brokers/RabbitMQ/RabbitMQPublisher.php:29-66 | a fresh publisher on a willing broker delivers the payload once and stays connected |
| RabbitMQ.ChannelFailureWedgesUntilClose | src/be/app/Shared/Brokers/RabbitMQ/RabbitMQPublisher.php:86-101 | if the channel fails to open, the first publish reports the connection failure, the second a null-channel error, and a publish after `close()` succeeds |
| CallEventServices.CallEventService.constructor | src/be/app/Modules/CallEvent/Services/CallEventService.php:16-20 | keeps the repository and the publisher |
| CallEventServices.CallEventService.HandleCallEvent | src/be/app/Modules/CallEvent/Services/CallEventService.php:22-40 | a storage failure escapes with nothing published and the broker untouched; otherwise the row is stored and the outcome is that of publishing `toArray()` to `call-events`, with the row kept even when publishing fails; after a stored event the publisher's connection, channel state and queue declarations are those `publish` leaves |
| CallEventServices.ChannelFailureWedgesService | src/be/app/Modules/CallEvent/Services/CallEventService.php:22-40 | two events in a row on one service whose first channel could not be opened: both are stored, neither is queued, and the second fails on the null channel although the broker would accept it |
| CallEventServices.StoredButNotQueued | src/be/app/Modules/CallEvent/Services/CallEventService.php:22-40 | with the broker down, the event is stored and the caller gets the broker error |
| CallEventServices.NothingQueuedWithoutRow | src/be/app/Modules/CallEvent/Services/CallEventService.php:22-40 | with the database down, the caller gets the storage error and the publisher never connects |
| CallEventServices.AcceptedLongCallIdIsNotStored | src/be/app/Modules/CallEvent/Http/Requests/CallEventRequest.php:25 | a request accepted with a `call_id` longer than 100 characters builds a record that the store rejects as too long for the column |
| Php.StringToIntRoundTrip | src/be/app/Traits/HasPaginationLinks.php:60 | `(int)` reads PHP's rendering of any integer back as that integer |
| Php.AsciiLowerIdempotent | src/be/app/Traits/HasPaginationLinks.php:63-65 | `strtolower` is idempotent |
| Php.Explode | src/be/app/Support/Swagger/Services/SwaggerGenerator.php:710 | `explode` gives at least one part and no part holds the separator |
| Php.ExplodeImplode | src/be/app/Support/Swagger/Services/SwaggerGenerator.php:710 | joining the parts of `explode` with the separator gives the string back |
| ApiFilters.ColumnFor | src/be/app/Support/Filters/ApiFilter.php:43 | the column is the mapped name when the parameter is renamed, else the parameter itself |
| ApiFilters.BuildQuery | src/be/app/Support/Filters/ApiFilter.php:55-73 | no clause exactly for an unmapped operator, a range without exactly two values, or a set without an array; `json` gives `['JSON_CONTAINS', column, value]`; like-operators wrap the value in `%`; the rest pass the value through |
| ApiFilters.Transform | src/be/app/Support/Filters/ApiFilter.php:33-53 | the loop computes exactly the clauses of `TransformSpec` on the whitelist |
| ApiFilters.AppendParmClauses | src/be/app/Support/Filters/ApiFilter.php:43-49 | the inner loop over one parameter's operators appends exactly that parameter's clauses, in operator order, to those gathered so far |
| ApiFilters.TransformAppend | src/be/app/Support/Filters/ApiFilter.php:37-50 | clauses follow whitelist order: those of a concatenation are the first part's followed by the rest's |
| ApiFilters.ParmClauseSource | src/be/app/Support/Filters/ApiFilter.php:45-49 | each clause of a parameter comes from one of its whitelisted operators |
| ApiFilters.ParmClauseComplete | src/be/app/Support/Filters/ApiFilter.php:45-49 | each whitelisted operator that yields a clause has it among the parameter's clauses |
| ApiFilters.TransformSound | src/be/app/Support/Filters/ApiFilter.php:33-53 | every output clause comes from a truthy whitelisted parameter and one of its whitelisted operators |
| ApiFilters.TransformComplete | src/be/app/Support/Filters/ApiFilter.php:33-53 | every clause a truthy whitelisted parameter's operator yields is in the output |
| ApiFilters.FalsyParmContributesNothing | src/be/app/Support/Filters/ApiFilter.php:38-41 | a missing or falsy parameter can be dropped from the whitelist without changing the output |
| Pagination.QueryOr | src/be/app/Traits/HasPaginationLinks.php:60-65 | `query(key, default)` gives the present non-null value; a missing key or a null value (an empty `?key=`) gives the default |
| Pagination.GetPaginationParams | src/be/app/Traits/HasPaginationLinks.php:57-67 | fails (a `strtolower` TypeError on that value) exactly when `sort_direction` is present, non-null and not a string; otherwise page is `max(1, (int) page)` and per_page `min(100, max(1, (int) per_page))`, with 1 and 15 when missing or null, `sort_by` as given or `id`, and the direction lowercased when it is asc/desc and `desc` otherwise |
| Pagination.AtLeastOne | src/be/app/Traits/HasPaginationLinks.php:60 | `max(1, n)`: at least 1 and at least n, and n itself when n >= 1 |
| Pagination.ClampPerPage | src/be/app/Traits/HasPaginationLinks.php:61 | `min(100, max(1, n))`: within 1..100, n itself when it already is, 1 below and 100 above |
| Pagination.EmptyParametersGiveDefaults | src/be/app/Traits/HasPaginationLinks.php:57-67 | a query whose parameters are all missing or empty gives page 1, 15 per page, sorted by `id` descending |
| Pagination.PageFromQuery | src/be/app/Traits/HasPaginationLinks.php:60 | a page given as the text of `n` yields `max(1, n)` |
| Pagination.PerPageFromQuery | src/be/app/Traits/HasPaginationLinks.php:61 | a per-page given as the text of `n` yields `n` clamped to 1..100 |
| Pagination.ParamsRoundTrip | src/be/app/Traits/HasPaginationLinks.php:57-67 | feeding the normalised parameters back in gives the same parameters |
| Pagination.ReadBackParams | src/be/app/Traits/HasPaginationLinks.php:57-67 | any page of at least 1, page size in 1..100 and direction `asc`/`desc`, written as a query string, is read back unchanged |
| Pagination.LowerOfSortDirection | src/be/app/Traits/HasPaginationLinks.php:63-65 | an accepted sort direction is already lower case |
| Pagination.LastPage | src/be/app/Traits/HasPaginationLinks.php:24 | the last page is at least 1 and the least page count that holds all items |
| Pagination.ItemCount | src/be/app/Traits/HasPaginationLinks.php:38-39 | a page shows at most `per_page` items, all within the total, and none exactly when its offset is past the total |
| Pagination.ItemRange | src/be/app/Traits/HasPaginationLinks.php:38-39 | `from` and `to` are both null or both set; when set, 1 <= from <= to <= total and they span the page's items; null exactly past the last page or on an empty result |
| Pagination.QueryString | src/be/app/Traits/HasPaginationLinks.php:28-31 | the suffix is `&` followed by the encoding of the query without `page` when that encoding is truthy, and empty otherwise |
| Pagination.BuildPaginationLinks | src/be/app/Traits/HasPaginationLinks.php:21-52 | current page, page size, total, last page, `from` and `to` are the paginator's own; each present link is the base URL, `?page=`, its page number (1, current − 1, current + 1, last) and the forwarded query string; first/last links exist exactly when there are several pages; previous exactly after page 1; next exactly before the last page; the meta flags agree with the links |
| Pagination.PageLink | src/be/app/Traits/HasPaginationLinks.php:41-44 | a link is the base URL followed by `?page=`, then the page number as PHP renders it, and ends with the forwarded query string |
| Pagination.PageLinkRoundTrip | src/be/app/Traits/HasPaginationLinks.php:41-44 | the page number can be read back from a link |
| Pagination.LinksTargetTheirPages | src/be/app/Traits/HasPaginationLinks.php:41-44 | each link points to page 1, current - 1, current + 1 or the last page, all within 1..last |
| Pagination.LinksIgnoreRequestedPage | src/be/app/Traits/HasPaginationLinks.php:28-31 | the links do not depend on the request's own `page` parameter |
| Swagger.CastTypeToSwaggerType | src/be/app/Support/Swagger/Services/SwaggerGenerator.php:284-296 | each family of cast types maps to its OpenAPI type, arrays with string items, anything else to string |
| Swagger.InferPropertyType | src/be/app/Support/Swagger/Services/SwaggerGenerator.php:255-282 | the name checks apply in the source's priority: id, email, date, amount, text, else string |
| Swagger.IdSubstringMakesInteger | src/be/app/Support/Swagger/Services/SwaggerGenerator.php:255-282 | any field name containing `id` is typed integer |
| Swagger.RuleList | src/be/app/Support/Swagger/Services/SwaggerGenerator.php:298-335 | a rule string is split on `|`, a rule array is taken as is, anything else contributes no rules |
| Swagger.RuleStep | src/be/app/Support/Swagger/Services/SwaggerGenerator.php:298-335 | a type rule sets the type; other rules keep it |
| Swagger.InferIfString | src/be/app/Support/Swagger/Services/SwaggerGenerator.php:298-335 | a property still typed string takes the name-inferred type and keeps `nullable` |
| Swagger.ParseValidationRules | src/be/app/Support/Swagger/Services/SwaggerGenerator.php:298-335 | the loop computes exactly the specification's schema for the rule set |
| Swagger.LastTypeRuleWins | src/be/app/Support/Swagger/Services/SwaggerGenerator.php:298-335 | the last type rule in the list decides the type |
| Swagger.NoTypeRuleKeepsString | src/be/app/Support/Swagger/Services/SwaggerGenerator.php:298-335 | without a type rule the type stays string |
| Swagger.NullableOnlyAddsNullable | src/be/app/Support/Swagger/Services/SwaggerGenerator.php:298-335 | a `nullable…` rule only sets the nullable flag |
| Swagger.ExtractRequiredFields | src/be/app/Support/Swagger/Services/SwaggerGenerator.php:693-723 | the loop computes exactly `RequiredFields` |
| Swagger.RequiredFieldsExactly | src/be/app/Support/Swagger/Services/SwaggerGenerator.php:708-716 | a field is listed exactly when one of its rule sets holds the literal string `required` |
| Swagger.ConditionalRuleIsNotRequired | src/be/app/Support/Swagger/Services/SwaggerGenerator.php:713 | a rule array whose only rules besides `nullable` and `integer` are other values (such as a `required_if` object) is not required; adding `required` makes it so |
| Swagger.AutoGenerateEndpoint | src/be/app/Support/Swagger/Services/SwaggerGenerator.php:86-144 | an endpoint exists exactly for the six CRUD methods; its path is `/` or `/{id}`; it is authenticated; it always lists 401 and 403, 404 exactly on `/{id}`, and 422 exactly for post/put/patch; each name has its fixed method and response list (`index` get 200/401/403, `store` post 201/401/403/422, `show` get 200/401/403/404, `update` put and `updatePatch` patch 200/401/403/404/422, `destroy` delete 204/401/403/404) |
| Swagger.GetResponseSchema | src/be/app/Support/Swagger/Services/SwaggerGenerator.php:337-348 | `index` references the collection schema, single-item methods the resource schema, and anything else a bare object |
| Swagger.GetStandardResponse | src/be/app/Support/Swagger/Services/SwaggerGenerator.php:209-253 | known codes get their own response; only 200, 201 and 422 carry content, with the schemas named |
| Swagger.DefaultEndpointsUseStandardResponses | src/be/app/Support/Swagger/Services/SwaggerGenerator.php:209-253 | every code an auto-generated endpoint lists has a standard response |
| Swagger.SuccessSchemaNamesResource | src/be/app/Support/Swagger/Services/SwaggerGenerator.php:337-348 | the 200 response of an auto-generated endpoint references a schema named after the resource |
| Swagger.HasParameter | src/be/app/Support/Swagger/Services/SwaggerGenerator.php:463-472 | true exactly when a parameter has the name |
| Swagger.BuildParameters | src/be/app/Support/Swagger/Services/SwaggerGenerator.php:426-461 | the declared non-body parameters in order, then an `id` path parameter exactly when the path has `{id}` and none is declared |
| Swagger.AttributeParametersSource | src/be/app/Support/Swagger/Services/SwaggerGenerator.php:433-447 | every declared parameter comes from a non-body attribute |
| Swagger.IdPathHasIdParameter | src/be/app/Support/Swagger/Services/SwaggerGenerator.php:449-458 | a path with `{id}` always ends up with an `id` parameter |
| Swagger.LcFirst | src/be/app/Support/Swagger/Services/SwaggerGenerator.php:385 | `lcfirst` lowers the first character only |
| Swagger.NormalizeRouteUri | src/be/app/Support/Swagger/Services/SwaggerGenerator.php:409-418 | a route URI ends up starting with `/api/`, and one that already does is kept |
| Swagger.NormalizeRouteUriIdempotent | src/be/app/Support/Swagger/Services/SwaggerGenerator.php:409-418 | normalising twice is normalising once |
| Swagger.NormalizeRouteUriKeepsUri | src/be/app/Support/Swagger/Services/SwaggerGenerator.php:411-416 | normalising only prepends one of ``, `/`, `/api`, `/api/` |
| Swagger.BuildPath | src/be/app/Support/Swagger/Services/SwaggerGenerator.php:375-388 | a routed method uses its normalised URI; otherwise the path is `/v1…` ending with the endpoint path |
| Swagger.RoutedAndFallbackPathsDiffer | src/be/app/Support/Swagger/Services/SwaggerGenerator.php:375-388 | routed paths start with `/api/` and fallback paths never do |
| Swagger.FallbackPathOfResource | src/be/app/Support/Swagger/Services/SwaggerGenerator.php:384-387 | the fallback path is `/v1/` + lcfirst(name) + `s` + endpoint path |
| Swagger.SwaggerGenerator.HasTag | src/be/app/Support/Swagger/Services/SwaggerGenerator.php:474-483 | true exactly when a tag has the name |
| Swagger.SwaggerGenerator.ProcessResource | src/be/app/Support/Swagger/Services/SwaggerGenerator.php:44-52 | a known tag name leaves the tags unchanged, a new one is appended; tag names stay unique and the name is present afterwards |
| Swagger.ProcessTwice | src/be/app/Support/Swagger/Services/SwaggerGenerator.php:44-52 | processing the same resources again adds no tag, and tag names are unique |
| ApiResponses.DefaultResponseCode | src/be/app/Http/Responses/ApiBaseResponse.php:93-96 | each response class has a valid HTTP code, an error code for error classes |
| ApiResponses.DefaultErrorMessage | src/be/app/Http/Responses/ApiErrorResponse.php:29-32 | every error class has a non-empty default message that PHP does not count as empty; the base message is overridden everywhere |
| ApiResponses.WrapErrorPayload | src/be/app/Http/Responses/ErrorApiResponse.php:12-25 | with 422, a message bag or array goes under `errors`; anything else under `error` |
| ApiResponses.Make | src/be/app/Http/Responses/ErrorApiResponse.php:12-25 | `make` keeps the code; only the generic error response wraps its input |
| ApiResponses.GetStatusCode | src/be/app/Http/Responses/ApiBaseResponse.php:101-104 | the given code, else the class default |
| ApiResponses.FormatResult | src/be/app/Http/Responses/ApiBaseResponse.php:86-90 | an array with a set `original` key yields that element; unwrapping `original` is the only change it makes, so scalars, objects and lists reach the envelope unchanged |
| ApiResponses.BaseEnvelope | src/be/app/Http/Responses/ApiBaseResponse.php:32-61 | the envelope has exactly its five keys; the 422 rules move validation errors or a string message into `error` and empty `result` |
| ApiResponses.ErrorRewrite | src/be/app/Http/Responses/ApiErrorResponse.php:11-27 | error classes move `result` into `error`, empty `result`, and use the default message when it is empty |
| ApiResponses.FormatErrorMessage | src/be/app/Http/Responses/ErrorApiResponse.php:47-62 | a throwable gives its message; an array its `errors` or `error` element; a scalar its string form, or the default when empty |
| ApiResponses.ToResponse | src/be/app/Http/Responses/ApiBaseResponse.php:32-61 | the status is `getStatusCode()` and the body has the five keys; it fails exactly when the status is outside 100..599 (`setStatusCode` throws, for every class, before anything else can fail) or the generic error response's message formatting fails; each class's body is the base, rewritten or reformatted envelope, and the generic error response (ErrorApiResponse.php:27-42) keeps the base's timestamp, path and method |
| ApiResponses.ImplicitValidationCodeSkipsRewrite | src/be/app/Http/Responses/ApiBaseResponse.php:42-50 | the 422 rules look at the explicit code only: a validation response made without one is 422 yet keeps `error` null in the base envelope |
| ApiResponses.ErrorApiReportsMessageVerbatim | src/be/app/Http/Responses/ErrorApiResponse.php:27-42 | a string message comes back verbatim (even an empty one) with status code or 500; a code outside 100..599 fails as an invalid status code instead |
| ApiResponses.ErrorApiReportsValidationErrors | src/be/app/Http/Responses/ErrorApiResponse.php:12-25 | validation errors given with 422 come back unchanged in `error` |
| ApiResponses.ErrorApiRejectsThrowable | src/be/app/Http/Responses/ErrorApiResponse.php:47-55 | a throwable given to the generic error response fails the `string|array` return type, unless its code is outside 100..599, which fails first as an invalid status code |
| ApiResponses.ThrowableResultIsEmptyObject | src/be/app/Http/Responses/ApiBaseResponse.php:68-91 | a throwable as a success result is rendered as `{}`; a code outside 100..599 fails as an invalid status code instead |
| ApiResponses.ErrorDefaultsToClassMessage | src/be/app/Http/Responses/ApiErrorResponse.php:20-22 | an error class with an empty payload reports its default code and message |
| ApiResponses.ErrorClassReportsMessage | src/be/app/Http/Responses/ApiErrorResponse.php:11-27 | a string message replaces the default unless it is `""` or `"0"`; a code outside 100..599 fails as an invalid status code instead |
| ApiResponses.ErrorsKeyNeverInEnvelope | src/be/app/Http/Responses/ErrorApiResponse.php:33-35 | the rewritten envelope has no `errors` key, so the generic error response always reformats `error` |

## Findings

| source | as written | input that shows it | evidently intended | confidence | as-written member | corrected member |
|---|---|---|---|---|---|---|
| src/be/app/Modules/CallEvent/Repositories/PostgresCallEventRepository.php:25 | `findByCallId` orders by `created_time`, which is not a column of `call_event_logs` | any call id, even right after `create` stored a row for it: PostgreSQL rejects the query (undefined column) | order by `created_at`, the model's `CREATED_AT` column, and return the call's most recent row | not executed | CallEventRepositories.PostgresCallEventRepository.FindByCallIdAsWritten | CallEventRepositories.PostgresCallEventRepository.FindByCallId |

## Left out

- Carbon: only `Y-m-d H:i:s`, its `T`-separated form and Carbon's own ISO 8601 rendering are parsed; other formats Carbon accepts, and its roll-over of out-of-range dates, are not modelled. The application timezone is taken as UTC (`+00:00`), Laravel's default, because the application config is not part of this model.
- The clock (`time()`, `now()`) is a parameter.
- JSON: `json_encode` failure (`JSON_THROW_ON_ERROR`) is not modelled. A published message carries the payload value, not its bytes. Object key order in the response envelope is not modelled (a map).
- RabbitMQ library internals (sockets, heartbeats, `close()` itself throwing) are not modelled. Each library call's success or failure is a parameter. The log calls (`Log::info`, `Log::error`) are left out as I/O.
- Concurrency and the container singleton that shares one publisher between requests are left out. The model is one publisher object used sequentially.
- CallEventRequests.AcceptedRequestBuildsDto: JSON floats are not modelled (`Php.Value` has no float case), so neither are CallEventRequests.IntegerRule, CallEventRequests.MinZeroRule and CallEventDtos.DurationArgument on them. A body with `"duration": 300.0` passes `integer` (PHP renders the float as `"300"`) and `min:0`, then makes the strictly typed `?int $duration` throw, so an accepted request ends in a server error; the model cannot express that input.
- CallEventRequests.FailingFields: the PCRE `$` that also matches before a trailing newline is not modelled, because Laravel trims input strings before validation. `integer` is modelled as an optional sign and canonical digits; the whitespace and 64-bit range handling of `FILTER_VALIDATE_INT` is left out. Validation messages (`messages()`) are left out.
- Php.StringToIntRoundTrip: `(int)` saturation at `PHP_INT_MAX` and exponent strings (`"1e3"`) are not modelled; integers are unbounded.
- CallEventRepositories.InsertOutcome: a failed insert that still consumes an id from the sequence is not modelled (the id only advances on success). Text ordering is code-point order, not the database collation.
- Swagger: reflection over controllers, attributes and routes is left out. The route URI, the attributes and the rule arrays are parameters. Schema generation from models (`generateModelSchema`, `extractModelProperties`), request bodies and the document assembly are not part of this model. Rule arrays keyed by strings are not modelled.
- ApiResponses.FormatResult: the object cases (`JsonResponse`, `toArray()`, `getData()`) are not modelled; results are plain values. `formatPaginatedResponse` is not part of this model.
- ApiResponses.FormatErrorMessage: message bags and `__toString` rule objects are excluded by its precondition; the generic error response never passes one after wrapping.
- ApiResponses.ToResponse: response headers are not modelled.
- ApiResponses.ToJson: a rule object is held by its name alone and encodes as `{}`; the public properties a rule object can have (`RequiredIf::$condition`) are not modelled. A PHP array whose keys are exactly `0`..`n-1` in order is a list and encodes as a JSON array; the model's `Obj` always encodes as an object, and such arrays are written with the `List` case instead.
- CallEventDtos.TimestampArgument: an integer timestamp whose UTC date falls outside the years 0 to 9999 is reported as `YearOutOfRange`, because `Instant` only holds four-digit years; Carbon itself accepts it. Float timestamps are not modelled (`Php.Value` has no float case).
- RabbitMQ library behaviour the publisher lemmas rest on (`RabbitMQ.WedgedPublisherFailsForever`, `RabbitMQ.ChannelFailureWedgesUntilClose`, `CallEventServices.ChannelFailureWedgesService`): a refused `queue_declare` closes only the channel and leaves the connection open; a failed `basic_publish` is taken to lose the connection; a failed `channel()` leaves the new connection open. These are assumptions about php-amqplib, whose source is not part of this model.
- Pagination.QueryString: `http_build_query` is a parameter.
- ApiFilters.BuildQuery: an array value under a like-operator is rendered as `Array`; PHP's "Array to string conversion" warning, which Laravel's handler turns into an exception, is not modelled.
- The service's configured `queue_name` (src/be/app/Shared/Config/call-event.php:41) is not used by the code, which hard-codes `call-events`; only the constant is modelled.
- The controller, the token middleware, routes, the service provider and the seeder are not part of this model.

=== FILE: api_filter.dfy ===
/** The query-string filter: for each whitelisted parameter and each of its
    whitelisted operators present in the request, `transform` asks
    `buildQuery` for a clause and collects the clauses in order. A clause is
    the three-element array the query builder receives. */
module ApiFilters {
  import opened Wrappers
  import opened Php

  /** The array `[a, b, c]` that `buildQuery` returns. */
  datatype Clause = Clause(first: Value, second: Value, third: Value)

  /** A filter: the parameters it accepts with their operators (in
      declaration order), parameter-to-column renames, and operator symbols. */
  datatype ApiFilter = ApiFilter(
    safeParms: seq<(string, seq<string>)>,
    columnMap: map<string, string>,
    operatorMap: map<string, string>)

  /** The base class's `$operatorMap`. */
  const DefaultOperatorMap: map<string, string> := map[
    "eq" := "=", "lt" := "<", "lte" := "<=", "gt" := ">", "gte" := ">=", "ne" := "!=",
    "lk" := "LIKE", "ilk" := "ILIKE", "nlk" := "NOT LIKE", "inlk" := "NOT ILIKE",
    "bt" := "BETWEEN", "nbt" := "NOT BETWEEN", "in" := "IN", "nin" := "NOT IN",
    "json" := "JSON_CONTAINS"
  ]

  /** `$this->columnMap[$parm] ?? $parm` */
  function ColumnFor(f: ApiFilter, parm: string): (column: string)
    ensures parm in f.columnMap ==> column == f.columnMap[parm]
    ensures parm !in f.columnMap ==> column == parm
  {
    if parm in f.columnMap then f.columnMap[parm] else parm
  }

  predicate IsLikeOperator(op: string) {
    op == "lk" || op == "nlk" || op == "ilk" || op == "inlk"
  }

  predicate IsRangeOperator(op: string) {
    op == "bt" || op == "nbt"
  }

  predicate IsSetOperator(op: string) {
    op == "in" || op == "nin"
  }

  /** An array of exactly two values. */
  predicate IsPair(v: Value) {
    (v.List? && |v.items| == 2) || (v.Obj? && |v.fields| == 2)
  }

  /** Whether `$this->operatorMap[$operator] ?? null` is truthy. */
  predicate IsMapped(operatorMap: map<string, string>, op: string) {
    op in operatorMap && Truthy(Str(operatorMap[op]))
  }

  /** `buildQuery($column, $operator, $value)` */
  function BuildQuery(operatorMap: map<string, string>, column: string, op: string, value: Value): (r: Option<Clause>)
    ensures r.None? <==>
      || !IsMapped(operatorMap, op)
      || (IsRangeOperator(op) && !IsPair(value))
      || (IsSetOperator(op) && !IsArray(value))
    ensures r.Some? && op == "json" ==> r.value == Clause(Str("JSON_CONTAINS"), Str(column), value)
    ensures r.Some? && op != "json" ==> r.value.first == Str(column) && r.value.second == Str(operatorMap[op])
    ensures r.Some? && IsLikeOperator(op) ==> r.value.third == Str("%" + ToPhpString(value) + "%")
    ensures r.Some? && !IsLikeOperator(op) ==> r.value.third == value
  {
    if !IsMapped(operatorMap, op) then None
    else
      var symbol := operatorMap[op];
      if IsLikeOperator(op) then Some(Clause(Str(column), Str(symbol), Str("%" + ToPhpString(value) + "%")))
      else if IsRangeOperator(op) then (if IsPair(value) then Some(Clause(Str(column), Str(symbol), value)) else None)
      else if IsSetOperator(op) then (if IsArray(value) then Some(Clause(Str(column), Str(symbol), value)) else None)
      else if op == "json" then Some(Clause(Str("JSON_CONTAINS"), Str(column), value))
      else Some(Clause(Str(column), Str(symbol), value))
  }

  /** The clause one operator of one parameter contributes, if any: the
      parameter's value must be an array holding the operator as a key with a
      non-null value (`isset`), and `buildQuery` must return a clause. */
  function OperatorClause(f: ApiFilter, query: map<string, Value>, parm: string, op: string): Option<Clause> {
    var v := Lookup(query, parm);
    if IsSet(v, op) then BuildQuery(f.operatorMap, ColumnFor(f, parm), op, v.fields[op]) else None
  }

  /** The clauses of one parameter, over a prefix of its operators. */
  function ParmClauses(f: ApiFilter, query: map<string, Value>, parm: string, ops: seq<string>): seq<Clause>
    decreases |ops|
  {
    if ops == [] then []
    else
      var prev := ParmClauses(f, query, parm, ops[..|ops| - 1]);
      match OperatorClause(f, query, parm, ops[|ops| - 1])
      case Some(c) => prev + [c]
      case None => prev
  }

  /** The clauses of a prefix of the whitelisted parameters. A missing or
      falsy parameter contributes nothing. */
  function TransformSpec(f: ApiFilter, query: map<string, Value>, parms: seq<(string, seq<string>)>): seq<Clause>
    decreases |parms|
  {
    if parms == [] then []
    else
      var (parm, ops) := parms[|parms| - 1];
      TransformSpec(f, query, parms[..|parms| - 1])
      + (if Truthy(Lookup(query, parm)) then ParmClauses(f, query, parm, ops) else [])
  }

  /** One more operator extends a parameter's clauses by what `buildQuery`
      returns for it, when the operator is set in the parameter's value. */
  lemma ParmClausesStep(f: ApiFilter, query: map<string, Value>, parm: string, ops: seq<string>, j: nat)
    requires j < |ops|
    ensures var v := Lookup(query, parm);
      ParmClauses(f, query, parm, ops[..j + 1]) == ParmClauses(f, query, parm, ops[..j])
        + (if IsSet(v, ops[j]) && BuildQuery(f.operatorMap, ColumnFor(f, parm), ops[j], v.fields[ops[j]]).Some?
           then [BuildQuery(f.operatorMap, ColumnFor(f, parm), ops[j], v.fields[ops[j]]).value] else [])
  {
    assert ops[..j + 1][..j] == ops[..j];
  }

  /** One more parameter extends the clauses by that parameter's clauses. */
  lemma TransformSpecStep(f: ApiFilter, query: map<string, Value>, parms: seq<(string, seq<string>)>, i: nat)
    requires i < |parms|
    ensures TransformSpec(f, query, parms[..i + 1]) == TransformSpec(f, query, parms[..i])
      + (if Truthy(Lookup(query, parms[i].0)) then ParmClauses(f, query, parms[i].0, parms[i].1) else [])
  {
    assert parms[..i + 1][..i] == parms[..i];
  }

  /** The inner loop of `transform`: the clauses of one parameter's
      operators, appended in whitelist order to those gathered so far. */
  method AppendParmClauses(f: ApiFilter, query: map<string, Value>, parm: string, operators: seq<string>, eloQuery: seq<Clause>)
    returns (out: seq<Clause>)
    ensures out == eloQuery + ParmClauses(f, query, parm, operators)
  {
    var value := Lookup(query, parm);
    var column := ColumnFor(f, parm);
    out := eloQuery;
    var j := 0;
    while j < |operators|
      invariant 0 <= j <= |operators|
      invariant out == eloQuery + ParmClauses(f, query, parm, operators[..j])
    {
      var op := operators[j];
      ParmClausesStep(f, query, parm, operators, j);
      if IsSet(value, op) {
        var result := BuildQuery(f.operatorMap, column, op, value.fields[op]);
        if result.Some? {
          out := out + [result.value];
        }
      }
      j := j + 1;
    }
    assert operators[..j] == operators;
  }

  /** `transform($request)`, given the request's query parameters. */
  method Transform(f: ApiFilter, query: map<string, Value>) returns (eloQuery: seq<Clause>)
    ensures eloQuery == TransformSpec(f, query, f.safeParms)
  {
    eloQuery := [];
    var i := 0;
    while i < |f.safeParms|
      invariant 0 <= i <= |f.safeParms|
      invariant eloQuery == TransformSpec(f, query, f.safeParms[..i])
    {
      var (parm, operators) := f.safeParms[i];
      TransformSpecStep(f, query, f.safeParms, i);
      if Truthy(Lookup(query, parm)) {
        eloQuery := AppendParmClauses(f, query, parm, operators, eloQuery);
      }
      i := i + 1;
    }
    assert f.safeParms[..i] == f.safeParms;
  }

  // ---------------------------------------------------------------------
  // Properties

  /** Output order follows the whitelist: the clauses of a longer whitelist
      are those of its first part followed by those of the rest. */
  lemma {:induction false} TransformAppend(f: ApiFilter, query: map<string, Value>, a: seq<(string, seq<string>)>, b: seq<(string, seq<string>)>)
    ensures TransformSpec(f, query, a + b) == TransformSpec(f, query, a) + TransformSpec(f, query, b)
    decreases |b|
  {
    if b == [] {
      assert a + b == a;
    } else {
      assert (a + b)[..|a + b| - 1] == a + b[..|b| - 1];
      TransformAppend(f, query, a, b[..|b| - 1]);
    }
  }

  /** Every clause of a parameter comes from one of its whitelisted operators. */
  lemma {:induction false} ParmClauseSource(f: ApiFilter, query: map<string, Value>, parm: string, ops: seq<string>, c: Clause)
    requires c in ParmClauses(f, query, parm, ops)
    ensures exists k :: 0 <= k < |ops| && OperatorClause(f, query, parm, ops[k]) == Some(c)
    decreases |ops|
  {
    var last := ops[|ops| - 1];
    if OperatorClause(f, query, parm, last) == Some(c) {
      assert OperatorClause(f, query, parm, ops[|ops| - 1]) == Some(c);
    } else {
      ParmClauseSource(f, query, parm, ops[..|ops| - 1], c);
      var k :| 0 <= k < |ops| - 1 && OperatorClause(f, query, parm, ops[..|ops| - 1][k]) == Some(c);
      assert ops[..|ops| - 1][k] == ops[k];
    }
  }

  /** Every whitelisted operator that yields a clause has it in the output. */
  lemma {:induction false} ParmClauseComplete(f: ApiFilter, query: map<string, Value>, parm: string, ops: seq<string>, k: nat)
    requires k < |ops| && OperatorClause(f, query, parm, ops[k]).Some?
    ensures OperatorClause(f, query, parm, ops[k]).value in ParmClauses(f, query, parm, ops)
    decreases |ops|
  {
    if k < |ops| - 1 {
      assert ops[..|ops| - 1][k] == ops[k];
      ParmClauseComplete(f, query, parm, ops[..|ops| - 1], k);
    }
  }

  /** Each clause of the output comes from a whitelisted parameter whose
      value is truthy and one of that parameter's whitelisted operators. */
  lemma {:induction false} TransformSound(f: ApiFilter, query: map<string, Value>, parms: seq<(string, seq<string>)>, c: Clause)
    requires c in TransformSpec(f, query, parms)
    ensures exists i, k ::
              && 0 <= i < |parms| && 0 <= k < |parms[i].1|
              && Truthy(Lookup(query, parms[i].0))
              && OperatorClause(f, query, parms[i].0, parms[i].1[k]) == Some(c)
    decreases |parms|
  {
    var n := |parms| - 1;
    var (parm, ops) := parms[n];
    if Truthy(Lookup(query, parm)) && c in ParmClauses(f, query, parm, ops) {
      ParmClauseSource(f, query, parm, ops, c);
      var k :| 0 <= k < |ops| && OperatorClause(f, query, parm, ops[k]) == Some(c);
      assert 0 <= n < |parms| && 0 <= k < |parms[n].1|;
    } else {
      TransformSound(f, query, parms[..n], c);
      var i, k :|
        && 0 <= i < n && 0 <= k < |parms[..n][i].1|
        && Truthy(Lookup(query, parms[..n][i].0))
        && OperatorClause(f, query, parms[..n][i].0, parms[..n][i].1[k]) == Some(c);
      assert parms[..n][i] == parms[i];
    }
  }

  /** Each whitelisted operator of a truthy parameter that yields a clause
      contributes it to the output. */
  lemma {:induction false} TransformComplete(f: ApiFilter, query: map<string, Value>, parms: seq<(string, seq<string>)>, i: nat, k: nat)
    requires i < |parms| && k < |parms[i].1|
    requires Truthy(Lookup(query, parms[i].0))
    requires OperatorClause(f, query, parms[i].0, parms[i].1[k]).Some?
    ensures OperatorClause(f, query, parms[i].0, parms[i].1[k]).value in TransformSpec(f, query, parms)
    decreases |parms|
  {
    var n := |parms| - 1;
    var (parm, ops) := parms[n];
    var tail := if Truthy(Lookup(query, parm)) then ParmClauses(f, query, parm, ops) else [];
    assert TransformSpec(f, query, parms) == TransformSpec(f, query, parms[..n]) + tail;
    var c := OperatorClause(f, query, parms[i].0, parms[i].1[k]).value;
    if i == n {
      ParmClauseComplete(f, query, parm, ops, k);
      assert c in tail;
    } else {
      assert parms[..n][i] == parms[i];
      TransformComplete(f, query, parms[..n], i, k);
      assert c in TransformSpec(f, query, parms[..n]);
    }
  }

  /** A parameter that is missing from the query or falsy contributes no clause. */
  lemma FalsyParmContributesNothing(f: ApiFilter, query: map<string, Value>, a: seq<(string, seq<string>)>, b: seq<(string, seq<string>)>, parm: string, ops: seq<string>)
    requires !Truthy(Lookup(query, parm))
    ensures TransformSpec(f, query, a + [(parm, ops)] + b) == TransformSpec(f, query, a + b)
  {
    TransformAppend(f, query, a + [(parm, ops)], b);
    TransformAppend(f, query, a, b);
    assert (a + [(parm, ops)])[..|a|] == a;
  }
}

=== FILE: broker_exception.dfy ===
/** The exception the broker layer throws, and its two named constructors. */
module BrokerExceptions {
  import opened Php

  /** A `BrokerConnectionException`: a runtime exception with a message. */
  datatype BrokerConnectionException = BrokerConnectionException(message: string)

  const ConnectionPrefix: string := "Failed to connect to "
  const PublishPrefix: string := "Failed to publish message to queue '"

  /** `connectionFailed($broker, $reason)` */
  function ConnectionFailed(broker: string, reason: string): (e: BrokerConnectionException)
    ensures StartsWith(e.message, ConnectionPrefix)
    ensures |e.message| == |ConnectionPrefix| + |broker| + 2 + |reason|
    ensures e.message[|ConnectionPrefix|..|ConnectionPrefix| + |broker|] == broker
    ensures e.message[|e.message| - |reason|..] == reason
  {
    BrokerConnectionException(ConnectionPrefix + broker + ": " + reason)
  }

  /** `publishFailed($queue, $reason)` */
  function PublishFailed(queue: string, reason: string): (e: BrokerConnectionException)
    ensures StartsWith(e.message, PublishPrefix)
    ensures |e.message| == |PublishPrefix| + |queue| + 3 + |reason|
    ensures e.message[|PublishPrefix|..|PublishPrefix| + |queue|] == queue
    ensures e.message[|e.message| - |reason|..] == reason
  {
    BrokerConnectionException(PublishPrefix + queue + "': " + reason)
  }

  /** A message from one constructor is never a message from the other: they
      differ at the eleventh character. */
  lemma ConstructorsNeverCollide(broker: string, r1: string, queue: string, r2: string)
    ensures ConnectionFailed(broker, r1) != PublishFailed(queue, r2)
  {
    assert ConnectionFailed(broker, r1).message[10] == 'c';
    assert PublishFailed(queue, r2).message[10] == 'p';
  }

  /** For a fixed broker, the message determines the reason. */
  lemma ConnectionFailedDeterminesReason(broker: string, r1: string, r2: string)
    requires ConnectionFailed(broker, r1) == ConnectionFailed(broker, r2)
    ensures r1 == r2
  {
    var m := ConnectionFailed(broker, r1).message;
    assert r1 == m[|m| - |r1|..];
  }

  /** For a fixed queue, the message determines the reason. */
  lemma PublishFailedDeterminesReason(queue: string, r1: string, r2: string)
    requires PublishFailed(queue, r1) == PublishFailed(queue, r2)
    ensures r1 == r2
  {
    var m := PublishFailed(queue, r1).message;
    assert r1 == m[|m| - |r1|..];
  }

  /** A connection failure inside `publish` is wrapped again: the caller sees
      both prefixes, then the library's reason. */
  lemma NestedConnectionFailure(queue: string, broker: string, reason: string)
    ensures PublishFailed(queue, ConnectionFailed(broker, reason).message).message
         == PublishPrefix + queue + "': " + ConnectionPrefix + broker + ": " + reason
  {
  }
}

=== FILE: call_event_dto.dfy ===
/** The immutable call-event record that travels from the validated request to
    the store and the broker: `fromArray` builds it from an input array
    (throwing on ill-typed fields, as the file's strict typing makes PHP do),
    `toArray` renders it as the payload that is stored and published. */
module CallEventDtos {
  import opened Wrappers
  import opened Php
  import opened Timestamps
  import opened CallEventTypes

  datatype CallEventDTO = CallEventDTO(
    callId: string,
    callerNumber: string,
    calleeNumber: string,
    eventType: CallEventType,
    timestamp: Instant,
    duration: Option<int>)

  /** What `fromArray` throws. */
  datatype DtoError =
    /** `$data['key']` on a key the array does not hold: PHP's "Undefined
        array key" warning, which Laravel rethrows as an `ErrorException`. */
    | MissingKey(key: string)
    /** An argument of the wrong type for the named parameter (strict typing). */
    | TypeError(parameter: string)
    /** `CallEventTypeEnum::from` on a string that is no wire value. */
    | ValueError(value: string)
    /** `Carbon::parse` on a string it cannot read. */
    | InvalidFormat(text: string)
    /** An integer timestamp whose UTC date has no four-digit year: a date
        this model's `Instant` cannot hold. */
    | YearOutOfRange(seconds: int)

  /** The keys of `toArray()`, in the order it writes them. */
  const PayloadKeys: seq<string> := ["call_id", "caller_number", "callee_number", "event_type", "timestamp", "duration"]

  /** `CallEventTypeEnum::from($data['event_type'])` */
  function EventTypeArgument(v: Value): (r: Result<CallEventType, DtoError>)
    ensures r.Success? <==> v.Str? && v.s in Values()
    ensures r.Success? ==> WireValue(r.value) == v.s
  {
    match v
    case Str(s) => (match From(s) case Some(t) => Success(t) case None => Failure(ValueError(s)))
    case _ => Failure(TypeError("value"))
  }

  /** `Carbon::parse($data['timestamp'])`: null means the current time, and an
      integer is a Unix time read in UTC. */
  function TimestampArgument(v: Value, now: Instant): (r: Result<Instant, DtoError>)
    ensures v == Null ==> r == Success(now)
    ensures v.Str? ==> (r.Success? <==> ParseCarbon(v.s).Some?)
    ensures v.Str? && r.Success? ==> Some(r.value) == ParseCarbon(v.s)
    ensures v.Int? ==> (r.Success? <==> FromUnixTime(v.i).Some?)
    ensures v.Int? && r.Success? ==> ToUnixTime(r.value) == v.i
    ensures !v.Null? && !v.Str? && !v.Int? ==> r.Failure?
  {
    match v
    case Null => Success(now)
    case Str(s) => (match ParseCarbon(s) case Some(d) => Success(d) case None => Failure(InvalidFormat(s)))
    case Int(i) =>
      (match FromUnixTime(i)
       case Some(d) => UnixTimeOfReading(i); Success(d)
       case None => Failure(YearOutOfRange(i)))
    case _ => Failure(TypeError("time"))
  }

  /** `$data['duration'] ?? null`, passed as `?int $duration`. */
  function DurationArgument(v: Value): (r: Result<Option<int>, DtoError>)
    ensures r.Success? <==> v.Null? || v.Int?
    ensures r == Success(None) <==> v.Null?
    ensures v.Int? ==> r == Success(Some(v.i))
  {
    match v
    case Null => Success(None)
    case Int(i) => Success(Some(i))
    case _ => Failure(TypeError("duration"))
  }

  /** The keys `fromArray` reads without `??`, in the order it reads them. */
  const ReadKeys: seq<string> := ["call_id", "caller_number", "callee_number", "event_type", "timestamp"]

  /** What `fromArray` needs of its input to return rather than throw. */
  predicate WellTyped(data: map<string, Value>) {
    && "call_id" in data && data["call_id"].Str?
    && "caller_number" in data && data["caller_number"].Str?
    && "callee_number" in data && data["callee_number"].Str?
    && "event_type" in data && data["event_type"].Str? && data["event_type"].s in Values()
    && "timestamp" in data
    && (|| data["timestamp"].Null?
        || (data["timestamp"].Str? && ParseCarbon(data["timestamp"].s).Some?)
        || (data["timestamp"].Int? && FromUnixTime(data["timestamp"].i).Some?))
    && (Lookup(data, "duration").Null? || Lookup(data, "duration").Int?)
  }

  /** An integer timestamp is read as a Unix time in UTC. */
  lemma IntegerTimestampIsUnixTime(now: Instant)
    ensures TimestampArgument(Int(1764844200), now) == Success(DateTime(2025, 12, 4, 10, 30, 0))
  {
    UnixTimeIn2025();
  }

  /** `CallEventDTO::fromArray($data)`. The named arguments are evaluated
      left to right: each `$data['key']` throws on a missing key, the enum
      and the date parser throw as they are reached, and then the
      constructor checks the parameter types in order. Only `duration` is
      read with `?? null`. */
  function FromArray(data: map<string, Value>, now: Instant): (r: Result<CallEventDTO, DtoError>)
    ensures r.Success? <==> WellTyped(data)
    ensures r.Success? ==>
      && Str(r.value.callId) == data["call_id"]
      && Str(r.value.callerNumber) == data["caller_number"]
      && Str(r.value.calleeNumber) == data["callee_number"]
      && Str(WireValue(r.value.eventType)) == data["event_type"]
      && (r.value.duration.None? <==> Lookup(data, "duration").Null?)
      && (r.value.duration.Some? ==> Int(r.value.duration.value) == Lookup(data, "duration"))
      && TimestampArgument(data["timestamp"], now) == Success(r.value.timestamp)
    ensures r.Failure? && r.error.MissingKey? ==> r.error.key in ReadKeys && r.error.key !in data
    ensures "call_id" !in data ==> r == Failure(MissingKey("call_id"))
    ensures ("call_id" in data && "caller_number" in data && "callee_number" in data && "event_type" in data
             && EventTypeArgument(data["event_type"]).Failure?) ==>
      r == Failure(EventTypeArgument(data["event_type"]).error)
  {
    if "call_id" !in data then Failure(MissingKey("call_id"))
    else if "caller_number" !in data then Failure(MissingKey("caller_number"))
    else if "callee_number" !in data then Failure(MissingKey("callee_number"))
    else if "event_type" !in data then Failure(MissingKey("event_type"))
    else
      var callId := data["call_id"];
      var caller := data["caller_number"];
      var callee := data["callee_number"];
      match EventTypeArgument(data["event_type"])
      case Failure(e) => Failure(e)
      case Success(eventType) =>
        if "timestamp" !in data then Failure(MissingKey("timestamp"))
        else
          match TimestampArgument(data["timestamp"], now)
          case Failure(e) => Failure(e)
          case Success(timestamp) =>
            if !callId.Str? then Failure(TypeError("callId"))
            else if !caller.Str? then Failure(TypeError("callerNumber"))
            else if !callee.Str? then Failure(TypeError("calleeNumber"))
            else
              match DurationArgument(Lookup(data, "duration"))
              case Failure(e) => Failure(e)
              case Success(duration) =>
                Success(CallEventDTO(callId.s, caller.s, callee.s, eventType, timestamp, duration))
  }

  /** An array without `timestamp` makes `fromArray` throw, even when every
      other field is valid: the current time is used only for an explicit
      null. */
  lemma MissingTimestampThrows(data: map<string, Value>, now: Instant)
    requires "call_id" in data && "caller_number" in data && "callee_number" in data && "event_type" in data
    requires EventTypeArgument(data["event_type"]).Success?
    requires "timestamp" !in data
    ensures FromArray(data, now) == Failure(MissingKey("timestamp"))
  {
  }

  /** `$dto->toArray()`: exactly the six payload keys. */
  function ToArray(dto: CallEventDTO): (m: map<string, Value>)
    ensures m.Keys == set k | k in PayloadKeys
  {
    map[
      "call_id" := Str(dto.callId),
      "caller_number" := Str(dto.callerNumber),
      "callee_number" := Str(dto.calleeNumber),
      "event_type" := Str(WireValue(dto.eventType)),
      "timestamp" := Str(Iso8601(dto.timestamp)),
      "duration" := match dto.duration case Some(d) => Int(d) case None => Null
    ]
  }

  /** What each key of a payload reads as. */
  lemma ToArrayLookups(dto: CallEventDTO)
    ensures "call_id" in ToArray(dto) && ToArray(dto)["call_id"] == Str(dto.callId)
    ensures "caller_number" in ToArray(dto) && ToArray(dto)["caller_number"] == Str(dto.callerNumber)
    ensures "callee_number" in ToArray(dto) && ToArray(dto)["callee_number"] == Str(dto.calleeNumber)
    ensures "event_type" in ToArray(dto) && ToArray(dto)["event_type"] == Str(WireValue(dto.eventType))
    ensures "timestamp" in ToArray(dto) && ToArray(dto)["timestamp"] == Str(Iso8601(dto.timestamp))
    ensures dto.duration.Some? ==> Lookup(ToArray(dto), "duration") == Int(dto.duration.value)
    ensures dto.duration.None? ==> Lookup(ToArray(dto), "duration") == Null
  {
  }

  /** The rendered timestamp of a payload parses back to the same instant. */
  lemma TimestampOfRendering(d: Instant, now: Instant)
    ensures TimestampArgument(Str(Iso8601(d)), now) == Success(d)
  {
    Iso8601RoundTrip(d);
  }

  /** A payload rebuilds the record it came from, whatever the current time. */
  lemma FromArrayOfToArray(dto: CallEventDTO, now: Instant)
    ensures FromArray(ToArray(dto), now) == Success(dto)
  {
    var m := ToArray(dto);
    ToArrayLookups(dto);
    TimestampOfRendering(dto.timestamp, now);
    FromWireValue(dto.eventType);
    assert EventTypeArgument(m["event_type"]) == Success(dto.eventType);
    assert DurationArgument(Lookup(m, "duration")) == Success(dto.duration);
    assert WellTyped(m);
    var r := FromArray(m, now);
    assert WireValue(r.value.eventType) == WireValue(dto.eventType);
    FromWireValue(r.value.eventType);
    assert r.value == dto;
  }

  /** The instant `Carbon::parse` yields, case by case. */
  lemma TimestampOfArgument(v: Value, now: Instant, t: Instant)
    requires TimestampArgument(v, now) == Success(t)
    ensures v.Null? ==> t == now
    ensures v.Str? ==> ParseCarbon(v.s) == Some(t)
    ensures v.Int? ==> FromUnixTime(v.i) == Some(t)
  {
    if v.Int? {
      UnixTimeRoundTrip(t);
    }
  }

  /** Rendering a record built from an array gives that array back on every
      key but the timestamp, which comes back in ISO 8601 form (the current
      time when the input's timestamp was null). */
  lemma ToArrayOfFromArray(data: map<string, Value>, now: Instant)
    requires FromArray(data, now).Success?
    ensures var m := ToArray(FromArray(data, now).value);
      && m["call_id"] == data["call_id"]
      && m["caller_number"] == data["caller_number"]
      && m["callee_number"] == data["callee_number"]
      && m["event_type"] == data["event_type"]
      && Lookup(m, "duration") == Lookup(data, "duration")
      && (data["timestamp"].Null? ==> m["timestamp"] == Str(Iso8601(now)))
      && (data["timestamp"].Str? ==> m["timestamp"] == Str(Iso8601(ParseCarbon(data["timestamp"].s).value)))
      && (data["timestamp"].Int? ==> m["timestamp"] == Str(Iso8601(FromUnixTime(data["timestamp"].i).value)))
  {
    var dto := FromArray(data, now).value;
    ToArrayLookups(dto);
    TimestampOfArgument(data["timestamp"], now, dto.timestamp);
  }
}

=== FILE: call_event_log.dfy ===
/** The Eloquent model of the `call_event_logs` table: mass assignment keeps
    only the fillable attributes, the casts decide how stored values read
    back, and the `creating` hook stamps `created_at` with the current Unix
    time when the attribute is falsy. Table timestamps are off, so nothing
    else writes `created_at`. */
module CallEventLogs {
  import opened Wrappers
  import opened Php
  import opened CallEventTypes

  const TableName: string := "call_event_logs"

  /** The columns the migration creates. */
  const TableColumns: seq<string> := ["id", "call_id", "event_type", "payload", "created_at"]

  /** `$fillable` */
  const Fillable: seq<string> := ["call_id", "event_type", "payload", "created_at"]

  /** The `integer` cast on read: null stays null, anything else goes through `(int)`. */
  function CastInteger(raw: Value): (v: Value)
    ensures raw.Null? <==> v.Null?
    ensures !raw.Null? ==> v.Int? && v.i == ToInt(raw)
  {
    if raw.Null? then Null else Int(ToInt(raw))
  }

  /** The enum cast on read: the stored wire value becomes its case; `None`
      is the ValueError `from` throws for any other stored string. */
  function CastEventType(raw: string): (t: Option<CallEventType>)
    ensures t.Some? <==> raw in Values()
    ensures t.Some? ==> WireValue(t.value) == raw
  {
    From(raw)
  }

  /** An instance being created, with its raw attributes. */
  class CallEventLog {
    var attributes: map<string, Value>

    /** `new CallEventLog($input)` through `fill`: keys outside `$fillable`
        are dropped. */
    constructor(input: map<string, Value>)
      ensures attributes == map k | k in input && k in Fillable :: input[k]
    {
      attributes := map k | k in input && k in Fillable :: input[k];
    }

    /** `$model->created_at`, read through its cast. */
    function CreatedAt(): Value
      reads this
    {
      CastInteger(Lookup(attributes, "created_at"))
    }

    /** The `creating` hook: a falsy `created_at` becomes `now`. */
    method Creating(now: int)
      modifies this
      ensures !Truthy(old(CreatedAt())) ==> attributes == old(attributes)["created_at" := Int(now)]
      ensures Truthy(old(CreatedAt())) ==> attributes == old(attributes)
    {
      if !Truthy(CreatedAt()) {
        attributes := attributes["created_at" := Int(now)];
      }
    }
  }

  /** The hook leaves a truthy `created_at` alone and otherwise stamps it: a
      given value survives only when it casts to a non-zero integer. */
  lemma CreatingKeepsOnlyNonZero(raw: Value)
    ensures Truthy(CastInteger(raw)) <==> !raw.Null? && ToInt(raw) != 0
  {
  }
}

=== FILE: call_event_request.dfy ===
/** The validation rules of the call-event request. A request is a map from
    field names to the values its body carries; each field either passes all
    of its rules or is reported as failing. Only the verdict per field is
    modelled, not the messages. */
module CallEventRequests {
  import opened Wrappers
  import opened Php
  import opened Timestamps
  import opened CallEventTypes
  import opened CallEventDtos

  /** The fields `rules()` names, in its order. */
  const RuleKeys: seq<string> := ["call_id", "caller_number", "callee_number", "event_type", "timestamp", "duration"]

  /** The characters PHP's `trim` strips. */
  predicate IsTrimmedChar(c: char) {
    c == ' ' || c == '\t' || c == '\n' || c == '\r' || c == 0 as char || c == 11 as char
  }

  predicate IsBlank(s: string) {
    forall i :: 0 <= i < |s| ==> IsTrimmedChar(s[i])
  }

  /** Laravel's `required` (and the body of `required_if` once its condition
      holds) fails on null, a blank string and an empty array. */
  predicate RequiredFails(v: Value) {
    v.Null? || (v.Str? && IsBlank(v.s)) || (v.List? && v.items == []) || (v.Obj? && v.fields == map[])
  }

  /** A value on which a `nullable` field's other rules are not run: a missing
      key (read as null), null, or a blank string. */
  predicate SkipsRules(v: Value) {
    v.Null? || (v.Str? && IsBlank(v.s))
  }

  // ---------------------------------------------------------------------
  // The phone-number pattern `^\+?[0-9]{10,15}$`

  /** The pattern read as a grammar: an optional plus sign, then ten to
      fifteen decimal digits, and nothing else. */
  ghost predicate MatchesPhonePattern(s: string) {
    exists sign: string, digits: string ::
      (sign == "" || sign == "+") && s == sign + digits && 10 <= |digits| <= 15 && AllDigits(digits)
  }

  /** The check as the validator runs it, one character at a time. */
  predicate IsPhoneNumber(s: string) {
    var digits := if s != [] && s[0] == '+' then s[1..] else s;
    10 <= |digits| <= 15 && AllDigits(digits)
  }

  /** The direct check accepts exactly the strings the pattern matches. */
  lemma PhoneCheckIsPattern(s: string)
    ensures IsPhoneNumber(s) <==> MatchesPhonePattern(s)
  {
    if IsPhoneNumber(s) {
      if s != [] && s[0] == '+' {
        assert s == "+" + s[1..];
      } else {
        assert s == "" + s;
      }
    }
    if MatchesPhonePattern(s) {
      var sign: string, digits: string :|
        (sign == "" || sign == "+") && s == sign + digits && 10 <= |digits| <= 15 && AllDigits(digits);
      if sign == "+" {
        assert s[1..] == digits;
      } else {
        assert s == digits && IsDigit(s[0]);
      }
    }
  }

  // ---------------------------------------------------------------------
  // `integer` and `min:0`

  /** FILTER_VALIDATE_INT on a string: an optional sign, then `0` or digits
      without a leading zero. */
  predicate IsIntegerString(s: string) {
    var body := if s != [] && (s[0] == '-' || s[0] == '+') then s[1..] else s;
    body == "0" || (body != [] && '1' <= body[0] <= '9' && AllDigits(body))
  }

  /** Laravel's `integer` rule. PHP turns `true` into `"1"` before filtering. */
  predicate IntegerRule(v: Value) {
    match v
    case Int(_) => true
    case Str(s) => IsIntegerString(s)
    case Bool(b) => b
    case _ => false
  }

  /** `min:0` on a field that also carries `integer`: numbers compare by value. */
  predicate MinZeroRule(v: Value)
    requires IntegerRule(v)
  {
    match v
    case Int(i) => i >= 0
    case Str(s) => StringToInt(s) >= 0
    case _ => true
  }

  // ---------------------------------------------------------------------
  // `date` and `date_format:Y-m-d H:i:s`

  /** The text the date rules look at: strings as they are, integers as PHP
      renders them; anything else fails both rules. */
  function DateText(v: Value): Option<string> {
    match v
    case Str(s) => Some(s)
    case Int(i) => Some(IntToString(i))
    case _ => None
  }

  /** `date` and `date_format:Y-m-d H:i:s` together: the text is a calendar
      date-time written exactly in that format, with a year `checkdate`
      accepts. */
  predicate TimestampRules(v: Value) {
    DateText(v).Some? && ParseYmdHis(DateText(v).value).Some? && ParseYmdHis(DateText(v).value).value.year >= 1
  }

  /** No integer is written in the date format: an integer field never passes. */
  lemma IntegerIsNoTimestamp(n: int)
    ensures ParseYmdHis(IntToString(n)).None?
  {
    var s := IntToString(n);
    if |s| >= 5 {
      if n < 0 {
        assert s[4] == NatToDecimal(-n)[3];
      }
      assert IsDigit(s[4]);
    }
  }

  // ---------------------------------------------------------------------
  // The rules

  /** `required_if` on `duration`: the raw input's `event_type` is identical
      to the `call_ended` wire value. */
  predicate DurationRequired(input: map<string, Value>) {
    Lookup(input, "event_type") == Str(WireValue(CallEnded))
  }

  /** `call_id`: required, string, max:255 (characters). */
  predicate CallIdFails(v: Value) {
    RequiredFails(v) || !v.Str? || |v.s| > 255
  }

  /** `caller_number` and `callee_number`: required, string, the phone pattern. */
  predicate PhoneFails(v: Value) {
    RequiredFails(v) || !v.Str? || !IsPhoneNumber(v.s)
  }

  /** `event_type`: required, string, one of the enum's wire values. */
  predicate EventTypeFails(v: Value) {
    RequiredFails(v) || !v.Str? || v.s !in Values()
  }

  /** `timestamp`: required, date, date_format:Y-m-d H:i:s. */
  predicate TimestampFails(v: Value) {
    RequiredFails(v) || !TimestampRules(v)
  }

  /** `duration`: required_if, nullable, integer, min:0. */
  predicate DurationFails(input: map<string, Value>) {
    var v := Lookup(input, "duration");
    (DurationRequired(input) && RequiredFails(v))
    || (!SkipsRules(v) && !(IntegerRule(v) && MinZeroRule(v)))
  }

  /** Whether the field `key` fails its rules on `input`. */
  predicate FieldFails(input: map<string, Value>, key: string) {
    if key == "call_id" then CallIdFails(Lookup(input, key))
    else if key == "caller_number" || key == "callee_number" then PhoneFails(Lookup(input, key))
    else if key == "event_type" then EventTypeFails(Lookup(input, key))
    else if key == "timestamp" then TimestampFails(Lookup(input, key))
    else if key == "duration" then DurationFails(input)
    else false
  }

  /** The fields the validator reports. */
  function FailingFields(input: map<string, Value>): (fs: set<string>)
    ensures forall k :: k in fs <==> k in RuleKeys && FieldFails(input, k)
  {
    set k | k in RuleKeys && FieldFails(input, k)
  }

  predicate Accepts(input: map<string, Value>) {
    FailingFields(input) == {}
  }

  /** `$request->validated()`: the input restricted to the fields with rules. */
  function Validated(input: map<string, Value>): (m: map<string, Value>)
    ensures forall k :: k in m <==> k in input && k in RuleKeys
    ensures forall k :: k in m ==> m[k] == input[k]
  {
    map k | k in input && k in RuleKeys :: input[k]
  }

  // ---------------------------------------------------------------------
  // Properties

  /** An empty body fails on the five always-required fields and not on
      `duration`. */
  lemma EmptyInputFailures()
    ensures FailingFields(map[]) == {"call_id", "caller_number", "callee_number", "event_type", "timestamp"}
  {
    var fs := FailingFields(map[]);
    assert !FieldFails(map[], "duration");
    forall k | k in {"call_id", "caller_number", "callee_number", "event_type", "timestamp"}
      ensures k in fs
    {
      assert FieldFails(map[], k);
    }
  }

  /** A missing or null duration is reported exactly when the event type is
      `call_ended`. */
  lemma MissingDurationRule(input: map<string, Value>)
    requires Lookup(input, "duration").Null?
    ensures "duration" in FailingFields(input) <==> Lookup(input, "event_type") == Str("call_ended")
  {
  }

  /** An integer duration is reported exactly when it is negative, whatever
      the event type. */
  lemma IntegerDurationRule(input: map<string, Value>, d: int)
    requires Lookup(input, "duration") == Int(d)
    ensures "duration" in FailingFields(input) <==> d < 0
  {
  }

  /** The string `invalid-phone` is no phone number. */
  lemma InvalidPhoneRejected(input: map<string, Value>)
    requires Lookup(input, "caller_number") == Str("invalid-phone")
    ensures "caller_number" in FailingFields(input)
  {
    assert !IsDigit("invalid-phone"[0]);
  }

  /** An event type outside the enum's wire values is reported. */
  lemma UnknownEventTypeRejected(input: map<string, Value>, t: string)
    requires Lookup(input, "event_type") == Str(t) && From(t).None?
    ensures "event_type" in FailingFields(input)
  {
  }

  /** A timestamp the validator accepts is one `Carbon::parse` reads as the
      same date-time. */
  lemma AcceptedTimestampParses(input: map<string, Value>)
    requires "timestamp" !in FailingFields(input)
    ensures Lookup(input, "timestamp").Str?
    ensures ParseCarbon(Lookup(input, "timestamp").s) == ParseYmdHis(Lookup(input, "timestamp").s)
    ensures ParseCarbon(Lookup(input, "timestamp").s).Some?
  {
    var v := Lookup(input, "timestamp");
    if v.Int? {
      IntegerIsNoTimestamp(v.i);
    }
  }

  lemma ValidatedAgrees(input: map<string, Value>, k: string)
    requires k in RuleKeys
    ensures Lookup(Validated(input), k) == Lookup(input, k)
  {
  }

  /** An accepted request passes the rule of each field. */
  lemma AcceptedAt(input: map<string, Value>, i: nat)
    requires Accepts(input) && i < |RuleKeys|
    ensures !FieldFails(input, RuleKeys[i])
  {
    assert RuleKeys[i] !in FailingFields(input);
  }

  /** What an accepted request guarantees about each of its fields. */
  lemma AcceptedFields(input: map<string, Value>)
    requires Accepts(input)
    ensures Lookup(input, "call_id").Str?
    ensures Lookup(input, "caller_number").Str? && Lookup(input, "callee_number").Str?
    ensures Lookup(input, "event_type").Str? && Lookup(input, "event_type").s in Values()
    ensures Lookup(input, "timestamp").Str?
    ensures ParseCarbon(Lookup(input, "timestamp").s) == ParseYmdHis(Lookup(input, "timestamp").s)
    ensures ParseCarbon(Lookup(input, "timestamp").s).Some?
  {
    AcceptedAt(input, 0);
    AcceptedAt(input, 1);
    AcceptedAt(input, 2);
    AcceptedAt(input, 3);
    AcceptedAt(input, 4);
    AcceptedTimestampParses(input);
  }

  /** The record built from the validated data of a request whose fields
      have the types the rules guarantee. */
  lemma WellTypedRequestBuildsDto(input: map<string, Value>, now: Instant)
    requires Lookup(input, "call_id").Str?
    requires Lookup(input, "caller_number").Str? && Lookup(input, "callee_number").Str?
    requires Lookup(input, "event_type").Str? && Lookup(input, "event_type").s in Values()
    requires Lookup(input, "timestamp").Str? && ParseCarbon(Lookup(input, "timestamp").s).Some?
    ensures FromArray(Validated(input), now).Success? <==>
      (Lookup(input, "duration").Null? || Lookup(input, "duration").Int?)
    ensures FromArray(Validated(input), now).Success? ==>
      var dto := FromArray(Validated(input), now).value;
      && Str(dto.callId) == Lookup(input, "call_id")
      && Str(dto.callerNumber) == Lookup(input, "caller_number")
      && Str(dto.calleeNumber) == Lookup(input, "callee_number")
      && Str(WireValue(dto.eventType)) == Lookup(input, "event_type")
      && Some(dto.timestamp) == ParseCarbon(Lookup(input, "timestamp").s)
      && (dto.duration.Some? <==> Lookup(input, "duration").Int?)
  {
    var data := Validated(input);
    ValidatedAgrees(input, "call_id");
    ValidatedAgrees(input, "caller_number");
    ValidatedAgrees(input, "callee_number");
    ValidatedAgrees(input, "event_type");
    ValidatedAgrees(input, "timestamp");
    ValidatedAgrees(input, "duration");
    var r := FromArray(data, now);
    assert r.Success? <==> WellTyped(data);
    if r.Success? {
      assert TimestampArgument(Lookup(data, "timestamp"), now) == Success(r.value.timestamp);
    }
  }

  /** Once a request is accepted, building the record from its validated data
      succeeds exactly when `duration` is absent, null or an integer: a
      duration the `integer` rule accepts as a string (`"300"`) or as `true`
      passes validation and then makes the strictly typed constructor throw.
      On success the record carries the request's values. */
  lemma AcceptedRequestBuildsDto(input: map<string, Value>, now: Instant)
    requires Accepts(input)
    ensures Lookup(input, "timestamp").Str?
    ensures FromArray(Validated(input), now).Success? <==>
      (Lookup(input, "duration").Null? || Lookup(input, "duration").Int?)
    ensures FromArray(Validated(input), now).Success? ==>
      var dto := FromArray(Validated(input), now).value;
      && Str(dto.callId) == Lookup(input, "call_id")
      && Str(dto.callerNumber) == Lookup(input, "caller_number")
      && Str(dto.calleeNumber) == Lookup(input, "callee_number")
      && Str(WireValue(dto.eventType)) == Lookup(input, "event_type")
      && Some(dto.timestamp) == ParseYmdHis(Lookup(input, "timestamp").s)
      && (dto.duration.Some? <==> Lookup(input, "duration").Int?)
  {
    AcceptedFields(input);
    WellTypedRequestBuildsDto(input, now);
  }
}

=== FILE: call_event_service.dfy ===
/** The call-event service: it stores the event through the repository and
    then publishes the same payload to the `call-events` queue. The two steps
    are not atomic: a publish failure leaves the stored row in place. */
module CallEventServices {
  import opened Wrappers
  import opened Php
  import opened CallEventTypes
  import opened CallEventDtos
  import opened CallEventRepositories
  import opened BrokerExceptions
  import opened RabbitMQ
  import opened Timestamps
  import opened CallEventRequests

  /** `CallEventService::QUEUE_NAME` */
  const QueueName: string := "call-events"

  /** What `handleCallEvent` lets escape. */
  datatype ServiceError =
    | Storage(storage: StorageError)
    | Broker(broker: BrokerConnectionException)

  class CallEventService {
    const repository: PostgresCallEventRepository
    const publisher: RabbitMQPublisher

    constructor(repository: PostgresCallEventRepository, publisher: RabbitMQPublisher)
      ensures this.repository == repository && this.publisher == publisher
    {
      this.repository := repository;
      this.publisher := publisher;
    }

    /** `handleCallEvent($dto)` with the clock reading `now`, the database
        reporting `dbFault` (if any) and the broker answering as `env`. */
    method HandleCallEvent(dto: CallEventDTO, now: int, dbFault: Option<string>, env: BrokerEnv) returns (o: Outcome<ServiceError>)
      requires repository.Valid() && publisher.Valid()
      modifies repository, publisher, publisher.channel, publisher.connection
      ensures repository.Valid() && publisher.Valid()
      ensures publisher.connection == old(publisher.connection) || fresh(publisher.connection)
      ensures publisher.channel == old(publisher.channel) || fresh(publisher.channel)
      ensures var stored := InsertOutcome(old(repository.nextId), dto, now, dbFault);
        && (stored.Failure? ==>
              && o == Fail(Storage(stored.error))
              && repository.rows == old(repository.rows)
              && publisher.published == old(publisher.published)
              && publisher.declared == old(publisher.declared)
              && publisher.connection == old(publisher.connection)
              && publisher.channel == old(publisher.channel))
        && (stored.Success? ==>
              && repository.rows == old(repository.rows) + [stored.value]
              && o == (match PublishSpec(QueueName, old(publisher.Connected()), old(publisher.State()), env)
                       case Pass => Pass
                       case Fail(e) => Fail(Broker(e)))
              && (o.Pass? ==> publisher.published == old(publisher.published)
                                + [Delivery("", QueueName, Message(stored.value.payload, DeliveryModePersistent))])
              && publisher.Connected() == ConnectedAfter(old(publisher.Connected()), old(publisher.State()), env)
              && publisher.State() == ChannelAfter(old(publisher.Connected()), old(publisher.State()), env)
              && publisher.declared == old(publisher.declared)
                 + (if ChannelInUse(old(publisher.Connected()), old(publisher.State()), env) == Usable && env.declare.Ok?
                    then [QueueDeclaration(QueueName, false, true, false, false)] else []))
      ensures o.Fail? ==> publisher.published == old(publisher.published)
    {
      var stored := repository.Create(dto, now, dbFault);
      if stored.Failure? {
        return Fail(Storage(stored.error));
      }
      var published := publisher.Publish(QueueName, ToArray(dto), env);
      if published.Fail? {
        return Fail(Broker(published.error));
      }
      o := Pass;
    }
  }

  /** When the broker is down, the event is stored anyway and the caller gets
      the broker error: the row is not rolled back. */
  method StoredButNotQueued(dto: CallEventDTO, now: int, reason: string) returns (o: Outcome<ServiceError>, rows: seq<Row>)
    requires |dto.callId| <= CallIdWidth && Int4Min <= now <= Int4Max
    ensures o == Fail(Broker(PublishFailed(QueueName, ConnectionFailed(BrokerName, reason).message)))
    ensures |rows| == 1 && rows[0].callId == dto.callId && rows[0].payload == Obj(ToArray(dto))
  {
    var repository := new PostgresCallEventRepository();
    var publisher := new RabbitMQPublisher("rabbitmq", 5672, "guest", "guest", "/");
    var service := new CallEventService(repository, publisher);
    o := service.HandleCallEvent(dto, now, None, BrokerEnv(Throws(reason), Ok, Ok, Ok));
    rows := repository.rows;
  }

  /** When the store fails, nothing is published and the publisher does not
      even connect. */
  method NothingQueuedWithoutRow(dto: CallEventDTO, now: int, reason: string) returns (o: Outcome<ServiceError>, deliveries: seq<Delivery>, connected: bool)
    ensures o == Fail(Storage(DatabaseFault(reason)))
    ensures deliveries == [] && !connected
  {
    var repository := new PostgresCallEventRepository();
    var publisher := new RabbitMQPublisher("rabbitmq", 5672, "guest", "guest", "/");
    var service := new CallEventService(repository, publisher);
    o := service.HandleCallEvent(dto, now, Some(reason), BrokerEnv(Ok, Ok, Ok, Ok));
    deliveries := publisher.published;
    connected := publisher.IsConnected();
  }

  /** The service inherits the publisher's wedge: when the first event's
      channel cannot be opened, that event is stored but not queued, and the
      next event is stored and again not queued, failing on the null channel
      although the broker would now accept it. */
  method ChannelFailureWedgesService(first: CallEventDTO, second: CallEventDTO, now: int, reason: string)
    returns (o1: Outcome<ServiceError>, o2: Outcome<ServiceError>, rows: seq<Row>, deliveries: seq<Delivery>)
    requires |first.callId| <= CallIdWidth && |second.callId| <= CallIdWidth && Int4Min <= now <= Int4Max
    ensures o1 == Fail(Broker(PublishFailed(QueueName, ConnectionFailed(BrokerName, reason).message)))
    ensures o2 == Fail(Broker(PublishFailed(QueueName, NullChannelReason)))
    ensures |rows| == 2 && rows[0].callId == first.callId && rows[1].callId == second.callId
    ensures deliveries == []
  {
    var repository := new PostgresCallEventRepository();
    var publisher := new RabbitMQPublisher("rabbitmq", 5672, "guest", "guest", "/");
    var service := new CallEventService(repository, publisher);
    o1 := service.HandleCallEvent(first, now, None, BrokerEnv(Ok, Throws(reason), Ok, Ok));
    assert publisher.Connected() && publisher.State() == NoChannel && publisher.published == [];
    o2 := service.HandleCallEvent(second, now, None, Reliable);
    rows := repository.rows;
    deliveries := publisher.published;
  }

  /** The validator lets a `call_id` of up to 255 characters through, but the
      column holds 100: an accepted request with a longer `call_id` builds a
      record that the store then rejects, so the service answers with a
      storage error and publishes nothing. */
  lemma AcceptedLongCallIdIsNotStored(input: map<string, Value>, now: Instant, id: nat, clock: int)
    requires Accepts(input) && FromArray(Validated(input), now).Success?
    requires Lookup(input, "call_id").Str? && |Lookup(input, "call_id").s| > CallIdWidth
    ensures InsertOutcome(id, FromArray(Validated(input), now).value, clock, None) == Failure(ValueTooLong("call_id"))
  {
    AcceptedRequestBuildsDto(input, now);
  }
}

=== FILE: call_event_type.dfy ===
/** The six call-lifecycle event types, a string-backed enum: each case has a
    wire value, `values()` lists them in declaration order, and `from` maps a
    wire value back to its case. */
module CallEventTypes {
  import opened Wrappers

  datatype CallEventType =
    | CallStarted
    | CallEnded
    | CallHeld
    | CallTransferred
    | CallMissed
    | CallAnswered

  /** The backing string of a case (`->value`). */
  function WireValue(t: CallEventType): string {
    match t
    case CallStarted => "call_started"
    case CallEnded => "call_ended"
    case CallHeld => "call_held"
    case CallTransferred => "call_transferred"
    case CallMissed => "call_missed"
    case CallAnswered => "call_answered"
  }

  /** `cases()`: every case, in declaration order. */
  const Cases: seq<CallEventType> := [CallStarted, CallEnded, CallHeld, CallTransferred, CallMissed, CallAnswered]

  /** `values()`: the wire values of `cases()`, in the same order. */
  function Values(): (vs: seq<string>)
    ensures vs == ["call_started", "call_ended", "call_held", "call_transferred", "call_missed", "call_answered"]
    ensures forall i, j :: 0 <= i < j < |vs| ==> vs[i] != vs[j]
  {
    seq(|Cases|, i requires 0 <= i < |Cases| => WireValue(Cases[i]))
  }

  /** Every case is listed, and every listed value belongs to its case. */
  lemma CasesAreComplete(t: CallEventType)
    ensures t in Cases
    ensures WireValue(t) in Values()
  {
  }

  /** `CallEventTypeEnum::from($v)`: the case whose wire value is `v`; `None`
      is the ValueError PHP throws for any other string. */
  function From(v: string): (r: Option<CallEventType>)
    ensures r.Some? ==> WireValue(r.value) == v
    ensures r.None? <==> v !in Values()
  {
    if v == "call_started" then Some(CallStarted)
    else if v == "call_ended" then Some(CallEnded)
    else if v == "call_held" then Some(CallHeld)
    else if v == "call_transferred" then Some(CallTransferred)
    else if v == "call_missed" then Some(CallMissed)
    else if v == "call_answered" then Some(CallAnswered)
    else None
  }

  /** The wire value identifies the case: `from(t->value) === t`. */
  lemma FromWireValue(t: CallEventType)
    ensures From(WireValue(t)) == Some(t)
  {
  }

  /** `isDurationRequired()` */
  predicate IsDurationRequired(t: CallEventType) {
    t == CallEnded
  }

  /** The enum's `isDurationRequired` and the request's string comparison
      against `CALL_ENDED->value` pick out the same inputs. */
  lemma {:induction false} DurationRequiredMatchesWireValue(v: string)
    ensures (From(v).Some? && IsDurationRequired(From(v).value)) <==> v == WireValue(CallEnded)
  {
    if From(v).Some? {
      FromWireValue(From(v).value);
    }
  }
}

=== FILE: pagination.dfy ===
/** The pagination helpers controllers share: reading the page, page size
    and sort order from the query string, and describing a page with links
    to its neighbours. The paginator is Laravel's length-aware paginator over
    an offset query. */
module Pagination {
  import opened Wrappers
  import opened Php

  const DefaultPage := 1
  const DefaultPerPage := 15
  const MaxPerPage := 100
  const DefaultSortBy: string := "id"
  const DefaultSortDirection: string := "desc"

  /** `$request->query($key, $default)`, which reads the query bag as
      `all()[$key] ?? $default`: a missing key and a key whose value is null
      (the empty-string middleware turns `?key=` into null) both give the
      default. */
  function QueryOr(query: map<string, Value>, key: string, default: Value): (v: Value)
    ensures key in query && query[key] != Null ==> v == query[key]
    ensures key !in query || query[key] == Null ==> v == default
  {
    Coalesce(Obj(query), key, default)
  }

  /** The array `getPaginationParams` returns. */
  datatype PaginationParams = PaginationParams(page: int, perPage: int, sortBy: Value, sortDirection: string)

  /** Under strict types, `strtolower` refuses anything but a string. */
  datatype PaginationError = StrtolowerTypeError(given: Value)

  predicate IsSortDirection(s: string) {
    s == "asc" || s == "desc"
  }

  /** `max(1, $n)` */
  function AtLeastOne(n: int): (m: int)
    ensures m >= 1 && m >= n && (n >= 1 ==> m == n)
  {
    if n < 1 then 1 else n
  }

  /** `min(100, max(1, $n))` */
  function ClampPerPage(n: int): (m: int)
    ensures 1 <= m <= MaxPerPage
    ensures 1 <= n <= MaxPerPage ==> m == n
    ensures n < 1 ==> m == 1
    ensures n > MaxPerPage ==> m == MaxPerPage
  {
    if n < 1 then 1 else if n > MaxPerPage then MaxPerPage else n
  }

  /** `getPaginationParams($request)` */
  function GetPaginationParams(query: map<string, Value>): (r: Result<PaginationParams, PaginationError>)
    ensures r.Failure? <==> "sort_direction" in query && query["sort_direction"] != Null && !query["sort_direction"].Str?
    ensures r.Failure? ==> r.error == StrtolowerTypeError(query["sort_direction"])
    ensures r.Success? ==>
      && r.value.page == AtLeastOne(ToInt(QueryOr(query, "page", Int(DefaultPage))))
      && r.value.perPage == ClampPerPage(ToInt(QueryOr(query, "per_page", Int(DefaultPerPage))))
      && IsSortDirection(r.value.sortDirection)
      && r.value.sortBy == QueryOr(query, "sort_by", Str(DefaultSortBy))
      && r.value.sortBy != Null
    ensures r.Success? && ("page" !in query || query["page"] == Null) ==> r.value.page == DefaultPage
    ensures r.Success? && ("per_page" !in query || query["per_page"] == Null) ==> r.value.perPage == DefaultPerPage
    ensures r.Success? && ("sort_by" !in query || query["sort_by"] == Null) ==> r.value.sortBy == Str(DefaultSortBy)
    ensures r.Success? && ("sort_direction" !in query || query["sort_direction"] == Null) ==>
      r.value.sortDirection == DefaultSortDirection
    ensures r.Success? && "sort_direction" in query && query["sort_direction"].Str? ==>
      var asked := AsciiLower(query["sort_direction"].s);
      r.value.sortDirection == (if IsSortDirection(asked) then asked else DefaultSortDirection)
  {
    var direction := QueryOr(query, "sort_direction", Str(DefaultSortDirection));
    if !direction.Str? then Failure(StrtolowerTypeError(direction))
    else
      var page := ToInt(QueryOr(query, "page", Int(DefaultPage)));
      var perPage := ToInt(QueryOr(query, "per_page", Int(DefaultPerPage)));
      var lowered := AsciiLower(direction.s);
      Success(PaginationParams(
        AtLeastOne(page),
        ClampPerPage(perPage),
        QueryOr(query, "sort_by", Str(DefaultSortBy)),
        if IsSortDirection(lowered) then lowered else DefaultSortDirection))
  }

  /** An empty query string, or one whose values are all empty (read as
      null), gives the defaults: page 1 of 15 rows, sorted by `id`
      descending. */
  lemma EmptyParametersGiveDefaults(query: map<string, Value>)
    requires forall k :: k in query ==> query[k] == Null
    ensures GetPaginationParams(query) == Success(PaginationParams(DefaultPage, DefaultPerPage, Str(DefaultSortBy), DefaultSortDirection))
  {
    assert "sort_direction" !in query || query["sort_direction"] == Null;
    assert "page" !in query || query["page"] == Null;
    assert "per_page" !in query || query["per_page"] == Null;
    assert "sort_by" !in query || query["sort_by"] == Null;
  }

  /** A page number written as a decimal string is taken as it is when it is
      at least 1, and raised to 1 otherwise. */
  lemma PageFromQuery(query: map<string, Value>, n: int)
    requires "page" in query && query["page"] == Str(IntToString(n))
    requires QueryOr(query, "sort_direction", Str(DefaultSortDirection)).Str?
    ensures GetPaginationParams(query).value.page == if n < 1 then 1 else n
  {
    StringToIntRoundTrip(n);
  }

  /** A page size written as a decimal string is clamped into 1..100. */
  lemma PerPageFromQuery(query: map<string, Value>, n: int)
    requires "per_page" in query && query["per_page"] == Str(IntToString(n))
    requires QueryOr(query, "sort_direction", Str(DefaultSortDirection)).Str?
    ensures GetPaginationParams(query).value.perPage == if n < 1 then 1 else if n > MaxPerPage then MaxPerPage else n
  {
    StringToIntRoundTrip(n);
  }

  /** The query string that asks for exactly these parameters. */
  function AsQuery(p: PaginationParams): map<string, Value> {
    map["page" := Str(IntToString(p.page)), "per_page" := Str(IntToString(p.perPage)),
        "sort_by" := p.sortBy, "sort_direction" := Str(p.sortDirection)]
  }

  /** What each parameter of that query string reads as. */
  lemma AsQueryLookups(p: PaginationParams)
    requires p.sortBy != Null
    ensures QueryOr(AsQuery(p), "sort_direction", Str(DefaultSortDirection)) == Str(p.sortDirection)
    ensures QueryOr(AsQuery(p), "page", Int(DefaultPage)) == Str(IntToString(p.page))
    ensures QueryOr(AsQuery(p), "per_page", Int(DefaultPerPage)) == Str(IntToString(p.perPage))
    ensures QueryOr(AsQuery(p), "sort_by", Str(DefaultSortBy)) == p.sortBy
  {
  }

  /** Normalised parameters written into a query string read back as themselves. */
  lemma ReadBackParams(p: PaginationParams)
    requires p.page >= 1 && 1 <= p.perPage <= MaxPerPage && IsSortDirection(p.sortDirection) && p.sortBy != Null
    ensures GetPaginationParams(AsQuery(p)) == Success(p)
  {
    AsQueryLookups(p);
    ReadBackFromLookups(AsQuery(p), p);
  }

  /** Any query whose parameters read as the decimal renderings of normalised
      parameters gives those parameters. */
  lemma ReadBackFromLookups(q: map<string, Value>, p: PaginationParams)
    requires p.page >= 1 && 1 <= p.perPage <= MaxPerPage && IsSortDirection(p.sortDirection) && p.sortBy != Null
    requires QueryOr(q, "sort_direction", Str(DefaultSortDirection)) == Str(p.sortDirection)
    requires QueryOr(q, "page", Int(DefaultPage)) == Str(IntToString(p.page))
    requires QueryOr(q, "per_page", Int(DefaultPerPage)) == Str(IntToString(p.perPage))
    requires QueryOr(q, "sort_by", Str(DefaultSortBy)) == p.sortBy
    ensures GetPaginationParams(q) == Success(p)
  {
    StringToIntRoundTrip(p.page);
    StringToIntRoundTrip(p.perPage);
    LowerOfSortDirection(p.sortDirection);
  }

  /** Reading parameters is idempotent: writing normalised parameters back
      into a query string and reading them again gives them unchanged. */
  lemma ParamsRoundTrip(query: map<string, Value>)
    requires GetPaginationParams(query).Success?
    ensures GetPaginationParams(AsQuery(GetPaginationParams(query).value)) == GetPaginationParams(query)
  {
    ReadBackParams(GetPaginationParams(query).value);
  }

  lemma LowerOfSortDirection(s: string)
    requires IsSortDirection(s)
    ensures AsciiLower(s) == s
  {
    if s == "asc" {
      assert AsciiLower(s) == "asc";
    } else {
      assert AsciiLower(s) == "desc";
    }
  }

  // ---------------------------------------------------------------------
  // The paginator

  /** A length-aware paginator: the page shown, the page size and the total
      number of rows. The page is never below 1 and the size is positive. */
  datatype Paginator = Paginator(currentPage: int, perPage: int, total: nat)

  predicate ValidPaginator(p: Paginator) {
    p.currentPage >= 1 && p.perPage >= 1
  }

  /** `lastPage()`: `max(ceil(total / perPage), 1)` */
  function LastPage(p: Paginator): (n: int)
    requires ValidPaginator(p)
    ensures n >= 1
    ensures (n - 1) * p.perPage < p.total || n == 1
    ensures p.total <= n * p.perPage
  {
    var pages := (p.total + p.perPage - 1) / p.perPage;
    if pages < 1 then 1 else pages
  }

  /** How many rows the query skips to reach the current page. */
  function Offset(p: Paginator): (n: nat)
    requires ValidPaginator(p)
  {
    (p.currentPage - 1) * p.perPage
  }

  /** How many rows the offset query returns for the current page. */
  function ItemCount(p: Paginator): (n: nat)
    requires ValidPaginator(p)
    ensures n <= p.perPage
    ensures n > 0 ==> Offset(p) + n <= p.total
    ensures n == 0 <==> p.total <= Offset(p)
  {
    var offset := Offset(p);
    if p.total <= offset then 0
    else if p.total - offset < p.perPage then p.total - offset
    else p.perPage
  }

  /** `firstItem()`: the 1-based position of the first row shown, if any. */
  function FirstItem(p: Paginator): Option<int>
    requires ValidPaginator(p)
  {
    if ItemCount(p) > 0 then Some(Offset(p) + 1) else None
  }

  /** `lastItem()`: the 1-based position of the last row shown, if any. */
  function LastItem(p: Paginator): Option<int>
    requires ValidPaginator(p)
  {
    if ItemCount(p) > 0 then Some(Offset(p) + ItemCount(p)) else None
  }

  /** The positions shown lie within the rows that exist, and there are as
      many as the query returned. */
  lemma ItemRange(p: Paginator)
    requires ValidPaginator(p)
    ensures FirstItem(p).Some? <==> LastItem(p).Some?
    ensures FirstItem(p).Some? ==>
      && 1 <= FirstItem(p).value <= LastItem(p).value <= p.total
      && LastItem(p).value - FirstItem(p).value + 1 == ItemCount(p)
    ensures FirstItem(p).None? <==> p.currentPage > LastPage(p) || p.total == 0
  {
    var last := LastPage(p);
    if p.currentPage > last {
      OffsetPastLastPage(p);
    } else if p.total > 0 {
      OffsetWithinLastPage(p);
    }
  }

  lemma OffsetPastLastPage(p: Paginator)
    requires ValidPaginator(p) && p.currentPage > LastPage(p)
    ensures Offset(p) >= p.total
  {
    var last := LastPage(p);
    MulMonotone(last, p.currentPage - 1, p.perPage);
  }

  lemma OffsetWithinLastPage(p: Paginator)
    requires ValidPaginator(p) && p.currentPage <= LastPage(p) && p.total > 0
    ensures Offset(p) < p.total
  {
    var last := LastPage(p);
    MulMonotone(p.currentPage - 1, last - 1, p.perPage);
  }

  lemma MulMonotone(a: int, b: int, c: nat)
    requires a <= b
    ensures a * c <= b * c
  {
  }

  /** The `meta` part of the links array. */
  datatype Meta = Meta(hasMorePages: bool, onFirstPage: bool, hasPages: bool)

  /** The four navigation links; a link that does not apply is null. */
  datatype Links = Links(first: Option<string>, previous: Option<string>, next: Option<string>, last: Option<string>)

  /** The array `buildPaginationLinks` returns. */
  datatype PaginationLinks = PaginationLinks(
    currentPage: int, perPage: int, total: nat, lastPage: int,
    from: Option<int>, to: Option<int>, links: Links, meta: Meta)

  /** The link to a page: the base URL, the page number, then the other
      query parameters. */
  function PageLink(baseUrl: string, page: int, queryString: string): (link: string)
    ensures |link| == |baseUrl| + 6 + |IntToString(page)| + |queryString|
    ensures link[..|baseUrl| + 6] == baseUrl + "?page="
    ensures link[|baseUrl| + 6..|link| - |queryString|] == IntToString(page)
    ensures link[|link| - |queryString|..] == queryString
  {
    baseUrl + "?page=" + IntToString(page) + queryString
  }

  /** The other query parameters, without the page, encoded and prefixed
      with `&` unless there are none. */
  function QueryString(query: map<string, Value>, httpBuildQuery: map<string, Value> -> string): (qs: string)
    ensures qs == [] || qs[0] == '&'
    ensures Truthy(Str(httpBuildQuery(query - {"page"}))) ==> qs == "&" + httpBuildQuery(query - {"page"})
    ensures !Truthy(Str(httpBuildQuery(query - {"page"}))) ==> qs == ""
  {
    var encoded := httpBuildQuery(query - {"page"});
    if Truthy(Str(encoded)) then "&" + encoded else ""
  }

  /** The page number a link built by `PageLink` asks for, as `(int)` reads it. */
  function LinkedPage(baseUrl: string, link: string): int
    requires |baseUrl| + 6 <= |link|
  {
    StringToInt(link[|baseUrl| + 6..])
  }

  /** `buildPaginationLinks($paginator, $request)`, given the request's URL
      without query, its query parameters and the encoder `http_build_query`. */
  function BuildPaginationLinks(p: Paginator, baseUrl: string, query: map<string, Value>,
                                httpBuildQuery: map<string, Value> -> string): (r: PaginationLinks)
    requires ValidPaginator(p)
    ensures r.currentPage == p.currentPage && r.perPage == p.perPage && r.total == p.total
    ensures r.lastPage == LastPage(p) && r.from == FirstItem(p) && r.to == LastItem(p)
    ensures var qs := QueryString(query, httpBuildQuery);
      && (r.links.first.Some? ==> r.links.first.value == PageLink(baseUrl, 1, qs))
      && (r.links.previous.Some? ==> r.links.previous.value == PageLink(baseUrl, p.currentPage - 1, qs))
      && (r.links.next.Some? ==> r.links.next.value == PageLink(baseUrl, p.currentPage + 1, qs))
      && (r.links.last.Some? ==> r.links.last.value == PageLink(baseUrl, LastPage(p), qs))
    ensures r.links.first.Some? <==> r.lastPage > 1
    ensures r.links.last.Some? <==> r.lastPage > 1
    ensures r.links.previous.Some? <==> r.currentPage > 1
    ensures r.links.next.Some? <==> r.currentPage < r.lastPage
    ensures r.meta.hasMorePages <==> r.links.next.Some?
    ensures r.meta.onFirstPage <==> r.links.previous.None?
    ensures r.meta.hasPages <==> r.links.previous.Some? || r.links.next.Some?
  {
    var currentPage := p.currentPage;
    var lastPage := LastPage(p);
    var queryString := QueryString(query, httpBuildQuery);
    var hasMorePages := currentPage < lastPage;
    PaginationLinks(
      currentPage, p.perPage, p.total, lastPage, FirstItem(p), LastItem(p),
      Links(
        if lastPage > 1 then Some(PageLink(baseUrl, 1, queryString)) else None,
        if currentPage > 1 then Some(PageLink(baseUrl, currentPage - 1, queryString)) else None,
        if currentPage < lastPage then Some(PageLink(baseUrl, currentPage + 1, queryString)) else None,
        if lastPage > 1 then Some(PageLink(baseUrl, lastPage, queryString)) else None),
      Meta(hasMorePages, currentPage <= 1, currentPage != 1 || hasMorePages))
  }

  lemma PageLinkRoundTrip(baseUrl: string, page: int, queryString: string)
    requires queryString == [] || queryString[0] == '&'
    ensures var link := PageLink(baseUrl, page, queryString);
      |baseUrl| + 6 <= |link| && LinkedPage(baseUrl, link) == page
  {
    var link := PageLink(baseUrl, page, queryString);
    assert link[|baseUrl| + 6..] == IntToString(page) + queryString;
    StringToIntOfPrefix(page, queryString);
  }

  /** Each link asks for the page it names: the first page, the one before,
      the one after and the last one, and each of those pages exists. */
  lemma LinksTargetTheirPages(p: Paginator, baseUrl: string, query: map<string, Value>,
                              httpBuildQuery: map<string, Value> -> string)
    requires ValidPaginator(p)
    ensures var r := BuildPaginationLinks(p, baseUrl, query, httpBuildQuery);
      && (r.links.first.Some? ==> |baseUrl| + 6 <= |r.links.first.value| && LinkedPage(baseUrl, r.links.first.value) == 1)
      && (r.links.previous.Some? ==>
            |baseUrl| + 6 <= |r.links.previous.value| && LinkedPage(baseUrl, r.links.previous.value) == p.currentPage - 1 >= 1)
      && (r.links.next.Some? ==>
            |baseUrl| + 6 <= |r.links.next.value| && LinkedPage(baseUrl, r.links.next.value) == p.currentPage + 1 <= r.lastPage)
      && (r.links.last.Some? ==> |baseUrl| + 6 <= |r.links.last.value| && LinkedPage(baseUrl, r.links.last.value) == r.lastPage)
  {
    var r := BuildPaginationLinks(p, baseUrl, query, httpBuildQuery);
    var queryString := QueryString(query, httpBuildQuery);
    LinkTargets(r.links.first, baseUrl, 1, queryString);
    LinkTargets(r.links.previous, baseUrl, p.currentPage - 1, queryString);
    LinkTargets(r.links.next, baseUrl, p.currentPage + 1, queryString);
    LinkTargets(r.links.last, baseUrl, r.lastPage, queryString);
  }

  /** A link that is present and was built by `PageLink` asks for its page. */
  lemma LinkTargets(link: Option<string>, baseUrl: string, page: int, queryString: string)
    requires queryString == [] || queryString[0] == '&'
    requires link.Some? ==> link.value == PageLink(baseUrl, page, queryString)
    ensures link.Some? ==> |baseUrl| + 6 <= |link.value| && LinkedPage(baseUrl, link.value) == page
  {
    if link.Some? {
      PageLinkRoundTrip(baseUrl, page, queryString);
    }
  }

  /** The links do not depend on the page the request itself asked for: it is
      dropped before the other parameters are encoded. */
  lemma LinksIgnoreRequestedPage(p: Paginator, baseUrl: string, query: map<string, Value>,
                                 httpBuildQuery: map<string, Value> -> string, requested: Value)
    requires ValidPaginator(p)
    ensures BuildPaginationLinks(p, baseUrl, query["page" := requested], httpBuildQuery)
         == BuildPaginationLinks(p, baseUrl, query, httpBuildQuery)
  {
    assert query["page" := requested] - {"page"} == query - {"page"};
    assert QueryString(query["page" := requested], httpBuildQuery) == QueryString(query, httpBuildQuery);
  }
}

=== FILE: php.dfy ===
/** The PHP values the application code passes around, and the few PHP
    built-ins whose behaviour the modelled code depends on: truthiness and
    `empty`, `isset`, the `(int)` cast, integer-to-string conversion,
    `strtolower`, `str_contains`, `str_starts_with` and `explode`. */
module Php {

  /** A PHP value. PHP arrays appear either as lists (`List`) or as
      string-keyed arrays (`Obj`); the objects the modelled code receives are
      throwables, Laravel message bags and validation-rule objects. */
  datatype Value =
    | Null
    | Bool(b: bool)
    | Int(i: int)
    | Str(s: string)
    | List(items: seq<Value>)
    | Obj(fields: map<string, Value>)
    | Throwable(message: string)
    | MessageBag(messages: map<string, seq<string>>)
    | RuleObject(name: string)

  /** `is_array($v)` */
  predicate IsArray(v: Value) {
    v.List? || v.Obj?
  }

  /** What `if ($v)` accepts; `empty($v)` is its negation. Objects are always truthy. */
  predicate Truthy(v: Value) {
    match v
    case Null => false
    case Bool(b) => b
    case Int(i) => i != 0
    case Str(s) => s != "" && s != "0"
    case List(items) => items != []
    case Obj(fields) => fields != map[]
    case Throwable(_) => true
    case MessageBag(_) => true
    case RuleObject(_) => true
  }

  /** `isset($v[$key])` for a string key: only a string-keyed array can hold it. */
  predicate IsSet(v: Value, key: string) {
    v.Obj? && key in v.fields && v.fields[key] != Null
  }

  /** `$m[$key]` on an array: a missing key reads as null. */
  function Lookup(m: map<string, Value>, key: string): Value {
    if key in m then m[key] else Null
  }

  /** `$v[$key] ?? $default` */
  function Coalesce(v: Value, key: string, default: Value): (r: Value)
    ensures IsSet(v, key) ==> r == v.fields[key]
    ensures !IsSet(v, key) ==> r == default
  {
    if IsSet(v, key) then v.fields[key] else default
  }

  // ---------------------------------------------------------------------
  // Decimal digits

  predicate IsDigit(c: char) {
    '0' <= c <= '9'
  }

  predicate AllDigits(s: string) {
    forall i :: 0 <= i < |s| ==> IsDigit(s[i])
  }

  function DigitValue(c: char): nat
    requires IsDigit(c)
  {
    c as int - '0' as int
  }

  function DigitChar(d: nat): (c: char)
    requires d < 10
    ensures IsDigit(c) && DigitValue(c) == d
  {
    ('0' as int + d) as char
  }

  /** The decimal digits of `n`, most significant first, without leading zeros. */
  function NatToDecimal(n: nat): (s: string)
    ensures 0 < |s| && AllDigits(s)
    ensures n >= 10 ==> s[0] != '0'
    decreases n
  {
    if n < 10 then [DigitChar(n)] else NatToDecimal(n / 10) + [DigitChar(n % 10)]
  }

  /** The number a string of decimal digits denotes. */
  function DecimalValue(s: string): nat
    requires AllDigits(s)
  {
    if s == [] then 0 else DecimalValue(s[..|s| - 1]) * 10 + DigitValue(s[|s| - 1])
  }

  lemma {:induction false} DecimalRoundTrip(n: nat)
    ensures DecimalValue(NatToDecimal(n)) == n
  {
    if n >= 10 {
      var s := NatToDecimal(n);
      assert s[..|s| - 1] == NatToDecimal(n / 10);
      DecimalRoundTrip(n / 10);
    }
  }

  /** How PHP renders an integer when it is concatenated into a string. */
  function IntToString(n: int): (s: string)
    ensures 0 < |s|
  {
    if n < 0 then "-" + NatToDecimal(-n) else NatToDecimal(n)
  }

  // ---------------------------------------------------------------------
  // The (int) cast

  /** The whitespace `(int)` skips before the number. */
  predicate IsLeadingSpace(c: char) {
    c == ' ' || c == '\t' || c == '\n' || c == '\r' || c == 11 as char || c == 12 as char
  }

  function SkipSpace(s: string): (t: string)
    ensures |t| <= |s| && t == s[|s| - |t|..]
    ensures t != [] ==> !IsLeadingSpace(t[0])
  {
    if s != [] && IsLeadingSpace(s[0]) then SkipSpace(s[1..]) else s
  }

  /** The longest prefix of `s` made of decimal digits. */
  function LeadingDigits(s: string): (d: string)
    ensures AllDigits(d) && |d| <= |s| && d == s[..|d|]
    ensures |d| < |s| ==> !IsDigit(s[|d|])
  {
    if s != [] && IsDigit(s[0]) then [s[0]] + LeadingDigits(s[1..]) else []
  }

  /** `(int) $s` on a string: leading whitespace, an optional sign, then the
      longest run of digits; anything after it is ignored and no digits give 0. */
  function StringToInt(s: string): int {
    var t := SkipSpace(s);
    if t != [] && t[0] == '-' then -(DecimalValue(LeadingDigits(t[1..])) as int)
    else if t != [] && t[0] == '+' then DecimalValue(LeadingDigits(t[1..]))
    else DecimalValue(LeadingDigits(t))
  }

  /** `(int) $v` */
  function ToInt(v: Value): int {
    match v
    case Null => 0
    case Bool(b) => if b then 1 else 0
    case Int(i) => i
    case Str(s) => StringToInt(s)
    case List(items) => if items == [] then 0 else 1
    case Obj(fields) => if fields == map[] then 0 else 1
    case Throwable(_) => 1
    case MessageBag(_) => 1
    case RuleObject(_) => 1
  }

  lemma LeadingDigitsOfDigits(s: string)
    requires AllDigits(s)
    ensures LeadingDigits(s) == s
  {
  }

  lemma NoSpaceToSkip(s: string)
    requires s != [] && !IsLeadingSpace(s[0])
    ensures SkipSpace(s) == s
  {
  }

  /** Casting the rendering of an integer back with `(int)` gives the integer. */
  lemma {:induction false} StringToIntRoundTrip(n: int)
    ensures StringToInt(IntToString(n)) == n
  {
    var m: nat := if n < 0 then -n else n;
    var digits := NatToDecimal(m);
    LeadingDigitsOfDigits(digits);
    DecimalRoundTrip(m);
    var s := IntToString(n);
    NoSpaceToSkip(s);
    if n < 0 {
      assert s == "-" + digits;
      assert s[0] == '-' && s[1..] == digits;
    } else {
      assert s == digits;
      assert IsDigit(s[0]);
    }
  }

  lemma {:induction false} LeadingDigitsOfPrefix(d: string, rest: string)
    requires AllDigits(d)
    requires rest == [] || !IsDigit(rest[0])
    ensures LeadingDigits(d + rest) == d
    decreases |d|
  {
    if d == [] {
      assert d + rest == rest;
    } else {
      assert (d + rest)[1..] == d[1..] + rest;
      LeadingDigitsOfPrefix(d[1..], rest);
    }
  }

  /** A run of digits followed by text that does not start with one. */
  lemma DigitsToIntOfPrefix(d: string, rest: string)
    requires d != [] && AllDigits(d)
    requires rest == [] || !IsDigit(rest[0])
    ensures StringToInt(d + rest) == DecimalValue(d)
  {
    var s := d + rest;
    LeadingDigitsOfPrefix(d, rest);
    assert s[0] == d[0];
    NoSpaceToSkip(s);
  }

  /** The same run of digits after a minus sign. */
  lemma SignedDigitsToIntOfPrefix(d: string, rest: string)
    requires AllDigits(d)
    requires rest == [] || !IsDigit(rest[0])
    ensures StringToInt("-" + d + rest) == -(DecimalValue(d) as int)
  {
    var s := "-" + d + rest;
    assert s[0] == '-';
    NoSpaceToSkip(s);
    assert s[1..] == d + rest;
    LeadingDigitsOfPrefix(d, rest);
    assert LeadingDigits(s[1..]) == d;
  }

  lemma NatToIntOfPrefix(m: nat, rest: string)
    requires rest == [] || !IsDigit(rest[0])
    ensures StringToInt(IntToString(m) + rest) == m
  {
    assert IntToString(m) == NatToDecimal(m);
    DigitsToIntOfPrefix(NatToDecimal(m), rest);
    DecimalRoundTrip(m);
  }

  lemma NegToIntOfPrefix(m: nat, rest: string)
    requires 0 < m
    requires rest == [] || !IsDigit(rest[0])
    ensures StringToInt(IntToString(-(m as int)) + rest) == -(m as int)
  {
    assert IntToString(-(m as int)) == "-" + NatToDecimal(m);
    SignedDigitsToIntOfPrefix(NatToDecimal(m), rest);
    DecimalRoundTrip(m);
  }

  /** `(int)` reads an integer's rendering back even when other text follows,
      as long as that text does not start with a digit. */
  lemma StringToIntOfPrefix(n: int, rest: string)
    requires rest == [] || !IsDigit(rest[0])
    ensures StringToInt(IntToString(n) + rest) == n
  {
    if n < 0 {
      NegToIntOfPrefix(-n, rest);
    } else {
      NatToIntOfPrefix(n, rest);
    }
  }

  // ---------------------------------------------------------------------
  // Strings

  /** How PHP turns a value into a string inside a concatenation; an array
      becomes the word `Array` (with a warning). Objects never come from a
      query string; they render here as their message or name. */
  function ToPhpString(v: Value): string {
    match v
    case Null => ""
    case Bool(b) => if b then "1" else ""
    case Int(i) => IntToString(i)
    case Str(s) => s
    case List(_) => "Array"
    case Obj(_) => "Array"
    case Throwable(m) => m
    case MessageBag(_) => "Array"
    case RuleObject(name) => name
  }

  function LowerChar(c: char): char {
    if 'A' <= c <= 'Z' then (c as int + 32) as char else c
  }

  /** `strtolower`: ASCII letters only, as PHP 8 does it. */
  function AsciiLower(s: string): (r: string)
    ensures |r| == |s|
    ensures forall i :: 0 <= i < |s| ==> r[i] == LowerChar(s[i])
  {
    seq(|s|, i requires 0 <= i < |s| => LowerChar(s[i]))
  }

  lemma AsciiLowerIdempotent(s: string)
    ensures AsciiLower(AsciiLower(s)) == AsciiLower(s)
  {
  }

  /** `str_starts_with($s, $prefix)` */
  predicate StartsWith(s: string, prefix: string) {
    |prefix| <= |s| && s[..|prefix|] == prefix
  }

  /** `str_contains($s, $needle)` */
  predicate Contains(s: string, needle: string)
    decreases |s|
  {
    StartsWith(s, needle) || (s != [] && Contains(s[1..], needle))
  }

  lemma {:induction false} ContainsAt(s: string, needle: string, k: nat)
    requires k + |needle| <= |s| && s[k..k + |needle|] == needle
    ensures Contains(s, needle)
    decreases k
  {
    if k == 0 {
      assert s[..|needle|] == needle;
    } else {
      assert s[1..][k - 1..k - 1 + |needle|] == needle;
      ContainsAt(s[1..], needle, k - 1);
    }
  }

  lemma {:induction false} ContainsWitness(s: string, needle: string) returns (k: nat)
    requires Contains(s, needle)
    ensures k + |needle| <= |s| && s[k..k + |needle|] == needle
    decreases |s|
  {
    if StartsWith(s, needle) {
      k := 0;
    } else {
      var j := ContainsWitness(s[1..], needle);
      k := j + 1;
      assert s[k..k + |needle|] == s[1..][j..j + |needle|];
    }
  }

  /** The position of the first `c` in `s`. */
  function IndexOf(s: string, c: char): (i: nat)
    requires c in s
    ensures i < |s| && s[i] == c && c !in s[..i]
  {
    if s[0] == c then 0 else 1 + IndexOf(s[1..], c)
  }

  /** `explode($sep, $s)` for a one-character separator. */
  function Explode(s: string, sep: char): (parts: seq<string>)
    ensures 0 < |parts|
    ensures forall k :: 0 <= k < |parts| ==> sep !in parts[k]
    decreases |s|
  {
    if sep !in s then [s]
    else
      var i := IndexOf(s, sep);
      [s[..i]] + Explode(s[i + 1..], sep)
  }

  /** `implode($sep, $parts)` */
  function Implode(parts: seq<string>, sep: char): string
    requires 0 < |parts|
  {
    if |parts| == 1 then parts[0] else parts[0] + [sep] + Implode(parts[1..], sep)
  }

  /** Splitting and re-joining on the same separator gives back the string. */
  lemma {:induction false} ExplodeImplode(s: string, sep: char)
    ensures Implode(Explode(s, sep), sep) == s
    decreases |s|
  {
    if sep in s {
      var i := IndexOf(s, sep);
      ExplodeImplode(s[i + 1..], sep);
      assert s == s[..i] + [sep] + s[i + 1..];
    }
  }
}

=== FILE: rabbitmq_publisher.dfy ===
/** The RabbitMQ publisher. It keeps one connection and one channel, opens
    them lazily when it is not connected, declares the target queue as durable
    and publishes the payload as a persistent JSON message through the default
    exchange. Every failure inside `publish` is rethrown as a
    publish-failed broker exception.

    The AMQP library is modelled by two handle classes; what the broker does
    on each library call is given by a `BrokerEnv` parameter. Three library
    behaviours are assumed rather than derived: a queue declaration the
    broker refuses closes the channel but not the connection, a publish that
    fails loses the connection, and a channel that fails to open leaves the
    new connection open. */
module RabbitMQ {
  import opened Wrappers
  import opened Php
  import opened BrokerExceptions

  /** An `AMQPStreamConnection`. */
  class Connection {
    var live: bool

    constructor()
      ensures live
    {
      live := true;
    }
  }

  /** An `AMQPChannel` on a connection. */
  class Channel {
    const connection: Connection
    var open: bool

    constructor(c: Connection)
      ensures connection == c && open
    {
      connection := c;
      open := true;
    }
  }

  /** What the broker does when the library makes one call. */
  datatype Fault = Ok | Throws(reason: string)

  /** The broker's answer to each library call of one `publish`. */
  datatype BrokerEnv = BrokerEnv(connect: Fault, openChannel: Fault, declare: Fault, publish: Fault)

  /** `AMQPMessage::DELIVERY_MODE_PERSISTENT` */
  const DeliveryModePersistent: int := 2

  /** A message: the JSON encoding of the payload (modelled by the payload
      itself) and its delivery mode. */
  datatype Message = Message(body: Value, deliveryMode: int)

  /** A `queue_declare` the broker accepted. */
  datatype QueueDeclaration = QueueDeclaration(queue: string, passive: bool, durable: bool, exclusive: bool, autoDelete: bool)

  /** A `basic_publish` the broker accepted. */
  datatype Delivery = Delivery(exchange: string, routingKey: string, message: Message)

  /** What PHP throws when `publish` reaches a null channel. */
  const NullChannelReason: string := "Call to a member function queue_declare() on null"

  /** What the library throws on a closed channel or a channel whose
      connection is gone. */
  const ClosedChannelReason: string := "Channel connection is closed."

  const BrokerName: string := "RabbitMQ"

  /** The channel as `publish` finds it. */
  datatype ChannelState = NoChannel | Unusable | Usable

  // ---------------------------------------------------------------------
  // The specification of one `publish`, given whether the publisher was
  // connected and the state of its channel beforehand.

  /** `ensureConnection()` */
  function EnsureSpec(wasConnected: bool, env: BrokerEnv): (o: Outcome<BrokerConnectionException>)
    ensures o.Pass? <==> wasConnected || (env.connect.Ok? && env.openChannel.Ok?)
  {
    if wasConnected then Pass
    else if env.connect.Throws? then Fail(ConnectionFailed(BrokerName, env.connect.reason))
    else if env.openChannel.Throws? then Fail(ConnectionFailed(BrokerName, env.openChannel.reason))
    else Pass
  }

  /** The channel `publish` goes on to use once `ensureConnection` returned. */
  function ChannelInUse(wasConnected: bool, before: ChannelState, env: BrokerEnv): ChannelState {
    if wasConnected then before
    else if env.connect.Ok? && env.openChannel.Ok? then Usable
    else before
  }

  /** The outcome of `publish($queue, …)`. */
  function PublishSpec(queue: string, wasConnected: bool, before: ChannelState, env: BrokerEnv): (o: Outcome<BrokerConnectionException>)
    ensures o.Fail? ==> StartsWith(o.error.message, PublishPrefix)
  {
    match EnsureSpec(wasConnected, env)
    case Fail(e) => Fail(PublishFailed(queue, e.message))
    case Pass =>
      match ChannelInUse(wasConnected, before, env)
      case NoChannel => Fail(PublishFailed(queue, NullChannelReason))
      case Unusable => Fail(PublishFailed(queue, ClosedChannelReason))
      case Usable =>
        if env.declare.Throws? then Fail(PublishFailed(queue, env.declare.reason))
        else if env.publish.Throws? then Fail(PublishFailed(queue, env.publish.reason))
        else Pass
  }

  /** Whether the publisher is connected after `publish`. */
  function ConnectedAfter(wasConnected: bool, before: ChannelState, env: BrokerEnv): bool {
    && (wasConnected || env.connect.Ok?)
    && !(ChannelInUse(wasConnected, before, env) == Usable && env.declare.Ok? && env.publish.Throws?)
  }

  /** The channel's state after `publish`. */
  function ChannelAfter(wasConnected: bool, before: ChannelState, env: BrokerEnv): ChannelState {
    var s := ChannelInUse(wasConnected, before, env);
    if s == Usable && (env.declare.Throws? || env.publish.Throws?) then Unusable else s
  }

  /** `publish` returns normally exactly when it reaches a usable channel and
      the broker accepts both the declaration and the message. */
  lemma PublishPassesIff(queue: string, wasConnected: bool, before: ChannelState, env: BrokerEnv)
    ensures PublishSpec(queue, wasConnected, before, env).Pass? <==>
      && (wasConnected || (env.connect.Ok? && env.openChannel.Ok?))
      && ChannelInUse(wasConnected, before, env) == Usable
      && env.declare.Ok? && env.publish.Ok?
  {
  }

  /** A connection failure reaches the caller wrapped twice. */
  lemma ConnectionFailureMessage(queue: string, before: ChannelState, env: BrokerEnv)
    requires env.connect.Throws?
    ensures PublishSpec(queue, false, before, env)
         == Fail(BrokerConnectionException(PublishPrefix + queue + "': " + ConnectionPrefix + BrokerName + ": " + env.connect.reason))
  {
    var inner := ConnectionFailed(BrokerName, env.connect.reason).message;
    assert PublishFailed(queue, inner).message == PublishPrefix + queue + "': " + inner;
    assert PublishPrefix + queue + "': " + inner
        == PublishPrefix + queue + "': " + ConnectionPrefix + BrokerName + ": " + env.connect.reason;
  }

  /** The outcomes of a run of `publish` calls on one publisher. */
  function RunSpec(queue: string, connected: bool, state: ChannelState, envs: seq<BrokerEnv>): (os: seq<Outcome<BrokerConnectionException>>)
    ensures |os| == |envs|
    decreases |envs|
  {
    if envs == [] then []
    else
      [PublishSpec(queue, connected, state, envs[0])]
      + RunSpec(queue, ConnectedAfter(connected, state, envs[0]), ChannelAfter(connected, state, envs[0]), envs[1..])
  }

  /** A publisher that is connected but has no usable channel (the channel
      could not be opened, or the broker closed it) never recovers on its
      own: every later `publish` fails without reaching the broker, whatever
      the broker would answer, until `close()` resets it. */
  lemma {:induction false} WedgedPublisherFailsForever(queue: string, state: ChannelState, envs: seq<BrokerEnv>)
    requires state != Usable
    ensures forall k :: 0 <= k < |envs| ==>
      RunSpec(queue, true, state, envs)[k] ==
        Fail(PublishFailed(queue, if state == NoChannel then NullChannelReason else ClosedChannelReason))
  {
    if envs != [] {
      WedgedPublisherFailsForever(queue, state, envs[1..]);
    }
  }

  /** The broker that accepts every library call. */
  const Reliable: BrokerEnv := BrokerEnv(Ok, Ok, Ok, Ok)

  /** Declaring the queue on every publish is harmless: against a broker that
      accepts everything, a publisher that is disconnected or has a usable
      channel succeeds on every one of any number of publishes. */
  lemma {:induction false} ReliableBrokerAcceptsEveryPublish(queue: string, connected: bool, state: ChannelState, envs: seq<BrokerEnv>)
    requires !connected || state == Usable
    requires forall k :: 0 <= k < |envs| ==> envs[k] == Reliable
    ensures forall k :: 0 <= k < |envs| ==> RunSpec(queue, connected, state, envs)[k].Pass?
    decreases |envs|
  {
    if envs != [] {
      assert ConnectedAfter(connected, state, envs[0]) && ChannelAfter(connected, state, envs[0]) == Usable;
      ReliableBrokerAcceptsEveryPublish(queue, ConnectedAfter(connected, state, envs[0]), ChannelAfter(connected, state, envs[0]), envs[1..]);
      forall k | 1 <= k < |envs|
        ensures RunSpec(queue, connected, state, envs)[k].Pass?
      {
        assert envs[1..][k - 1] == envs[k];
      }
    }
  }

  /** The deliveries of the payloads, in order, to `queue` through the default
      exchange. */
  function Deliveries(queue: string, payloads: seq<map<string, Value>>): (ds: seq<Delivery>)
    ensures |ds| == |payloads|
    ensures forall k :: 0 <= k < |payloads| ==> ds[k] == Delivery("", queue, Message(Obj(payloads[k]), DeliveryModePersistent))
  {
    if payloads == [] then []
    else
      var last := payloads[|payloads| - 1];
      Deliveries(queue, payloads[..|payloads| - 1]) + [Delivery("", queue, Message(Obj(last), DeliveryModePersistent))]
  }

  // ---------------------------------------------------------------------
  // The publisher

  class RabbitMQPublisher {
    const host: string
    const port: int
    const user: string
    const password: string
    const vhost: string

    var connection: Connection?
    var channel: Channel?

    /** The broker's side of the exchange: the queue declarations and the
        messages it has accepted through this publisher. */
    var declared: seq<QueueDeclaration>
    var published: seq<Delivery>

    /** A channel whose connection is alive belongs to the current connection. */
    ghost predicate Valid()
      reads this, channel, connection
      reads if channel != null then {channel.connection} else {}
    {
      channel != null && channel.connection.live ==> channel.connection == connection
    }

    /** `isConnected()`, as a condition. */
    ghost predicate Connected()
      reads this, connection
    {
      connection != null && connection.live
    }

    ghost function State(): ChannelState
      reads this, channel
      reads if channel != null then {channel.connection} else {}
    {
      if channel == null then NoChannel
      else if channel.open && channel.connection.live then Usable
      else Unusable
    }

    constructor(host: string, port: int, user: string, password: string, vhost: string)
      ensures this.host == host && this.port == port && this.user == user
      ensures this.password == password && this.vhost == vhost
      ensures connection == null && channel == null
      ensures declared == [] && published == []
      ensures Valid()
    {
      this.host := host;
      this.port := port;
      this.user := user;
      this.password := password;
      this.vhost := vhost;
      connection := null;
      channel := null;
      declared := [];
      published := [];
    }

    /** `isConnected()` */
    method IsConnected() returns (b: bool)
      ensures b <==> Connected()
    {
      b := connection != null && connection.live;
    }

    /** `ensureConnection()` */
    method EnsureConnection(env: BrokerEnv) returns (o: Outcome<BrokerConnectionException>)
      requires Valid()
      modifies this
      ensures Valid()
      ensures o == EnsureSpec(old(Connected()), env)
      ensures connection == old(connection) || fresh(connection)
      ensures channel == old(channel) || fresh(channel)
      ensures old(Connected()) || env.connect.Throws? ==> connection == old(connection) && channel == old(channel)
      ensures !old(Connected()) && env.connect.Ok? ==> fresh(connection) && connection.live
      ensures !old(Connected()) && env.connect.Ok? && env.openChannel.Throws? ==> channel == old(channel)
      ensures !old(Connected()) && env.connect.Ok? && env.openChannel.Ok? ==>
        fresh(channel) && channel.connection == connection && channel.open
      ensures declared == old(declared) && published == old(published)
    {
      var connected := IsConnected();
      if connected {
        return Pass;
      }
      if env.connect.Throws? {
        return Fail(ConnectionFailed(BrokerName, env.connect.reason));
      }
      connection := new Connection();
      if env.openChannel.Throws? {
        return Fail(ConnectionFailed(BrokerName, env.openChannel.reason));
      }
      channel := new Channel(connection);
      o := Pass;
    }

    /** `publish($queue, $payload)` */
    method Publish(queue: string, payload: map<string, Value>, env: BrokerEnv) returns (o: Outcome<BrokerConnectionException>)
      requires Valid()
      modifies this, channel, connection
      ensures Valid()
      ensures o == PublishSpec(queue, old(Connected()), old(State()), env)
      ensures connection == old(connection) || fresh(connection)
      ensures channel == old(channel) || fresh(channel)
      ensures Connected() == ConnectedAfter(old(Connected()), old(State()), env)
      ensures State() == ChannelAfter(old(Connected()), old(State()), env)
      ensures ChannelInUse(old(Connected()), old(State()), env) == Usable && env.declare.Ok? ==>
        declared == old(declared) + [QueueDeclaration(queue, false, true, false, false)]
      ensures !(ChannelInUse(old(Connected()), old(State()), env) == Usable && env.declare.Ok?) ==>
        declared == old(declared)
      ensures o.Pass? ==>
        published == old(published) + [Delivery("", queue, Message(Obj(payload), DeliveryModePersistent))]
      ensures o.Fail? ==> published == old(published)
    {
      ghost var wasConnected := Connected();
      ghost var before := State();
      assert !wasConnected ==> before != Usable;
      var e := EnsureConnection(env);
      if e.Fail? {
        return Fail(PublishFailed(queue, e.error.message));
      }
      assert State() == ChannelInUse(wasConnected, before, env);
      if channel == null {
        return Fail(PublishFailed(queue, NullChannelReason));
      }
      if !channel.open || !channel.connection.live {
        return Fail(PublishFailed(queue, ClosedChannelReason));
      }
      // queue_declare(queue, passive: false, durable: true, exclusive: false, auto_delete: false)
      if env.declare.Throws? {
        channel.open := false;
        return Fail(PublishFailed(queue, env.declare.reason));
      }
      declared := declared + [QueueDeclaration(queue, false, true, false, false)];
      var message := Message(Obj(payload), DeliveryModePersistent);
      if env.publish.Throws? {
        channel.connection.live := false;
        return Fail(PublishFailed(queue, env.publish.reason));
      }
      published := published + [Delivery("", queue, message)];
      o := Pass;
    }

    /** `close()`: closes and forgets the channel, then the connection. */
    method Close()
      modifies this, channel, connection
      ensures channel == null && connection == null
      ensures old(channel) != null ==> !old(channel).open
      ensures old(connection) != null ==> !old(connection).live
      ensures declared == old(declared) && published == old(published)
      ensures Valid()
    {
      if channel != null {
        channel.open := false;
        channel := null;
      }
      if connection != null {
        connection.live := false;
        connection := null;
      }
    }

    /** `__destruct()` */
    method Destruct()
      modifies this, channel, connection
      ensures channel == null && connection == null
      ensures declared == old(declared) && published == old(published)
    {
      Close();
    }
  }

  // ---------------------------------------------------------------------
  // Scenarios

  /** A fresh publisher whose broker accepts everything delivers the payload
      once, persistently, to the queue of the same name through the default
      exchange, and stays connected. */
  method PublishOnce(queue: string, payload: map<string, Value>) returns (o: Outcome<BrokerConnectionException>, deliveries: seq<Delivery>, stillConnected: bool)
    ensures o == Pass
    ensures deliveries == [Delivery("", queue, Message(Obj(payload), DeliveryModePersistent))]
    ensures stillConnected
  {
    var p := new RabbitMQPublisher("rabbitmq", 5672, "guest", "guest", "/");
    o := p.Publish(queue, payload, BrokerEnv(Ok, Ok, Ok, Ok));
    deliveries := p.published;
    stillConnected := p.IsConnected();
  }

  /** Publishing each payload in turn to a broker that accepts everything:
      every publish succeeds and the broker receives exactly one persistent
      message per payload, in order. */
  method PublishEach(p: RabbitMQPublisher, queue: string, payloads: seq<map<string, Value>>) returns (os: seq<Outcome<BrokerConnectionException>>)
    requires p.Valid() && (!p.Connected() || p.State() == Usable)
    modifies p, p.channel, p.connection
    ensures p.Valid()
    ensures |os| == |payloads| && forall k :: 0 <= k < |os| ==> os[k] == Pass
    ensures p.published == old(p.published) + Deliveries(queue, payloads)
    ensures payloads != [] ==> p.Connected() && p.State() == Usable
  {
    os := [];
    var i := 0;
    while i < |payloads|
      invariant 0 <= i <= |payloads|
      invariant p.Valid() && (!p.Connected() || p.State() == Usable)
      invariant i > 0 ==> p.Connected() && p.State() == Usable
      invariant p.channel == null || p.channel == old(p.channel) || fresh(p.channel)
      invariant p.connection == null || p.connection == old(p.connection) || fresh(p.connection)
      invariant |os| == i && forall k :: 0 <= k < i ==> os[k] == Pass
      invariant p.published == old(p.published) + Deliveries(queue, payloads[..i])
    {
      var o := p.Publish(queue, payloads[i], Reliable);
      assert payloads[..i + 1][..i] == payloads[..i];
      os := os + [o];
      i := i + 1;
    }
    assert payloads[..i] == payloads;
  }

  /** When the connection opens but the channel does not, the first publish
      reports a connection failure and the publisher is left connected with
      no channel: the next publish fails on the null channel although the
      broker would now accept it. Closing the publisher lets the publish
      after that succeed. */
  method ChannelFailureWedgesUntilClose(queue: string, payload: map<string, Value>, reason: string)
    returns (first: Outcome<BrokerConnectionException>, second: Outcome<BrokerConnectionException>, afterClose: Outcome<BrokerConnectionException>)
    ensures first == Fail(PublishFailed(queue, ConnectionFailed(BrokerName, reason).message))
    ensures second == Fail(PublishFailed(queue, NullChannelReason))
    ensures afterClose == Pass
  {
    var p := new RabbitMQPublisher("rabbitmq", 5672, "guest", "guest", "/");
    first := p.Publish(queue, payload, BrokerEnv(Ok, Throws(reason), Ok, Ok));
    second := p.Publish(queue, payload, BrokerEnv(Ok, Ok, Ok, Ok));
    p.Close();
    afterClose := p.Publish(queue, payload, BrokerEnv(Ok, Ok, Ok, Ok));
  }
}

=== FILE: repository.dfy ===
/** The PostgreSQL repository of call events. The table is the repository's
    state: a sequence of rows in insertion order with ascending ids. `create`
    goes through the Eloquent model (mass assignment, then the `creating`
    hook) and the insert can fail on the column constraints of the table;
    `findByCallId` asks for the latest row of a call. */
module CallEventRepositories {
  import opened Wrappers
  import opened Php
  import opened CallEventTypes
  import opened CallEventDtos
  import opened CallEventLogs

  /** A stored row of `call_event_logs`. */
  datatype Row = Row(id: nat, callId: string, eventType: string, payload: Value, createdAt: int)

  /** The query errors the repository can raise. */
  datatype StorageError =
    /** The database could not be reached or aborted the statement. */
    | DatabaseFault(reason: string)
    /** A string longer than its `varchar(n)` column. */
    | ValueTooLong(column: string)
    /** A number outside its integer column. */
    | OutOfRange(column: string)
    /** A query naming a column the table does not have. */
    | UndefinedColumn(column: string)
    /** An ORDER BY on a `json` column, which PostgreSQL cannot compare. */
    | NoOrderingOperator(column: string)

  /** `string('call_id', 100)` and `string('event_type', 50)` */
  const CallIdWidth: nat := 100
  const EventTypeWidth: nat := 50

  /** `unsignedInteger` becomes a signed four-byte `integer` on PostgreSQL. */
  const Int4Min: int := -0x8000_0000
  const Int4Max: int := 0x7fff_ffff

  /** What the repository hands to the model for mass assignment. */
  function CreateAttributes(dto: CallEventDTO): map<string, Value> {
    map["call_id" := Str(dto.callId), "event_type" := Str(WireValue(dto.eventType)), "payload" := Obj(ToArray(dto))]
  }

  /** The outcome of `create` when the next id is `id`, the clock reads `now`
      and the database reports `fault` (if any). */
  function InsertOutcome(id: nat, dto: CallEventDTO, now: int, fault: Option<string>): (r: Result<Row, StorageError>)
    ensures r.Success? <==> fault.None? && |dto.callId| <= CallIdWidth && Int4Min <= now <= Int4Max
  {
    if fault.Some? then Failure(DatabaseFault(fault.value))
    else if |dto.callId| > CallIdWidth then Failure(ValueTooLong("call_id"))
    else if |WireValue(dto.eventType)| > EventTypeWidth then Failure(ValueTooLong("event_type"))
    else if now < Int4Min || now > Int4Max then Failure(OutOfRange("created_at"))
    else Success(Row(id, dto.callId, WireValue(dto.eventType), Obj(ToArray(dto)), now))
  }

  /** A stored row reads back as the record it was created from: its payload
      rebuilds the record, and its event type casts back to the record's. */
  lemma StoredRowRebuildsDto(id: nat, dto: CallEventDTO, now: int, fault: Option<string>, later: Timestamps.Instant)
    requires InsertOutcome(id, dto, now, fault).Success?
    ensures var row := InsertOutcome(id, dto, now, fault).value;
      && row.payload.Obj?
      && FromArray(row.payload.fields, later) == Success(dto)
      && CastEventType(row.eventType) == Some(dto.eventType)
      && row.callId == dto.callId && row.createdAt == now
  {
    FromArrayOfToArray(dto, later);
    FromWireValue(dto.eventType);
  }

  /** Once the clock passes the largest four-byte integer (January 2038), no
      event can be stored. */
  lemma StoringFailsAfter2038(id: nat, dto: CallEventDTO, now: int)
    requires now > Int4Max
    ensures InsertOutcome(id, dto, now, None) == Failure(OutOfRange("created_at")) || InsertOutcome(id, dto, now, None) == Failure(ValueTooLong("call_id"))
  {
  }

  // ---------------------------------------------------------------------
  // Ordering

  /** Code-point order on strings. */
  predicate TextLeq(a: string, b: string)
    decreases |a|
  {
    a == [] || (b != [] && (a[0] < b[0] || (a[0] == b[0] && TextLeq(a[1..], b[1..]))))
  }

  lemma {:induction false} TextLeqRefl(a: string)
    ensures TextLeq(a, a)
    decreases |a|
  {
    if a != [] {
      TextLeqRefl(a[1..]);
    }
  }

  lemma {:induction false} TextLeqTotal(a: string, b: string)
    ensures TextLeq(a, b) || TextLeq(b, a)
    decreases |a|
  {
    if a != [] && b != [] && a[0] == b[0] {
      TextLeqTotal(a[1..], b[1..]);
    }
  }

  lemma {:induction false} TextLeqTrans(a: string, b: string, c: string)
    requires TextLeq(a, b) && TextLeq(b, c)
    ensures TextLeq(a, c)
    decreases |a|
  {
    if a != [] && a[0] == b[0] && b[0] == c[0] {
      TextLeqTrans(a[1..], b[1..], c[1..]);
    }
  }

  /** The value a row is ordered by. */
  datatype SortKey = IntKey(n: int) | TextKey(t: string)

  predicate KeyLeq(a: SortKey, b: SortKey) {
    match (a, b)
    case (IntKey(x), IntKey(y)) => x <= y
    case (TextKey(x), TextKey(y)) => TextLeq(x, y)
    case (IntKey(_), TextKey(_)) => true
    case (TextKey(_), IntKey(_)) => false
  }

  lemma KeyLeqRefl(a: SortKey)
    ensures KeyLeq(a, a)
  {
    if a.TextKey? {
      TextLeqRefl(a.t);
    }
  }

  lemma KeyLeqTotal(a: SortKey, b: SortKey)
    ensures KeyLeq(a, b) || KeyLeq(b, a)
  {
    if a.TextKey? && b.TextKey? {
      TextLeqTotal(a.t, b.t);
    }
  }

  lemma KeyLeqTrans(a: SortKey, b: SortKey, c: SortKey)
    requires KeyLeq(a, b) && KeyLeq(b, c)
    ensures KeyLeq(a, c)
  {
    if a.TextKey? && b.TextKey? && c.TextKey? {
      TextLeqTrans(a.t, b.t, c.t);
    }
  }

  /** The columns PostgreSQL can order this table by. */
  predicate Orderable(column: string) {
    column == "id" || column == "call_id" || column == "event_type" || column == "created_at"
  }

  function SortKeyOf(row: Row, column: string): SortKey
    requires Orderable(column)
  {
    if column == "id" then IntKey(row.id)
    else if column == "created_at" then IntKey(row.createdAt)
    else if column == "call_id" then TextKey(row.callId)
    else TextKey(row.eventType)
  }

  predicate IsLatest(rows: seq<Row>, callId: string, column: string, row: Row)
    requires Orderable(column)
  {
    && row in rows && row.callId == callId
    && forall i :: 0 <= i < |rows| && rows[i].callId == callId ==> KeyLeq(SortKeyOf(rows[i], column), SortKeyOf(row, column))
  }

  class PostgresCallEventRepository {
    /** The rows of `call_event_logs`, oldest first. */
    var rows: seq<Row>
    /** The next value of the `id` sequence. */
    var nextId: nat

    ghost predicate Valid()
      reads this
    {
      && nextId >= 1
      && (forall i :: 0 <= i < |rows| ==> rows[i].id < nextId)
      && (forall i, j :: 0 <= i < j < |rows| ==> rows[i].id < rows[j].id)
    }

    constructor()
      ensures Valid() && rows == [] && nextId == 1
    {
      rows := [];
      nextId := 1;
    }

    /** `create($dto)`: builds the model from the record, lets the `creating`
        hook stamp `created_at` with `now`, and inserts it. */
    method Create(dto: CallEventDTO, now: int, fault: Option<string>) returns (r: Result<Row, StorageError>)
      requires Valid()
      modifies this
      ensures Valid()
      ensures r == InsertOutcome(old(nextId), dto, now, fault)
      ensures r.Success? ==> rows == old(rows) + [r.value] && nextId == old(nextId) + 1
      ensures r.Failure? ==> rows == old(rows) && nextId == old(nextId)
    {
      var log := new CallEventLog(CreateAttributes(dto));
      log.Creating(now);
      var attrs := log.attributes;
      assert attrs == CreateAttributes(dto)["created_at" := Int(now)];
      if fault.Some? {
        return Failure(DatabaseFault(fault.value));
      }
      var callId := attrs["call_id"].s;
      var eventType := attrs["event_type"].s;
      var createdAt := attrs["created_at"].i;
      if |callId| > CallIdWidth {
        return Failure(ValueTooLong("call_id"));
      }
      if |eventType| > EventTypeWidth {
        return Failure(ValueTooLong("event_type"));
      }
      if createdAt < Int4Min || createdAt > Int4Max {
        return Failure(OutOfRange("created_at"));
      }
      var row := Row(nextId, callId, eventType, attrs["payload"], createdAt);
      rows := rows + [row];
      nextId := nextId + 1;
      r := Success(row);
    }

    /** `where('call_id', $callId)->latest($column)->first()`: an unknown
        column or the `json` column makes the query fail; otherwise the
        result is a row of the call with the greatest value in `column`, or
        none when the call has no rows. Among rows that tie, PostgreSQL may
        return any; this scan returns the last. */
    method Latest(callId: string, column: string) returns (r: Result<Option<Row>, StorageError>)
      ensures column !in TableColumns ==> r == Failure(UndefinedColumn(column))
      ensures column == "payload" ==> r == Failure(NoOrderingOperator(column))
      ensures Orderable(column) ==> r.Success?
      ensures Orderable(column) && r.Success? ==>
        (r.value.None? <==> forall i :: 0 <= i < |rows| ==> rows[i].callId != callId)
      ensures Orderable(column) && r.Success? && r.value.Some? ==> IsLatest(rows, callId, column, r.value.value)
    {
      if column !in TableColumns {
        return Failure(UndefinedColumn(column));
      }
      if !Orderable(column) {
        return Failure(NoOrderingOperator(column));
      }
      var best: Option<Row> := None;
      var i := 0;
      while i < |rows|
        invariant 0 <= i <= |rows|
        invariant best.None? <==> forall j :: 0 <= j < i ==> rows[j].callId != callId
        invariant best.Some? ==> best.value in rows[..i] && best.value.callId == callId
        invariant best.Some? ==> forall j :: 0 <= j < i && rows[j].callId == callId ==>
          KeyLeq(SortKeyOf(rows[j], column), SortKeyOf(best.value, column))
      {
        var row := rows[i];
        if row.callId == callId {
          KeyLeqRefl(SortKeyOf(row, column));
          if best.None? {
            best := Some(row);
          } else {
            var current := SortKeyOf(best.value, column);
            var candidate := SortKeyOf(row, column);
            if KeyLeq(current, candidate) {
              forall j | 0 <= j < i && rows[j].callId == callId
                ensures KeyLeq(SortKeyOf(rows[j], column), candidate)
              {
                KeyLeqTrans(SortKeyOf(rows[j], column), current, candidate);
              }
              best := Some(row);
            } else {
              KeyLeqTotal(current, candidate);
            }
          }
        }
        assert rows[..i + 1] == rows[..i] + [row];
        i := i + 1;
      }
      assert rows[..i] == rows;
      r := Success(best);
    }

    /** `findByCallId` as written: it orders by `created_time`, which is not a
        column of the table, so the query fails whatever the table holds. */
    method FindByCallIdAsWritten(callId: string) returns (r: Result<Option<Row>, StorageError>)
      ensures r == Failure(UndefinedColumn("created_time"))
    {
      r := Latest(callId, "created_time");
    }

    /** `findByCallId` ordering by `created_at`: the call's most recently
        created row, or none when the call has no rows. */
    method FindByCallId(callId: string) returns (r: Option<Row>)
      ensures r.None? <==> forall i :: 0 <= i < |rows| ==> rows[i].callId != callId
      ensures r.Some? ==> r.value in rows && r.value.callId == callId
      ensures r.Some? ==> forall i :: 0 <= i < |rows| && rows[i].callId == callId ==> rows[i].createdAt <= r.value.createdAt
    {
      var res := Latest(callId, "created_at");
      r := res.value;
    }
  }

  /** The wire values fit their column: `event_type` never overflows. */
  lemma EventTypeFitsColumn(t: CallEventType)
    ensures |WireValue(t)| <= EventTypeWidth
  {
  }

  /** The as-written lookup fails even right after the call's event was
      stored; the corrected one finds that event. */
  method FindAfterCreate(dto: CallEventDTO, now: int) returns (asWritten: Result<Option<Row>, StorageError>, corrected: Option<Row>)
    requires |dto.callId| <= CallIdWidth && Int4Min <= now <= Int4Max
    ensures asWritten.Failure?
    ensures corrected.Some? && corrected.value.callId == dto.callId && corrected.value.createdAt == now
  {
    var repo := new PostgresCallEventRepository();
    var stored := repo.Create(dto, now, None);
    asWritten := repo.FindByCallIdAsWritten(dto.callId);
    corrected := repo.FindByCallId(dto.callId);
    assert stored.value.callId == dto.callId && stored.value.createdAt == now;
    assert repo.rows == [stored.value];
    assert repo.rows[0].callId == dto.callId;
  }
}

=== FILE: responses.dfy ===
/** The JSON response envelope every API response shares: `timestamp`,
    `path`, `method`, `error` and `result`. The base class fills `result`;
    the error classes move it into `error` and fall back to a default
    message; the generic error response wraps its input and rewrites
    `error` once more. The envelope goes through JSON between the steps, so
    it is modelled as JSON values. */
module ApiResponses {
  import opened Wrappers
  import opened Php

  // ---------------------------------------------------------------------
  // JSON

  /** A JSON value as the envelope holds it after encoding. */
  datatype Json =
    | JNull
    | JBool(b: bool)
    | JInt(i: int)
    | JString(s: string)
    | JArray(items: seq<Json>)
    | JObject(fields: map<string, Json>)

  /** `json_encode`: an empty PHP array becomes `[]` and a throwable, which
      has no public properties, becomes `{}`. A rule object is held by its
      name alone here, so it too becomes `{}`. */
  function ToJson(v: Value): Json {
    match v
    case Null => JNull
    case Bool(b) => JBool(b)
    case Int(i) => JInt(i)
    case Str(s) => JString(s)
    case List(items) => JArray(seq(|items|, i requires 0 <= i < |items| => ToJson(items[i])))
    case Obj(fields) => if fields == map[] then JArray([]) else JObject(map k | k in fields :: ToJson(fields[k]))
    case Throwable(_) => JObject(map[])
    case MessageBag(messages) => if messages == map[] then JArray([]) else JObject(map k | k in messages :: JsonStrings(messages[k]))
    case RuleObject(_) => JObject(map[])
  }

  function JsonStrings(ss: seq<string>): Json {
    JArray(seq(|ss|, i requires 0 <= i < |ss| => JString(ss[i])))
  }

  /** `empty($x)` on a value read back with `getData()`: JSON objects come
      back as objects, which are never empty. */
  predicate JsonEmpty(j: Json) {
    match j
    case JNull => true
    case JBool(b) => !b
    case JInt(i) => i == 0
    case JString(s) => s == "" || s == "0"
    case JArray(items) => items == []
    case JObject(_) => false
  }

  /** `$bag->toArray()` */
  function MessageBagArray(messages: map<string, seq<string>>): Value {
    Obj(map k | k in messages :: List(seq(|messages[k]|, i requires 0 <= i < |messages[k]| => Str(messages[k][i]))))
  }

  // ---------------------------------------------------------------------
  // Response classes

  /** The concrete response classes; all but `SuccessApi` are error responses. */
  datatype ResponseClass =
    | SuccessApi
    | ErrorApi
    | ErrorNotFound
    | ErrorInternalServerError
    | ErrorValidation
    | ErrorTooManyAttempts
    | ErrorMethodNotAllowed
    | ErrorUnauthenticated
    | ErrorTokenBlacklisted
    | ErrorTokenExpired
    | ErrorTokenInvalid

  predicate IsErrorResponse(c: ResponseClass) {
    c != SuccessApi
  }

  /** `defaultResponseCode()`; the base class answers 500. */
  function DefaultResponseCode(c: ResponseClass): (code: int)
    ensures 200 <= code <= 599
    ensures IsErrorResponse(c) ==> code >= 400
  {
    match c
    case SuccessApi => 200
    case ErrorNotFound => 404
    case ErrorValidation => 422
    case ErrorTooManyAttempts => 429
    case ErrorMethodNotAllowed => 405
    case ErrorUnauthenticated => 401
    case ErrorTokenBlacklisted => 401
    case ErrorTokenExpired => 401
    case ErrorTokenInvalid => 401
    case ErrorApi => 500
    case ErrorInternalServerError => 500
  }

  /** `ApiErrorResponse::defaultErrorMessage()`, which every concrete error
      class overrides. */
  const SharingInformationMessage: string := "An error occurred while retrieving sharing information. Please try again later."

  /** `defaultErrorMessage()` of an error class. */
  function DefaultErrorMessage(c: ResponseClass): (m: string)
    requires IsErrorResponse(c)
    ensures m != "" && m != "0" && m != SharingInformationMessage
  {
    match c
    case ErrorApi => "Something went wrong"
    case ErrorNotFound => "Not found."
    case ErrorInternalServerError => "There was an error with your request. Please try again later."
    case ErrorValidation => "Validation error."
    case ErrorTooManyAttempts => "Too many requests, please stop."
    case ErrorMethodNotAllowed => "Error method is not allowed."
    case ErrorUnauthenticated => "Authorization error."
    case ErrorTokenBlacklisted => "Token is blacklisted."
    case ErrorTokenExpired => "Token has expired."
    case ErrorTokenInvalid => "Token is invalid."
  }

  /** A response object: its class, its `$dataOrMessage` and its `$code`. */
  datatype ApiResponse = ApiResponse(cls: ResponseClass, dataOrMessage: Value, code: Option<int>)

  /** `ErrorApiResponse::make`'s wrapping of its input. */
  function WrapErrorPayload(input: Value, code: Option<int>): (w: Value)
    ensures w.Obj? && |w.fields| == 1
    ensures code == Some(422) && input.MessageBag? ==> w == Obj(map["errors" := MessageBagArray(input.messages)])
    ensures code == Some(422) && IsArray(input) ==> w == Obj(map["errors" := input])
    ensures !(code == Some(422) && (input.MessageBag? || IsArray(input))) ==> w == Obj(map["error" := input])
  {
    if code == Some(422) && input.MessageBag? then Obj(map["errors" := MessageBagArray(input.messages)])
    else if code == Some(422) && IsArray(input) then Obj(map["errors" := input])
    else Obj(map["error" := input])
  }

  /** `Class::make($dataOrMessage, $code)` */
  function Make(c: ResponseClass, dataOrMessage: Value, code: Option<int>): (r: ApiResponse)
    ensures r.cls == c && r.code == code
    ensures c != ErrorApi ==> r.dataOrMessage == dataOrMessage
    ensures c == ErrorApi ==> r.dataOrMessage == WrapErrorPayload(dataOrMessage, code)
  {
    ApiResponse(c, if c == ErrorApi then WrapErrorPayload(dataOrMessage, code) else dataOrMessage, code)
  }

  /** `getStatusCode()`: the explicit code, else the class default. */
  function GetStatusCode(r: ApiResponse): (status: int)
    ensures r.code.Some? ==> status == r.code.value
    ensures r.code.None? ==> status == DefaultResponseCode(r.cls)
  {
    if r.code.Some? then r.code.value else DefaultResponseCode(r.cls)
  }

  // ---------------------------------------------------------------------
  // The envelope

  /** `formatResult($result)` for arrays and plain values: an array's
      `original` entry replaces it. */
  function FormatResult(result: Value): (r: Value)
    ensures IsSet(result, "original") ==> r == result.fields["original"]
    ensures r != result ==> IsSet(result, "original")
    ensures !IsArray(result) || result.List? ==> r == result
  {
    if IsSet(result, "original") then result.fields["original"] else result
  }

  /** The request as the envelope reports it, and the time of the answer. */
  datatype RequestInfo = RequestInfo(path: string, httpMethod: string, now: string)

  type Envelope = map<string, Json>

  const EnvelopeKeys: set<string> := {"timestamp", "path", "method", "error", "result"}

  /** The 422 rewrite applies: an explicit 422 with an array holding `errors`. */
  predicate ValidationErrors(r: ApiResponse) {
    r.code == Some(422) && IsArray(r.dataOrMessage) && IsSet(r.dataOrMessage, "errors")
  }

  /** The 422 rewrite applies: an explicit 422 with a string. */
  predicate ValidationMessage(r: ApiResponse) {
    r.code == Some(422) && r.dataOrMessage.Str?
  }

  /** `ApiBaseResponse::toResponse`'s array. */
  function BaseEnvelope(r: ApiResponse, req: RequestInfo): (e: Envelope)
    ensures e.Keys == EnvelopeKeys
    ensures e["timestamp"] == JString(req.now) && e["path"] == JString(req.path) && e["method"] == JString(req.httpMethod)
    ensures ValidationErrors(r) ==> e["error"] == ToJson(r.dataOrMessage.fields["errors"]) && e["result"] == JArray([])
    ensures ValidationMessage(r) ==>
      e["error"] == JObject(map["general" := JArray([JString(r.dataOrMessage.s)])]) && e["result"] == JArray([])
    ensures !ValidationErrors(r) && !ValidationMessage(r) ==>
      e["error"] == JNull && e["result"] == ToJson(FormatResult(r.dataOrMessage))
  {
    var e := map["timestamp" := JString(req.now), "path" := JString(req.path), "method" := JString(req.httpMethod),
                 "error" := JNull, "result" := ToJson(FormatResult(r.dataOrMessage))];
    if ValidationErrors(r) then e["error" := ToJson(r.dataOrMessage.fields["errors"])]["result" := JArray([])]
    else if ValidationMessage(r) then
      e["error" := JObject(map["general" := JArray([JString(r.dataOrMessage.s)])])]["result" := JArray([])]
    else e
  }

  /** `ApiErrorResponse::toResponse`'s rewrite: `result` moves into `error`,
      `result` is emptied, and an empty `error` gets the default message. */
  function ErrorRewrite(c: ResponseClass, base: Envelope): (e: Envelope)
    requires IsErrorResponse(c) && base.Keys == EnvelopeKeys
    ensures e.Keys == EnvelopeKeys
    ensures e["result"] == JArray([])
    ensures !JsonEmpty(base["result"]) ==> e["error"] == base["result"]
    ensures JsonEmpty(base["result"]) ==> e["error"] == JString(DefaultErrorMessage(c))
    ensures forall k :: k in e && k != "error" && k != "result" ==> e[k] == base[k]
  {
    var error := base["result"];
    base["error" := if JsonEmpty(error) then JString(DefaultErrorMessage(c)) else error]["result" := JArray([])]
  }

  /** Why `toResponse` can throw: a status code Symfony's `setStatusCode`
      refuses (an `InvalidArgumentException`, for every class), and, in
      `ErrorApiResponse`, reading a missing array key (Laravel turns the
      warning into an exception) or returning a value that is neither a
      string nor an array from a strictly typed method. */
  datatype ResponseError =
    | InvalidStatusCode(code: int)
    | UndefinedArrayKey(key: string)
    | ReturnTypeError(returned: Value)

  /** The codes `setStatusCode` accepts: 100 up to 599. */
  predicate ValidStatusCode(code: int) {
    100 <= code < 600
  }

  /** A value `string|array` accepts without conversion. */
  predicate IsStringOrArray(v: Value) {
    v.Str? || IsArray(v)
  }

  /** `ErrorApiResponse::formatErrorMessage($error)`. Objects other than
      throwables are not among the inputs modelled. */
  function FormatErrorMessage(error: Value): (r: Result<Value, ResponseError>)
    requires !error.MessageBag? && !error.RuleObject?
    ensures error.Throwable? ==> r == Success(Str(error.message))
    ensures IsSet(error, "errors") ==>
      r == (if IsStringOrArray(error.fields["errors"]) then Success(error.fields["errors"])
            else Failure(ReturnTypeError(error.fields["errors"])))
    ensures IsArray(error) && !IsSet(error, "errors") && !(error.Obj? && "error" in error.fields) ==>
      r == Failure(UndefinedArrayKey("error"))
    ensures !IsArray(error) && !error.Throwable? ==>
      r == Success(Str(if Truthy(Str(ToPhpString(error))) then ToPhpString(error) else DefaultErrorMessage(ErrorApi)))
  {
    if error.Throwable? then Success(Str(error.message))
    else if IsArray(error) then
      var picked := if IsSet(error, "errors") then Some(error.fields["errors"])
                    else if error.Obj? && "error" in error.fields then Some(error.fields["error"])
                    else None;
      match picked
      case None => Failure(UndefinedArrayKey("error"))
      case Some(v) => if IsStringOrArray(v) then Success(v) else Failure(ReturnTypeError(v))
    else
      var s := ToPhpString(error);
      Success(Str(if Truthy(Str(s)) then s else DefaultErrorMessage(ErrorApi)))
  }

  /** `isset($data['errors']) && is_array($data['errors'])` on the envelope
      read back from JSON. */
  predicate HoldsErrorList(data: Envelope) {
    "errors" in data && data["errors"].JArray?
  }

  /** What a client receives: the status and the JSON body. */
  datatype HttpResponse = HttpResponse(status: int, body: Envelope)

  /** `$response->toResponse($request)` for any response class. */
  function ToResponse(r: ApiResponse, req: RequestInfo): (out: Result<HttpResponse, ResponseError>)
    requires r.cls == ErrorApi ==> !r.dataOrMessage.MessageBag? && !r.dataOrMessage.RuleObject?
    ensures out.Success? ==> out.value.status == GetStatusCode(r) && out.value.body.Keys == EnvelopeKeys
    ensures out.Failure? <==>
      !ValidStatusCode(GetStatusCode(r)) || (r.cls == ErrorApi && FormatErrorMessage(r.dataOrMessage).Failure?)
    ensures !ValidStatusCode(GetStatusCode(r)) ==> out == Failure(InvalidStatusCode(GetStatusCode(r)))
    ensures r.cls == SuccessApi && ValidStatusCode(GetStatusCode(r)) ==>
      out == Success(HttpResponse(GetStatusCode(r), BaseEnvelope(r, req)))
    ensures IsErrorResponse(r.cls) && r.cls != ErrorApi && ValidStatusCode(GetStatusCode(r)) ==>
      out == Success(HttpResponse(GetStatusCode(r), ErrorRewrite(r.cls, BaseEnvelope(r, req))))
    ensures r.cls == ErrorApi && out.Success? ==>
      && out.value.body["timestamp"] == JString(req.now)
      && out.value.body["path"] == JString(req.path)
      && out.value.body["method"] == JString(req.httpMethod)
      && out.value.body["result"] == JArray([])
      && out.value.body["error"] == ToJson(FormatErrorMessage(r.dataOrMessage).value)
  {
    var status := GetStatusCode(r);
    var base := BaseEnvelope(r, req);
    if !ValidStatusCode(status) then Failure(InvalidStatusCode(status))
    else if r.cls == SuccessApi then Success(HttpResponse(status, base))
    else
      var data := ErrorRewrite(r.cls, base);
      ErrorsKeyNeverInEnvelope(r, req);
      if r.cls != ErrorApi then Success(HttpResponse(status, data))
      else if HoldsErrorList(data) then Success(HttpResponse(status, data["result" := JArray([])]))
      else
        match FormatErrorMessage(r.dataOrMessage)
        case Failure(e) => Failure(e)
        case Success(m) => Success(HttpResponse(status, data["error" := ToJson(m)]["result" := JArray([])]))
  }

  // ---------------------------------------------------------------------
  // Properties

  /** The 422 rewrite looks only at the explicit code: a validation response
      made without one keeps a null error in the base envelope, although its
      status is 422. */
  lemma ImplicitValidationCodeSkipsRewrite(data: Value, req: RequestInfo)
    ensures var r := Make(ErrorValidation, data, None);
      GetStatusCode(r) == 422 && BaseEnvelope(r, req)["error"] == JNull
  {
  }

  /** The generic error response reports the wrapped input itself: a string
      message comes back verbatim, even an empty one, so its default message
      is never used by `toResponse`. */
  lemma ErrorApiReportsMessageVerbatim(message: string, code: Option<int>, req: RequestInfo)
    ensures var out := ToResponse(Make(ErrorApi, Str(message), code), req);
      code.Some? && !ValidStatusCode(code.value) ==> out == Failure(InvalidStatusCode(code.value))
    ensures var out := ToResponse(Make(ErrorApi, Str(message), code), req);
      code.None? || ValidStatusCode(code.value) ==>
      && out.Success?
      && out.value.body["error"] == JString(message)
      && out.value.body["result"] == JArray([])
      && out.value.status == (if code.Some? then code.value else 500)
  {
    var r := Make(ErrorApi, Str(message), code);
    assert r.dataOrMessage == Obj(map["error" := Str(message)]);
    assert FormatErrorMessage(r.dataOrMessage) == Success(Str(message));
    assert ToJson(Str(message)) == JString(message);
  }

  /** Validation errors given to the generic error response with 422 come
      back as the `error` field, unchanged. */
  lemma ErrorApiReportsValidationErrors(errors: map<string, Value>, req: RequestInfo)
    requires errors != map[]
    ensures var out := ToResponse(Make(ErrorApi, Obj(errors), Some(422)), req);
      && out.Success?
      && out.value.status == 422
      && out.value.body["error"] == ToJson(Obj(errors))
      && out.value.body["result"] == JArray([])
  {
    var r := Make(ErrorApi, Obj(errors), Some(422));
    assert r.dataOrMessage == Obj(map["errors" := Obj(errors)]);
    assert FormatErrorMessage(r.dataOrMessage) == Success(Obj(errors));
  }

  /** A throwable handed to the generic error response is returned by
      `formatErrorMessage` as an object, which its `string|array` return type
      refuses under strict types; an invalid status code is refused before
      that. */
  lemma ErrorApiRejectsThrowable(message: string, code: Option<int>, req: RequestInfo)
    ensures ToResponse(Make(ErrorApi, Throwable(message), code), req)
         == if code.Some? && !ValidStatusCode(code.value) then Failure(InvalidStatusCode(code.value))
            else Failure(ReturnTypeError(Throwable(message)))
  {
    var r := Make(ErrorApi, Throwable(message), code);
    assert r.dataOrMessage == Obj(map["error" := Throwable(message)]);
    assert FormatErrorMessage(r.dataOrMessage) == Failure(ReturnTypeError(Throwable(message)));
    ErrorsKeyNeverInEnvelope(r, req);
  }

  /** A successful response carrying a throwable shows `{}`: the message is
      not part of the JSON. */
  lemma ThrowableResultIsEmptyObject(message: string, code: Option<int>, req: RequestInfo)
    ensures var out := ToResponse(Make(SuccessApi, Throwable(message), code), req);
      code.Some? && !ValidStatusCode(code.value) ==> out == Failure(InvalidStatusCode(code.value))
    ensures var out := ToResponse(Make(SuccessApi, Throwable(message), code), req);
      code.None? || ValidStatusCode(code.value) ==>
      out.Success? && out.value.body["result"] == JObject(map[]) && out.value.body["error"] == JNull
  {
  }

  /** An error class with an empty payload reports its default message; a
      non-empty payload replaces it. */
  lemma ErrorDefaultsToClassMessage(c: ResponseClass, req: RequestInfo)
    requires IsErrorResponse(c) && c != ErrorApi
    ensures var out := ToResponse(Make(c, List([]), None), req);
      && out.Success?
      && out.value.status == DefaultResponseCode(c)
      && out.value.body["error"] == JString(DefaultErrorMessage(c))
      && out.value.body["result"] == JArray([])
  {
    var r := Make(c, List([]), None);
    assert !ValidationErrors(r) && !ValidationMessage(r);
    assert ToJson(FormatResult(List([]))) == JArray([]);
    var base := BaseEnvelope(r, req);
    assert JsonEmpty(base["result"]);
    assert ValidStatusCode(GetStatusCode(r));
    assert ToResponse(r, req) == Success(HttpResponse(GetStatusCode(r), ErrorRewrite(c, base)));
  }

  /** A string message given to a specific error class replaces the default,
      unless PHP counts it as empty (`""` or `"0"`). */
  lemma ErrorClassReportsMessage(c: ResponseClass, message: string, code: Option<int>, req: RequestInfo)
    requires IsErrorResponse(c) && c != ErrorApi && code != Some(422)
    ensures var out := ToResponse(Make(c, Str(message), code), req);
      code.Some? && !ValidStatusCode(code.value) ==> out == Failure(InvalidStatusCode(code.value))
    ensures var out := ToResponse(Make(c, Str(message), code), req);
      code.None? || ValidStatusCode(code.value) ==>
      && out.Success?
      && out.value.body["error"] == JString(if message == "" || message == "0" then DefaultErrorMessage(c) else message)
  {
    var r := Make(c, Str(message), code);
    assert !ValidationErrors(r) && !ValidationMessage(r);
    var base := BaseEnvelope(r, req);
    assert base["result"] == JString(message);
    RewriteOfMessage(c, base, message);
  }

  /** The error-class rewrite of an envelope whose result is a string. */
  lemma RewriteOfMessage(c: ResponseClass, base: Envelope, message: string)
    requires IsErrorResponse(c) && base.Keys == EnvelopeKeys && base["result"] == JString(message)
    ensures ErrorRewrite(c, base)["error"] == JString(if message == "" || message == "0" then DefaultErrorMessage(c) else message)
  {
  }

  /** The key `errors` that `ErrorApiResponse::toResponse` checks for is
      never in the envelope, so the error is always reformatted. */
  lemma ErrorsKeyNeverInEnvelope(r: ApiResponse, req: RequestInfo)
    requires IsErrorResponse(r.cls)
    ensures "errors" !in ErrorRewrite(r.cls, BaseEnvelope(r, req))
  {
    assert "errors" !in EnvelopeKeys;
  }
}

=== FILE: swagger.dfy ===
/** The string-mapping helpers of the OpenAPI generator: schema types from
    Eloquent casts, validation rules and field names; the default CRUD
    endpoints and their standard responses; path parameters; paths; and the
    list of resource tags, kept free of duplicate names. */
module Swagger {
  import opened Wrappers
  import opened Php

  // ---------------------------------------------------------------------
  // Property schemas

  /** A property schema: `type`, and the optional `format`, `description`,
      `nullable` (present only as `true`) and `items` (an item type). */
  datatype PropertySchema = PropertySchema(
    schemaType: string, format: Option<string>, description: Option<string>,
    nullable: bool, itemsType: Option<string>)

  /** `['type' => 'string']` */
  const StringSchema := PropertySchema("string", None, None, false, None)

  function TypeOnly(t: string): PropertySchema {
    PropertySchema(t, None, None, false, None)
  }

  /** `array_merge($a, $b)`: every key `$b` holds overrides the one in `$a`. */
  function Merge(a: PropertySchema, b: PropertySchema): PropertySchema {
    PropertySchema(
      b.schemaType,
      if b.format.Some? then b.format else a.format,
      if b.description.Some? then b.description else a.description,
      a.nullable || b.nullable,
      if b.itemsType.Some? then b.itemsType else a.itemsType)
  }

  predicate IsIntegerCast(c: string) { c == "integer" || c == "int" }
  predicate IsNumberCast(c: string) { c == "float" || c == "double" || c == "decimal" }
  predicate IsBooleanCast(c: string) { c == "boolean" || c == "bool" }
  predicate IsArrayCast(c: string) { c == "array" || c == "json" }

  /** `castTypeToSwaggerType($castType)` */
  function CastTypeToSwaggerType(castType: string): (r: PropertySchema)
    ensures r.format.None? && r.description.None? && !r.nullable
    ensures r.schemaType == "integer" <==> IsIntegerCast(castType)
    ensures r.schemaType == "number" <==> IsNumberCast(castType)
    ensures r.schemaType == "boolean" <==> IsBooleanCast(castType)
    ensures r.schemaType == "array" <==> IsArrayCast(castType)
    ensures r.itemsType.Some? <==> IsArrayCast(castType)
    ensures r.itemsType.Some? ==> r.itemsType.value == "string"
    ensures r.schemaType == "string" <==>
      !(IsIntegerCast(castType) || IsNumberCast(castType) || IsBooleanCast(castType) || IsArrayCast(castType))
  {
    if IsIntegerCast(castType) then TypeOnly("integer")
    else if IsNumberCast(castType) then TypeOnly("number")
    else if IsBooleanCast(castType) then TypeOnly("boolean")
    else if IsArrayCast(castType) then PropertySchema("array", None, None, false, Some("string"))
    else StringSchema
  }

  predicate NamesId(field: string) { Contains(field, "id") || Contains(field, "Id") }
  predicate NamesEmail(field: string) { Contains(field, "email") || Contains(field, "Email") }
  predicate NamesDate(field: string) { Contains(field, "date") || Contains(field, "Date") }
  predicate NamesAmount(field: string) {
    Contains(field, "price") || Contains(field, "Price") || Contains(field, "amount") || Contains(field, "Amount")
  }
  predicate NamesText(field: string) {
    Contains(field, "note") || Contains(field, "Note") || Contains(field, "description") || Contains(field, "Description")
  }

  /** `inferPropertyType($field, $model)`: the first name pattern that
      matches decides; the model is not consulted. */
  function InferPropertyType(field: string): (r: PropertySchema)
    ensures r.itemsType.None?
    ensures NamesId(field) ==> r == PropertySchema("integer", None, Some("Unique identifier"), false, None)
    ensures !NamesId(field) && NamesEmail(field) ==>
      r == PropertySchema("string", Some("email"), Some("Email address"), false, None)
    ensures !NamesId(field) && !NamesEmail(field) && NamesDate(field) ==>
      r == PropertySchema("string", Some("date"), Some("Date field"), false, None)
    ensures !NamesId(field) && !NamesEmail(field) && !NamesDate(field) && NamesAmount(field) ==>
      r == PropertySchema("number", Some("float"), Some("Price/Amount field"), false, None)
    ensures !NamesId(field) && !NamesEmail(field) && !NamesDate(field) && !NamesAmount(field) && NamesText(field) ==>
      r == PropertySchema("string", None, Some("Optional text field"), true, None)
    ensures !NamesId(field) && !NamesEmail(field) && !NamesDate(field) && !NamesAmount(field) && !NamesText(field) ==>
      r == StringSchema
  {
    if NamesId(field) then PropertySchema("integer", None, Some("Unique identifier"), false, None)
    else if NamesEmail(field) then PropertySchema("string", Some("email"), Some("Email address"), false, None)
    else if NamesDate(field) then PropertySchema("string", Some("date"), Some("Date field"), false, None)
    else if NamesAmount(field) then PropertySchema("number", Some("float"), Some("Price/Amount field"), false, None)
    else if NamesText(field) then PropertySchema("string", None, Some("Optional text field"), true, None)
    else StringSchema
  }

  /** Every field whose name contains `id` is documented as an integer, even
      one like `valid_until`. */
  lemma IdSubstringMakesInteger(prefix: string, suffix: string)
    ensures InferPropertyType(prefix + "id" + suffix).schemaType == "integer"
  {
    var field := prefix + "id" + suffix;
    assert field[|prefix|..|prefix| + 2] == "id";
    ContainsAt(field, "id", |prefix|);
  }

  // ---------------------------------------------------------------------
  // Validation rules

  /** A field's rule set: a `|`-separated string, an array of rules, or
      anything else (which contributes no rule). */
  datatype RuleSet = RuleString(s: string) | RuleArray(rules: seq<Value>) | RuleOther(v: Value)

  /** The rules `foreach` visits: a string is exploded on `|`. */
  function RuleList(ruleSet: RuleSet): (rules: seq<Value>)
    ensures ruleSet.RuleArray? ==> rules == ruleSet.rules
    ensures ruleSet.RuleOther? ==> rules == []
    ensures ruleSet.RuleString? ==>
      |rules| == |Explode(ruleSet.s, '|')|
      && forall i :: 0 <= i < |rules| ==> rules[i] == Str(Explode(ruleSet.s, '|')[i])
  {
    match ruleSet
    case RuleString(s) =>
      var parts := Explode(s, '|');
      seq(|parts|, i requires 0 <= i < |parts| => Str(parts[i]))
    case RuleArray(rules) => rules
    case RuleOther(_) => []
  }

  /** The type a rule sets, if any, by its prefix. */
  function RuleType(rule: Value): Option<string> {
    if !rule.Str? then None
    else if StartsWith(rule.s, "integer") then Some("integer")
    else if StartsWith(rule.s, "numeric") then Some("number")
    else if StartsWith(rule.s, "boolean") then Some("boolean")
    else if StartsWith(rule.s, "date") || StartsWith(rule.s, "email") then Some("string")
    else None
  }

  /** What one rule does to the property being built. */
  function RuleStep(p: PropertySchema, rule: Value): (q: PropertySchema)
    ensures RuleType(rule).Some? ==> q.schemaType == RuleType(rule).value
    ensures RuleType(rule).None? ==> q.schemaType == p.schemaType
  {
    if !rule.Str? then p
    else
      var r := rule.s;
      if StartsWith(r, "integer") then p.(schemaType := "integer")
      else if StartsWith(r, "numeric") then p.(schemaType := "number")
      else if StartsWith(r, "boolean") then p.(schemaType := "boolean")
      else if StartsWith(r, "date") then p.(schemaType := "string", format := Some("date"))
      else if StartsWith(r, "email") then p.(schemaType := "string", format := Some("email"))
      else if StartsWith(r, "nullable") then p.(nullable := true)
      else p
  }

  /** The property after the first rules, in order. */
  function RulesSchema(rules: seq<Value>): PropertySchema
    decreases |rules|
  {
    if rules == [] then StringSchema else RuleStep(RulesSchema(rules[..|rules| - 1]), rules[|rules| - 1])
  }

  /** Name-based inference, applied only when the rules left the type a string. */
  function InferIfString(field: string, p: PropertySchema): (r: PropertySchema)
    ensures p.schemaType != "string" ==> r == p
    ensures p.schemaType == "string" ==> r.schemaType == InferPropertyType(field).schemaType
    ensures p.schemaType == "string" && p.nullable ==> r.nullable
  {
    if p.schemaType == "string" then Merge(p, InferPropertyType(field)) else p
  }

  /** `parseValidationRules($field, $ruleSet)` */
  method ParseValidationRules(field: string, ruleSet: RuleSet) returns (property: PropertySchema)
    ensures property == InferIfString(field, RulesSchema(RuleList(ruleSet)))
  {
    property := StringSchema;
    var rules := RuleList(ruleSet);
    for i := 0 to |rules|
      invariant property == RulesSchema(rules[..i])
    {
      assert rules[..i + 1][..i] == rules[..i];
      var rule := rules[i];
      if rule.Str? {
        if StartsWith(rule.s, "integer") {
          property := property.(schemaType := "integer");
        } else if StartsWith(rule.s, "numeric") {
          property := property.(schemaType := "number");
        } else if StartsWith(rule.s, "boolean") {
          property := property.(schemaType := "boolean");
        } else if StartsWith(rule.s, "date") {
          property := property.(schemaType := "string", format := Some("date"));
        } else if StartsWith(rule.s, "email") {
          property := property.(schemaType := "string", format := Some("email"));
        } else if StartsWith(rule.s, "nullable") {
          property := property.(nullable := true);
        }
      }
    }
    assert rules[..|rules|] == rules;
    if property.schemaType == "string" {
      property := Merge(property, InferPropertyType(field));
    }
  }

  /** The last rule that sets a type decides the type; with no such rule it
      stays a string. */
  lemma {:induction false} LastTypeRuleWins(rules: seq<Value>, k: nat)
    requires k < |rules| && RuleType(rules[k]).Some?
    requires forall j :: k < j < |rules| ==> RuleType(rules[j]).None?
    ensures RulesSchema(rules).schemaType == RuleType(rules[k]).value
    decreases |rules|
  {
    if k < |rules| - 1 {
      var init := rules[..|rules| - 1];
      assert init[k] == rules[k];
      assert forall j :: k < j < |init| ==> init[j] == rules[j];
      LastTypeRuleWins(init, k);
    }
  }

  lemma {:induction false} NoTypeRuleKeepsString(rules: seq<Value>)
    requires forall j :: 0 <= j < |rules| ==> RuleType(rules[j]).None?
    ensures RulesSchema(rules).schemaType == "string"
    decreases |rules|
  {
    if rules != [] {
      var init := rules[..|rules| - 1];
      assert forall j :: 0 <= j < |init| ==> init[j] == rules[j];
      NoTypeRuleKeepsString(init);
    }
  }

  /** A `nullable` rule adds `nullable: true` and changes nothing else. */
  lemma NullableOnlyAddsNullable(p: PropertySchema, rest: string)
    ensures RuleStep(p, Str("nullable" + rest)) == p.(nullable := true)
  {
    var r := "nullable" + rest;
    assert r[..1] == "n";
    assert r[..7][0] == 'n' && r[..7][2] == 'l' && r[..4][0] == 'n' && r[..5][0] == 'n';
    assert !StartsWith(r, "integer") && !StartsWith(r, "numeric") && !StartsWith(r, "boolean");
    assert !StartsWith(r, "date") && !StartsWith(r, "email");
    assert r[..8] == "nullable";
  }

  /** Whether a rule set lists the exact string `required` (`in_array` with
      strict comparison). */
  predicate HasRequiredRule(ruleSet: RuleSet) {
    Str("required") in RuleList(ruleSet)
  }

  /** The fields of a prefix of the rule table that are required, in order. */
  function RequiredFields(rules: seq<(string, RuleSet)>): seq<string>
    decreases |rules|
  {
    if rules == [] then []
    else
      var (field, ruleSet) := rules[|rules| - 1];
      RequiredFields(rules[..|rules| - 1]) + (if HasRequiredRule(ruleSet) then [field] else [])
  }

  /** The rule scan of `extractRequiredFields`, given the request's rule table. */
  method ExtractRequiredFields(rules: seq<(string, RuleSet)>) returns (required: seq<string>)
    ensures required == RequiredFields(rules)
  {
    required := [];
    for i := 0 to |rules|
      invariant required == RequiredFields(rules[..i])
    {
      assert rules[..i + 1][..i] == rules[..i];
      var (field, ruleSet) := rules[i];
      var list := RuleList(ruleSet);
      if Str("required") in list {
        required := required + [field];
      }
    }
    assert rules[..|rules|] == rules;
  }

  /** A field is listed as required exactly when one of its rule sets holds
      the plain `required` rule. */
  lemma {:induction false} RequiredFieldsExactly(rules: seq<(string, RuleSet)>, field: string)
    ensures field in RequiredFields(rules) <==>
      exists i :: 0 <= i < |rules| && rules[i].0 == field && HasRequiredRule(rules[i].1)
    decreases |rules|
  {
    if rules != [] {
      var n := |rules| - 1;
      var init := rules[..n];
      RequiredFieldsExactly(init, field);
      var last := if HasRequiredRule(rules[n].1) then [rules[n].0] else [];
      assert RequiredFields(rules) == RequiredFields(init) + last;
      if field in RequiredFields(init) {
        var i :| 0 <= i < |init| && init[i].0 == field && HasRequiredRule(init[i].1);
        assert rules[i] == init[i];
      } else if field in last {
        assert rules[n].0 == field && HasRequiredRule(rules[n].1);
      } else {
        forall i | 0 <= i < |rules| && rules[i].0 == field
          ensures !HasRequiredRule(rules[i].1)
        {
          if i < n {
            assert init[i] == rules[i];
          }
        }
      }
    }
  }

  /** A conditional rule (`required_if:...`) or a rule object does not make
      a field required; only the exact `required` string does. */
  lemma ConditionalRuleIsNotRequired(field: string, rule: Value)
    requires rule != Str("required")
    ensures RequiredFields([(field, RuleArray([Str("nullable"), Str("integer"), rule]))]) == []
    ensures RequiredFields([(field, RuleArray([Str("nullable"), Str("integer"), rule, Str("required")]))]) == [field]
  {
    assert [(field, RuleArray([Str("nullable"), Str("integer"), rule]))][..0] == [];
    assert [(field, RuleArray([Str("nullable"), Str("integer"), rule, Str("required")]))][..0] == [];
  }

  // ---------------------------------------------------------------------
  // Endpoints and responses

  /** An `ApiEndpoint`: method, path, summary, description, the response
      codes to document and whether it needs a token (by default it does). */
  datatype Endpoint = Endpoint(httpMethod: string, path: string, summary: string, description: string,
                               responses: seq<int>, authenticated: bool)

  /** The controller methods that have a default endpoint. */
  const CrudMethods: seq<string> := ["index", "store", "show", "update", "updatePatch", "destroy"]

  /** `$resource?->name ?? 'Resource'` */
  function ResourceName(resource: Option<string>): string {
    if resource.Some? then resource.value else "Resource"
  }

  /** `autoGenerateEndpoint($method, $resource)` */
  function AutoGenerateEndpoint(methodName: string, resource: Option<string>): (r: Option<Endpoint>)
    ensures r.Some? <==> methodName in CrudMethods
    ensures r.Some? ==>
      && r.value.description == "Auto-generated endpoint for " + methodName
      && r.value.authenticated
      && r.value.path == (if methodName == "index" || methodName == "store" then "/" else "/{id}")
      && 401 in r.value.responses && 403 in r.value.responses
      && (r.value.path == "/{id}" <==> 404 in r.value.responses)
      && (r.value.httpMethod in {"post", "put", "patch"} <==> 422 in r.value.responses)
    ensures methodName == "index" ==> r.Some? && r.value.httpMethod == "get" && r.value.responses == [200, 401, 403]
    ensures methodName == "store" ==> r.Some? && r.value.httpMethod == "post" && r.value.responses == [201, 401, 403, 422]
    ensures methodName == "show" ==> r.Some? && r.value.httpMethod == "get" && r.value.responses == [200, 401, 403, 404]
    ensures methodName == "update" ==> r.Some? && r.value.httpMethod == "put" && r.value.responses == [200, 401, 403, 404, 422]
    ensures methodName == "updatePatch" ==>
      r.Some? && r.value.httpMethod == "patch" && r.value.responses == [200, 401, 403, 404, 422]
    ensures methodName == "destroy" ==> r.Some? && r.value.httpMethod == "delete" && r.value.responses == [204, 401, 403, 404]
  {
    var name := ResourceName(resource);
    var description := "Auto-generated endpoint for " + methodName;
    if methodName == "index" then Some(Endpoint("get", "/", "Get list of " + name, description, [200, 401, 403], true))
    else if methodName == "store" then Some(Endpoint("post", "/", "Create new " + name, description, [201, 401, 403, 422], true))
    else if methodName == "show" then Some(Endpoint("get", "/{id}", "Get " + name + " by ID", description, [200, 401, 403, 404], true))
    else if methodName == "update" then Some(Endpoint("put", "/{id}", "Update " + name, description, [200, 401, 403, 404, 422], true))
    else if methodName == "updatePatch" then
      Some(Endpoint("patch", "/{id}", "Partially update " + name, description, [200, 401, 403, 404, 422], true))
    else if methodName == "destroy" then Some(Endpoint("delete", "/{id}", "Delete " + name, description, [204, 401, 403, 404], true))
    else None
  }

  /** A response body schema: a bare object, or a reference to a named schema. */
  datatype SchemaRef = ObjectSchema | Ref(target: string)

  const SchemaPrefix: string := "#/components/schemas/"

  /** `getResponseSchema($methodName, $resource)` */
  function GetResponseSchema(methodName: string, resource: Option<string>): (r: SchemaRef)
    ensures resource.None? ==> r == ObjectSchema
    ensures resource.Some? && methodName == "index" ==> r == Ref(SchemaPrefix + resource.value + "Collection")
    ensures resource.Some? && methodName in ["show", "store", "update", "updatePatch"] ==>
      r == Ref(SchemaPrefix + resource.value + "Resource")
    ensures methodName !in ["index", "show", "store", "update", "updatePatch"] ==> r == ObjectSchema
  {
    if resource.None? then ObjectSchema
    else if methodName == "index" then Ref(SchemaPrefix + resource.value + "Collection")
    else if methodName in ["show", "store", "update", "updatePatch"] then Ref(SchemaPrefix + resource.value + "Resource")
    else ObjectSchema
  }

  /** A documented response: its description and, if any, its JSON body schema. */
  datatype StandardResponse = StandardResponse(description: string, content: Option<SchemaRef>)

  const StandardCodes: seq<int> := [200, 201, 204, 401, 403, 404, 422]

  /** `getStandardResponse($code, $methodName, $resource)` */
  function GetStandardResponse(code: int, methodName: string, resource: Option<string>): (r: StandardResponse)
    ensures code !in StandardCodes <==> r == StandardResponse("Response", None)
    ensures r.content.Some? <==> code in [200, 201, 422]
    ensures code == 200 ==> r.content == Some(GetResponseSchema(methodName, resource))
    ensures code == 201 ==> r.content == Some(Ref(SchemaPrefix + ResourceName(resource) + "Resource"))
    ensures code == 422 ==> r.content == Some(Ref(SchemaPrefix + "ValidationError"))
  {
    var name := ResourceName(resource);
    if code == 200 then StandardResponse("Successful operation", Some(GetResponseSchema(methodName, resource)))
    else if code == 201 then StandardResponse(name + " successfully created", Some(Ref(SchemaPrefix + name + "Resource")))
    else if code == 204 then StandardResponse(name + " successfully deleted", None)
    else if code == 401 then StandardResponse("Unauthenticated", None)
    else if code == 403 then StandardResponse("Forbidden", None)
    else if code == 404 then StandardResponse(name + " not found", None)
    else if code == 422 then StandardResponse("Unprocessable Entity", Some(Ref(SchemaPrefix + "ValidationError")))
    else StandardResponse("Response", None)
  }

  /** Every response code of a default endpoint has its own standard
      description, never the generic fallback. */
  lemma DefaultEndpointsUseStandardResponses(methodName: string, resource: Option<string>, code: int)
    requires AutoGenerateEndpoint(methodName, resource).Some?
    requires code in AutoGenerateEndpoint(methodName, resource).value.responses
    ensures GetStandardResponse(code, methodName, resource) != StandardResponse("Response", None)
  {
  }

  /** With a resource, the 200 response of every default read or write
      endpoint refers to one of the resource's two generated schemas. */
  lemma SuccessSchemaNamesResource(methodName: string, name: string)
    requires AutoGenerateEndpoint(methodName, Some(name)).Some?
    requires 200 in AutoGenerateEndpoint(methodName, Some(name)).value.responses
    ensures GetStandardResponse(200, methodName, Some(name)).content
         in {Some(Ref(SchemaPrefix + name + "Collection")), Some(Ref(SchemaPrefix + name + "Resource"))}
  {
  }

  // ---------------------------------------------------------------------
  // Parameters

  /** An `ApiParameter` attribute. */
  datatype ApiParameter = ApiParameter(name: string, location: string, paramType: string, required: bool,
                                       description: string, example: Value)

  /** A documented parameter; the automatic `id` parameter has no example. */
  datatype Parameter = Parameter(name: string, location: string, required: bool, description: string,
                                 schemaType: string, example: Option<Value>)

  /** The automatic path parameter for routes with `{id}`. */
  const IdParameter := Parameter("id", "path", true, "Resource ID", "integer", None)

  /** `hasParameter($parameters, $name)` */
  method HasParameter(parameters: seq<Parameter>, name: string) returns (found: bool)
    ensures found <==> exists i :: 0 <= i < |parameters| && parameters[i].name == name
  {
    for i := 0 to |parameters|
      invariant forall j :: 0 <= j < i ==> parameters[j].name != name
    {
      if parameters[i].name == name {
        return true;
      }
    }
    return false;
  }

  function Documented(a: ApiParameter): Parameter {
    Parameter(a.name, a.location, a.required, a.description, a.paramType, Some(a.example))
  }

  /** The parameters documented from a prefix of the attributes; body
      parameters belong to the request body and are skipped. */
  function AttributeParameters(attrs: seq<ApiParameter>): seq<Parameter>
    decreases |attrs|
  {
    if attrs == [] then []
    else
      var a := attrs[|attrs| - 1];
      AttributeParameters(attrs[..|attrs| - 1]) + (if a.location == "body" then [] else [Documented(a)])
  }

  predicate NamedIn(parameters: seq<Parameter>, name: string) {
    exists i :: 0 <= i < |parameters| && parameters[i].name == name
  }

  /** `buildParameters($method, $endpoint)`, given the method's parameter
      attributes and the endpoint path. */
  method BuildParameters(attrs: seq<ApiParameter>, endpointPath: string) returns (parameters: seq<Parameter>)
    ensures var declared := AttributeParameters(attrs);
      parameters == declared + (if Contains(endpointPath, "{id}") && !NamedIn(declared, "id") then [IdParameter] else [])
  {
    parameters := [];
    for i := 0 to |attrs|
      invariant parameters == AttributeParameters(attrs[..i])
    {
      assert attrs[..i + 1][..i] == attrs[..i];
      var param := attrs[i];
      if param.location == "body" {
        continue;
      }
      parameters := parameters + [Documented(param)];
    }
    assert attrs[..|attrs|] == attrs;
    if Contains(endpointPath, "{id}") {
      var hasId := HasParameter(parameters, "id");
      if !hasId {
        parameters := parameters + [IdParameter];
      }
    }
  }

  /** No documented parameter is a body parameter, and each comes from an
      attribute (or is the automatic `id`). */
  lemma {:induction false} AttributeParametersSource(attrs: seq<ApiParameter>, p: Parameter)
    requires p in AttributeParameters(attrs)
    ensures p.location != "body"
    ensures exists i :: 0 <= i < |attrs| && attrs[i].location != "body" && p == Documented(attrs[i])
    decreases |attrs|
  {
    var n := |attrs| - 1;
    if attrs[n].location != "body" && p == Documented(attrs[n]) {
    } else {
      AttributeParametersSource(attrs[..n], p);
      var i :| 0 <= i < n && attrs[..n][i].location != "body" && p == Documented(attrs[..n][i]);
      assert attrs[..n][i] == attrs[i];
    }
  }

  /** After `buildParameters`, a path with `{id}` always documents an `id`
      parameter: the one an attribute declared, or the one added for it. */
  lemma IdPathHasIdParameter(attrs: seq<ApiParameter>, endpointPath: string)
    requires Contains(endpointPath, "{id}")
    ensures var declared := AttributeParameters(attrs);
      NamedIn(declared + (if !NamedIn(declared, "id") then [IdParameter] else []), "id")
  {
    var declared := AttributeParameters(attrs);
    if !NamedIn(declared, "id") {
      var all := declared + [IdParameter];
      assert all[|declared|].name == "id";
    } else {
      var i :| 0 <= i < |declared| && declared[i].name == "id";
      assert (declared + [])[i] == declared[i];
    }
  }

  // ---------------------------------------------------------------------
  // Paths

  /** `lcfirst($s)` */
  function LcFirst(s: string): (r: string)
    ensures |r| == |s|
    ensures s != [] ==> r[0] == LowerChar(s[0]) && r[1..] == s[1..]
  {
    if s == [] then [] else [LowerChar(s[0])] + s[1..]
  }

  /** The URI normalisation of `getActualRoutePath`: a leading `/`, then `/api`. */
  function NormalizeRouteUri(uri: string): (r: string)
    ensures StartsWith(r, "/api/")
    ensures StartsWith(uri, "/api/") ==> r == uri
  {
    var withSlash := if StartsWith(uri, "/") then uri else "/" + uri;
    if StartsWith(withSlash, "/api/") then withSlash else "/api" + withSlash
  }

  /** Normalising a normalised URI changes nothing. */
  lemma NormalizeRouteUriIdempotent(uri: string)
    ensures NormalizeRouteUri(NormalizeRouteUri(uri)) == NormalizeRouteUri(uri)
  {
  }

  /** Normalisation only adds a prefix: the route's own URI is kept at the end. */
  lemma NormalizeRouteUriKeepsUri(uri: string)
    ensures exists prefix :: prefix in ["", "/", "/api", "/api/"] && NormalizeRouteUri(uri) == prefix + uri
  {
    var withSlash := if StartsWith(uri, "/") then uri else "/" + uri;
    if StartsWith(uri, "/") {
      assert withSlash == "" + uri;
      if StartsWith(withSlash, "/api/") {
        assert NormalizeRouteUri(uri) == "" + uri;
      } else {
        assert NormalizeRouteUri(uri) == "/api" + uri;
      }
    } else {
      if StartsWith(withSlash, "/api/") {
        assert NormalizeRouteUri(uri) == "/" + uri;
      } else {
        assert NormalizeRouteUri(uri) == "/api/" + uri;
      }
    }
  }

  /** `buildPath($endpoint, $resource, ...)`, given the URI of the route
      registered for the controller method, if there is one. */
  function BuildPath(endpointPath: string, resource: Option<string>, routeUri: Option<string>): (r: string)
    ensures routeUri.Some? ==> r == NormalizeRouteUri(routeUri.value)
    ensures routeUri.None? ==> StartsWith(r, "/v1") && |endpointPath| <= |r| && r[|r| - |endpointPath|..] == endpointPath
  {
    if routeUri.Some? then NormalizeRouteUri(routeUri.value)
    else "/v1" + (if resource.Some? then "/" + LcFirst(resource.value) + "s" else "") + endpointPath
  }

  /** A registered route is documented under `/api/`, the fallback path
      under `/v1` only: the two never share a prefix. */
  lemma RoutedAndFallbackPathsDiffer(endpointPath: string, resource: Option<string>, uri: string)
    ensures StartsWith(BuildPath(endpointPath, resource, Some(uri)), "/api/")
    ensures !StartsWith(BuildPath(endpointPath, resource, None), "/api/")
  {
    var fallback := BuildPath(endpointPath, resource, None);
    assert fallback[1] == 'v';
  }

  /** With a resource the fallback path is `/v1/` + the lower-first name + `s`. */
  lemma FallbackPathOfResource(endpointPath: string, name: string)
    requires name != []
    ensures BuildPath(endpointPath, Some(name), None)
         == "/v1/" + [LowerChar(name[0])] + name[1..] + "s" + endpointPath
  {
  }

  // ---------------------------------------------------------------------
  // Tags

  /** A tag in the generated document. */
  datatype Tag = Tag(name: string, description: string)

  /** An `ApiResource` attribute: its name and description. */
  datatype ApiResource = ApiResource(name: string, description: string)

  predicate UniqueTagNames(tags: seq<Tag>) {
    forall i, j :: 0 <= i < j < |tags| ==> tags[i].name != tags[j].name
  }

  /** The generator's tag list, which grows as controllers are processed. */
  class SwaggerGenerator {
    var tags: seq<Tag>

    constructor()
      ensures tags == []
    {
      tags := [];
    }

    /** `hasTag($tagName)` */
    method HasTag(tagName: string) returns (found: bool)
      ensures found <==> exists i :: 0 <= i < |tags| && tags[i].name == tagName
    {
      for i := 0 to |tags|
        invariant forall j :: 0 <= j < i ==> tags[j].name != tagName
      {
        if tags[i].name == tagName {
          return true;
        }
      }
      return false;
    }

    /** The tag step of `processResource($class, $resource)`: a resource's tag
        is appended unless a tag of that name exists. Tag names stay unique. */
    method ProcessResource(resource: ApiResource)
      modifies this
      ensures (exists i :: 0 <= i < |old(tags)| && old(tags)[i].name == resource.name) ==> tags == old(tags)
      ensures (forall i :: 0 <= i < |old(tags)| ==> old(tags)[i].name != resource.name) ==>
        tags == old(tags) + [Tag(resource.name, resource.description)]
      ensures UniqueTagNames(old(tags)) ==> UniqueTagNames(tags)
      ensures exists i :: 0 <= i < |tags| && tags[i].name == resource.name
    {
      var exists_ := HasTag(resource.name);
      if !exists_ {
        tags := tags + [Tag(resource.name, resource.description)];
        assert tags[|tags| - 1].name == resource.name;
      }
    }
  }

  /** Processing the same resources again adds no tag. */
  method ProcessTwice(resources: seq<ApiResource>) returns (once: seq<Tag>, twice: seq<Tag>)
    ensures once == twice
    ensures UniqueTagNames(once)
  {
    var generator := new SwaggerGenerator();
    for i := 0 to |resources|
      invariant UniqueTagNames(generator.tags)
      invariant forall j :: 0 <= j < i ==> exists k :: 0 <= k < |generator.tags| && generator.tags[k].name == resources[j].name
    {
      ghost var before := generator.tags;
      generator.ProcessResource(resources[i]);
      assert forall k :: 0 <= k < |before| ==> generator.tags[k] == before[k];
    }
    once := generator.tags;
    for i := 0 to |resources|
      invariant generator.tags == once
    {
      generator.ProcessResource(resources[i]);
    }
    twice := generator.tags;
  }
}

=== FILE: timestamp.dfy ===
/** Date-times as the call-event pipeline handles them: the request's
    `date_format:Y-m-d H:i:s` check, `Carbon::parse` on the forms the pipeline
    meets, and Carbon's ISO 8601 rendering in the application timezone (UTC). */
module Timestamps {
  import opened Wrappers
  import opened Php

  datatype DateTime = DateTime(year: nat, month: nat, day: nat, hour: nat, minute: nat, second: nat)

  predicate IsLeapYear(y: nat) {
    (y % 4 == 0 && y % 100 != 0) || y % 400 == 0
  }

  /** The days of each month, January first, in a leap or a common year. */
  function MonthLengths(leap: bool): (ls: seq<nat>)
    ensures |ls| == 12
  {
    [31, if leap then 29 else 28, 31, 30, 31, 30, 31, 31, 30, 31, 30, 31]
  }

  function MonthLength(leap: bool, m: nat): nat
    requires 1 <= m <= 12
  {
    MonthLengths(leap)[m - 1]
  }

  function DaysInMonth(y: nat, m: nat): nat
    requires 1 <= m <= 12
  {
    MonthLength(IsLeapYear(y), m)
  }

  /** A calendar date-time that a four-digit `Y` can write. */
  predicate Valid(d: DateTime) {
    && d.year < 10000
    && 1 <= d.month <= 12
    && 1 <= d.day <= DaysInMonth(d.year, d.month)
    && d.hour < 24 && d.minute < 60 && d.second < 60
  }

  /** A date-time a Carbon instance can hold. */
  type Instant = d: DateTime | Valid(d) witness DateTime(1970, 1, 1, 0, 0, 0)

  // ---------------------------------------------------------------------
  // Unix time

  const SecondsPerDay: int := 86400

  /** The days from the first of month `m` to the end of a year whose month
      lengths are `ls`. */
  function DaysFromMonth(ls: seq<nat>, m: nat): (n: nat)
    requires |ls| == 12 && 1 <= m <= 12
    ensures n >= ls[m - 1]
    decreases 12 - m
  {
    if m == 12 then ls[11] else ls[m - 1] + DaysFromMonth(ls, m + 1)
  }

  function YearLength(leap: bool): nat {
    if leap then 366 else 365
  }

  function DaysInYear(y: nat): nat {
    YearLength(IsLeapYear(y))
  }

  /** A year's days are its months' days. */
  lemma DaysInYearByMonths(leap: bool)
    ensures YearLength(leap) == DaysFromMonth(MonthLengths(leap), 1)
  {
    var ls := MonthLengths(leap);
    assert DaysFromMonth(ls, 12) == 31;
    assert DaysFromMonth(ls, 11) == 61;
    assert DaysFromMonth(ls, 10) == 92;
    assert DaysFromMonth(ls, 9) == 122;
    assert DaysFromMonth(ls, 8) == 153;
    assert DaysFromMonth(ls, 7) == 184;
    assert DaysFromMonth(ls, 6) == 214;
    assert DaysFromMonth(ls, 5) == 245;
    assert DaysFromMonth(ls, 4) == 275;
    assert DaysFromMonth(ls, 3) == 306;
  }

  /** The month and day of month of the day `d` days (from 0) after the first
      of month `m` in a year whose month lengths are `ls`. */
  function MonthAndDay(ls: seq<nat>, m: nat, d: nat): (md: (nat, nat))
    requires |ls| == 12 && 1 <= m <= 12 && d < DaysFromMonth(ls, m)
    ensures m <= md.0 <= 12 && 1 <= md.1 <= ls[md.0 - 1]
    decreases 12 - m
  {
    if d < ls[m - 1] then (m, d + 1) else MonthAndDay(ls, m + 1, d - ls[m - 1])
  }

  /** The year holding the day `d` days after 1 January of year `y`, and the
      day's index within it; none past year 9999. */
  function YearForward(y: nat, d: nat): (yd: Option<(nat, nat)>)
    requires y < 10000
    ensures yd.Some? ==> yd.value.0 < 10000 && yd.value.1 < DaysInYear(yd.value.0)
    decreases 10000 - y
  {
    if d < DaysInYear(y) then Some((y, d))
    else if y + 1 == 10000 then None
    else YearForward(y + 1, d - DaysInYear(y))
  }

  /** The year holding the day `-d` days before 1 January of year `y`, and the
      day's index within it; none before year 0. */
  function YearBackward(y: nat, d: int): (yd: Option<(nat, nat)>)
    requires y < 10000 && d < 0
    ensures yd.Some? ==> yd.value.0 < 10000 && yd.value.1 < DaysInYear(yd.value.0)
    decreases y
  {
    if y == 0 then None
    else
      var e := d + DaysInYear(y - 1);
      if e >= 0 then Some((y - 1, e)) else YearBackward(y - 1, e)
  }

  /** The days from 1970-01-01 to 1 January of year `y` (negative before
      1970). */
  function YearStart(y: nat): int
    decreases if y < 1970 then 1970 - y else y - 1970
  {
    if y == 1970 then 0
    else if y > 1970 then YearStart(y - 1) + DaysInYear(y - 1)
    else YearStart(y + 1) - DaysInYear(y)
  }

  lemma YearStartStep(y: nat)
    ensures YearStart(y + 1) == YearStart(y) + DaysInYear(y)
  {
  }

  /** The leap years in 0 .. y - 1. */
  function LeapYearsBefore(y: nat): int {
    (y + 3) / 4 - (y + 99) / 100 + (y + 399) / 400
  }

  /** Moving `y` up by one moves the rounded-up quotient `(y + k - 1) / k`
      exactly when `y` is a multiple of `k`. */
  lemma CeilingStep(y: nat, k: nat)
    requires k > 0
    ensures (y + k) / k == y / k + 1
    ensures (y + k - 1) / k == (if y % k == 0 then y / k else y / k + 1)
  {
    var q, r := y / k, y % k;
    assert (q + 1) * k == q * k + k;
    DivModUnique(y + k, k, q + 1, r);
    if r == 0 {
      DivModUnique(y + k - 1, k, q, k - 1);
    } else {
      DivModUnique(y + k - 1, k, q + 1, r - 1);
    }
  }

  lemma LeapStep(y: nat)
    ensures LeapYearsBefore(y + 1) == LeapYearsBefore(y) + (if IsLeapYear(y) then 1 else 0)
  {
    CeilingStep(y, 4);
    CeilingStep(y, 100);
    CeilingStep(y, 400);
    assert LeapYearsBefore(y + 1) == (y + 4) / 4 - (y + 100) / 100 + (y + 400) / 400;
    if y % 100 == 0 {
      DivModUnique(y, 4, 25 * (y / 100), 0);
    }
    if y % 400 == 0 {
      DivModUnique(y, 100, 4 * (y / 400), 0);
    }
  }

  /** The start of a year in closed form: 365 days a year since 1970, plus one
      for each leap year in between. */
  lemma {:induction false} YearStartClosedForm(y: nat)
    ensures YearStart(y) == 365 * (y - 1970) + LeapYearsBefore(y) - LeapYearsBefore(1970)
    decreases if y < 1970 then 1970 - y else y - 1970
  {
    if y > 1970 {
      YearStartClosedForm(y - 1);
      LeapStep(y - 1);
    } else if y < 1970 {
      YearStartClosedForm(y + 1);
      LeapStep(y);
    }
  }

  /** Walking forward from year `y` lands on day `e` of year `target`. */
  lemma {:induction false} YearForwardLands(y: nat, target: nat, e: nat)
    requires y <= target < 10000 && e < DaysInYear(target)
    ensures YearStart(target) - YearStart(y) + e >= 0
    ensures YearForward(y, YearStart(target) - YearStart(y) + e) == Some((target, e))
    decreases target - y
  {
    if y < target {
      YearStartStep(y);
      YearForwardLands(y + 1, target, e);
      var d := YearStart(target) - YearStart(y) + e;
      assert d - DaysInYear(y) == YearStart(target) - YearStart(y + 1) + e;
    }
  }

  /** Walking back from year `y` lands on day `e` of the earlier year `target`. */
  lemma {:induction false} YearBackwardLands(y: nat, target: nat, e: nat)
    requires target < y < 10000 && e < DaysInYear(target)
    ensures YearStart(target) - YearStart(y) + e < 0
    ensures YearBackward(y, YearStart(target) - YearStart(y) + e) == Some((target, e))
    decreases y - target
  {
    YearStartStep(y - 1);
    var d := YearStart(target) - YearStart(y) + e;
    assert d + DaysInYear(y - 1) == YearStart(target) - YearStart(y - 1) + e;
    if target < y - 1 {
      YearBackwardLands(y - 1, target, e);
    }
  }

  /** The index within its year of the first day of month `m`. */
  function DaysBeforeMonth(ls: seq<nat>, m: nat): int
    requires |ls| == 12 && 1 <= m <= 12
  {
    DaysFromMonth(ls, 1) - DaysFromMonth(ls, m)
  }

  /** Walking the months from `m0` lands on day `day` of month `m`. */
  lemma {:induction false} MonthLands(ls: seq<nat>, m0: nat, m: nat, day: nat)
    requires |ls| == 12 && 1 <= m0 <= m <= 12 && 1 <= day <= ls[m - 1]
    ensures DaysFromMonth(ls, m0) - DaysFromMonth(ls, m) + day - 1 >= 0
    ensures MonthAndDay(ls, m0, DaysFromMonth(ls, m0) - DaysFromMonth(ls, m) + day - 1) == (m, day)
    decreases m - m0
  {
    if m0 < m {
      MonthLands(ls, m0 + 1, m, day);
    }
  }

  /** The days from 1970-01-01 to the date of `d` (negative before it). */
  function DayNumber(d: DateTime): int
    requires Valid(d)
  {
    YearStart(d.year) + DaysBeforeMonth(MonthLengths(IsLeapYear(d.year)), d.month) + d.day - 1
  }

  /** Carbon's `getTimestamp()` in UTC: the seconds from 1970-01-01 00:00:00. */
  function ToUnixTime(d: DateTime): int
    requires Valid(d)
  {
    DayNumber(d) * SecondsPerDay + d.hour * 3600 + d.minute * 60 + d.second
  }

  lemma DivModUnique(a: int, b: int, q: int, r: int)
    requires 0 < b && 0 <= r < b && a == q * b + r
    ensures a / b == q && a % b == r
  {
    var k := a / b - q;
    assert k * b == r - a % b;
  }

  /** The hour, minute and second of the `secs`-th second of a day. */
  function TimeOfDay(secs: int): (hms: (nat, nat, nat))
    requires 0 <= secs < SecondsPerDay
    ensures hms.0 < 24 && hms.1 < 60 && hms.2 < 60
    ensures hms.0 * 3600 + hms.1 * 60 + hms.2 == secs
  {
    var h := secs / 3600;
    var rest := secs % 3600;
    assert secs == h * 3600 + rest;
    (h, rest / 60, rest % 60)
  }

  /** The year holding the day `days` days after 1970-01-01 (before it when
      negative), and the day's index within that year. */
  function YearOfDay(days: int): (yd: Option<(nat, nat)>)
    ensures yd.Some? ==> yd.value.0 < 10000 && yd.value.1 < DaysInYear(yd.value.0)
  {
    if days >= 0 then YearForward(1970, days) else YearBackward(1970, days)
  }

  /** The year, month and day of the day `days` days after 1970-01-01 (before
      it when negative); none outside the four-digit years. */
  function CalendarDay(days: int): (r: Option<(nat, nat, nat)>)
    ensures r.Some? ==> Valid(DateTime(r.value.0, r.value.1, r.value.2, 0, 0, 0))
  {
    var yd := YearOfDay(days);
    if yd.None? then None
    else
      var leap := IsLeapYear(yd.value.0);
      DaysInYearByMonths(leap);
      var md := MonthAndDay(MonthLengths(leap), 1, yd.value.1);
      Some((yd.value.0, md.0, md.1))
  }

  /** `Carbon::createFromTimestampUTC($t)`: the UTC date-time `t` seconds after
      1970-01-01 00:00:00 (before it when negative), in the proleptic
      Gregorian calendar; none when its year is not a four-digit one. */
  function FromUnixTime(t: int): (r: Option<DateTime>)
    ensures r.Some? ==> Valid(r.value)
    ensures r.Some? ==> r.value.hour * 3600 + r.value.minute * 60 + r.value.second == t % SecondsPerDay
  {
    match CalendarDay(t / SecondsPerDay)
    case None => None
    case Some(ymd) =>
      var hms := TimeOfDay(t % SecondsPerDay);
      Some(DateTime(ymd.0, ymd.1, ymd.2, hms.0, hms.1, hms.2))
  }

  /** The day index of a valid date within its year reads back as that date. */
  lemma DayIndexLands(d: DateTime)
    requires Valid(d)
    ensures 0 <= DaysBeforeMonth(MonthLengths(IsLeapYear(d.year)), d.month) + d.day - 1 < DaysInYear(d.year)
    ensures MonthAndDay(MonthLengths(IsLeapYear(d.year)), 1, DaysBeforeMonth(MonthLengths(IsLeapYear(d.year)), d.month) + d.day - 1) == (d.month, d.day)
  {
    var ls := MonthLengths(IsLeapYear(d.year));
    assert d.day <= ls[d.month - 1];
    MonthLands(ls, 1, d.month, d.day);
    DaysInYearByMonths(IsLeapYear(d.year));
  }

  /** Counting `e` days into year `year` from 1970 lands on that day. */
  lemma YearLands(year: nat, e: nat, days: int)
    requires year < 10000 && e < DaysInYear(year)
    requires days == YearStart(year) + e
    ensures YearOfDay(days) == Some((year, e))
  {
    if year >= 1970 {
      YearForwardLands(1970, year, e);
    } else {
      YearBackwardLands(1970, year, e);
    }
  }

  lemma TimeOfDayLands(h: nat, m: nat, s: nat)
    requires h < 24 && m < 60 && s < 60
    ensures 0 <= h * 3600 + m * 60 + s < SecondsPerDay
    ensures TimeOfDay(h * 3600 + m * 60 + s) == (h, m, s)
  {
    DivModUnique(h * 3600 + m * 60 + s, 3600, h, m * 60 + s);
    DivModUnique(m * 60 + s, 60, m, s);
  }

  /** The calendar reading of a day whose year and day index are known. */
  lemma CalendarDayFrom(days: int, y: nat, e: nat, m: nat, day: nat)
    requires YearOfDay(days) == Some((y, e)) && e < DaysFromMonth(MonthLengths(IsLeapYear(y)), 1)
    requires MonthAndDay(MonthLengths(IsLeapYear(y)), 1, e) == (m, day)
    ensures CalendarDay(days) == Some((y, m, day))
  {
  }

  /** Every valid date is the calendar reading of its own day number. */
  lemma CalendarDayLands(d: DateTime)
    requires Valid(d)
    ensures CalendarDay(DayNumber(d)) == Some((d.year, d.month, d.day))
  {
    DayIndexLands(d);
    var ls := MonthLengths(IsLeapYear(d.year));
    var e := DaysBeforeMonth(ls, d.month) + d.day - 1;
    assert DayNumber(d) == YearStart(d.year) + e;
    YearLands(d.year, e, DayNumber(d));
    DaysInYearByMonths(IsLeapYear(d.year));
    CalendarDayFrom(DayNumber(d), d.year, e, d.month, d.day);
  }

  /** Every date-time with a four-digit year is the reading of its own Unix
      time. */
  lemma UnixTimeRoundTrip(d: DateTime)
    requires Valid(d)
    ensures FromUnixTime(ToUnixTime(d)) == Some(d)
  {
    var t, days, secs := ToUnixTime(d), DayNumber(d), d.hour * 3600 + d.minute * 60 + d.second;
    CalendarDayLands(d);
    TimeOfDayLands(d.hour, d.minute, d.second);
    DivModUnique(t, SecondsPerDay, days, secs);
    assert CalendarDay(t / SecondsPerDay) == Some((d.year, d.month, d.day));
    assert TimeOfDay(t % SecondsPerDay) == (d.hour, d.minute, d.second);
  }

  /** Walking forward from year `y` moves exactly the days it was given. */
  lemma {:induction false} YearForwardCounts(y: nat, d: nat)
    requires y < 10000
    ensures YearForward(y, d).Some? ==>
      YearStart(YearForward(y, d).value.0) - YearStart(y) + YearForward(y, d).value.1 == d
    decreases 10000 - y
  {
    if d >= DaysInYear(y) && y + 1 < 10000 {
      YearForwardCounts(y + 1, d - DaysInYear(y));
      YearStartStep(y);
    }
  }

  /** Walking back from year `y` moves exactly the days it was given. */
  lemma {:induction false} YearBackwardCounts(y: nat, d: int)
    requires y < 10000 && d < 0
    ensures YearBackward(y, d).Some? ==>
      YearStart(YearBackward(y, d).value.0) - YearStart(y) + YearBackward(y, d).value.1 == d
    decreases y
  {
    if y > 0 {
      YearStartStep(y - 1);
      var e := d + DaysInYear(y - 1);
      if e < 0 {
        YearBackwardCounts(y - 1, e);
      }
    }
  }

  /** Walking the months from `m` moves exactly the days it was given. */
  lemma {:induction false} MonthAndDayCounts(ls: seq<nat>, m: nat, d: nat)
    requires |ls| == 12 && 1 <= m <= 12 && d < DaysFromMonth(ls, m)
    ensures DaysFromMonth(ls, m) - DaysFromMonth(ls, MonthAndDay(ls, m, d).0) + MonthAndDay(ls, m, d).1 - 1 == d
    decreases 12 - m
  {
    if d >= ls[m - 1] {
      MonthAndDayCounts(ls, m + 1, d - ls[m - 1]);
    }
  }

  /** The calendar reading of a day number has that day number. */
  lemma CalendarDayCounts(days: int)
    ensures CalendarDay(days).Some? ==>
      DayNumber(DateTime(CalendarDay(days).value.0, CalendarDay(days).value.1, CalendarDay(days).value.2, 0, 0, 0)) == days
  {
    var yd := YearOfDay(days);
    if days >= 0 {
      YearForwardCounts(1970, days);
    } else {
      YearBackwardCounts(1970, days);
    }
    if yd.Some? {
      var ls := MonthLengths(IsLeapYear(yd.value.0));
      DaysInYearByMonths(IsLeapYear(yd.value.0));
      MonthAndDayCounts(ls, 1, yd.value.1);
    }
  }

  /** Every Unix time that reads as a four-digit-year date-time is that
      date-time's own Unix time. */
  lemma UnixTimeOfReading(t: int)
    ensures FromUnixTime(t).Some? ==> ToUnixTime(FromUnixTime(t).value) == t
  {
    var days, secs := t / SecondsPerDay, t % SecondsPerDay;
    CalendarDayCounts(days);
    if CalendarDay(days).Some? {
      var ymd := CalendarDay(days).value;
      var hms := TimeOfDay(secs);
      assert FromUnixTime(t) == Some(DateTime(ymd.0, ymd.1, ymd.2, hms.0, hms.1, hms.2));
      assert t == days * SecondsPerDay + secs;
    }
  }

  /** 1764844200 seconds after the epoch is 2025-12-04 10:30:00 UTC. */
  lemma UnixTimeIn2025()
    ensures FromUnixTime(1764844200) == Some(DateTime(2025, 12, 4, 10, 30, 0))
  {
    var d := DateTime(2025, 12, 4, 10, 30, 0);
    assert !IsLeapYear(2025);
    DaysInYearByMonths(false);
    assert DaysBeforeMonth(MonthLengths(false), 12) == 334;
    YearStartClosedForm(2025);
    assert YearStart(2025) == 20089;
    assert DayNumber(d) == 20426;
    assert ToUnixTime(d) == 1764844200;
    UnixTimeRoundTrip(d);
  }

  /** Unix time 0 is the start of 1970 (UTC). */
  lemma UnixEpoch()
    ensures FromUnixTime(0) == Some(DateTime(1970, 1, 1, 0, 0, 0))
  {
  }

  /** The last second before the epoch is the end of 1969. */
  lemma SecondBeforeEpoch()
    ensures FromUnixTime(-1) == Some(DateTime(1969, 12, 31, 23, 59, 59))
  {
    assert -1 / SecondsPerDay == -1 && -1 % SecondsPerDay == 86399;
    assert DaysInYear(1969) == 365;
    assert YearBackward(1970, -1) == Some((1969, 364));
    assert MonthAndDay(MonthLengths(false), 12, 30) == (12, 31);
  }

  // ---------------------------------------------------------------------
  // Fixed-width decimal fields

  lemma DigitCharOfValue(c: char)
    requires IsDigit(c)
    ensures DigitChar(DigitValue(c)) == c
  {
  }

  function Pad2(n: nat): (s: string)
    requires n < 100
    ensures |s| == 2 && AllDigits(s)
  {
    [DigitChar(n / 10), DigitChar(n % 10)]
  }

  function Pad4(n: nat): (s: string)
    requires n < 10000
    ensures |s| == 4 && AllDigits(s)
  {
    Pad2(n / 100) + Pad2(n % 100)
  }

  lemma DecimalValue1(t: string)
    requires |t| == 1 && AllDigits(t)
    ensures DecimalValue(t) == DigitValue(t[0])
  {
    assert t[..0] == [];
  }

  lemma DecimalValue2(t: string)
    requires |t| == 2 && AllDigits(t)
    ensures DecimalValue(t) == DigitValue(t[0]) * 10 + DigitValue(t[1])
  {
    assert AllDigits(t[..1]);
    DecimalValue1(t[..1]);
  }

  lemma DecimalValue4(t: string)
    requires |t| == 4 && AllDigits(t)
    ensures DecimalValue(t) == DigitValue(t[0]) * 1000 + DigitValue(t[1]) * 100 + DigitValue(t[2]) * 10 + DigitValue(t[3])
  {
    assert AllDigits(t[..3]) && AllDigits(t[..2]);
    assert t[..3][..2] == t[..2];
    DecimalValue2(t[..2]);
  }

  /** A two-digit field reads back as the number written into it ... */
  lemma Pad2Value(n: nat)
    requires n < 100
    ensures DecimalValue(Pad2(n)) == n
  {
    DecimalValue2(Pad2(n));
  }

  /** ... and every two-digit field is the rendering of the number it denotes. */
  lemma Pad2OfValue(t: string)
    requires |t| == 2 && AllDigits(t)
    ensures DecimalValue(t) < 100
    ensures Pad2(DecimalValue(t)) == t
  {
    DecimalValue2(t);
    var a, b := DigitValue(t[0]), DigitValue(t[1]);
    DivModUnique(a * 10 + b, 10, a, b);
    DigitCharOfValue(t[0]);
    DigitCharOfValue(t[1]);
  }

  lemma DecimalValueHalves(t: string)
    requires |t| == 4 && AllDigits(t)
    ensures AllDigits(t[..2]) && AllDigits(t[2..])
    ensures DecimalValue(t) == DecimalValue(t[..2]) * 100 + DecimalValue(t[2..])
  {
    DecimalValue4(t);
    DecimalValue2(t[..2]);
    DecimalValue2(t[2..]);
  }

  lemma DivMod100(hi: nat, lo: nat)
    requires lo < 100
    ensures (hi * 100 + lo) / 100 == hi && (hi * 100 + lo) % 100 == lo
  {
  }

  lemma Pad4Value(n: nat)
    requires n < 10000
    ensures DecimalValue(Pad4(n)) == n
  {
    var t := Pad4(n);
    assert t[..2] == Pad2(n / 100) && t[2..] == Pad2(n % 100);
    DecimalValueHalves(t);
    Pad2Value(n / 100);
    Pad2Value(n % 100);
  }

  lemma Pad4OfValue(t: string)
    requires |t| == 4 && AllDigits(t)
    ensures DecimalValue(t) < 10000
    ensures Pad4(DecimalValue(t)) == t
  {
    DecimalValueHalves(t);
    Pad2OfValue(t[..2]);
    Pad2OfValue(t[2..]);
    var hi, lo := DecimalValue(t[..2]), DecimalValue(t[2..]);
    DivMod100(hi, lo);
    assert t == t[..2] + t[2..];
  }

  // ---------------------------------------------------------------------
  // Rendering

  /** `Y-m-d` */
  function DatePart(d: DateTime): (s: string)
    requires Valid(d)
    ensures |s| == 10
  {
    Pad4(d.year) + "-" + Pad2(d.month) + "-" + Pad2(d.day)
  }

  /** `H:i:s` */
  function TimePart(d: DateTime): (s: string)
    requires Valid(d)
    ensures |s| == 8
  {
    Pad2(d.hour) + ":" + Pad2(d.minute) + ":" + Pad2(d.second)
  }

  /** `$d->format('Y-m-d H:i:s')` */
  function FormatYmdHis(d: DateTime): string
    requires Valid(d)
  {
    DatePart(d) + " " + TimePart(d)
  }

  /** The application timezone's offset (UTC). */
  const UtcOffset: string := "+00:00"

  /** Carbon's `toIso8601String()` */
  function Iso8601(d: DateTime): string
    requires Valid(d)
  {
    DatePart(d) + "T" + TimePart(d) + UtcOffset
  }

  // ---------------------------------------------------------------------
  // Parsing

  predicate DigitsAt(s: string, i: nat, n: nat) {
    i + n <= |s| && AllDigits(s[i..i + n])
  }

  /** The 19-character layout `dddd-dd-dd?dd:dd:dd` with `sep` in the middle. */
  predicate HasLayout(s: string, sep: char) {
    && |s| >= 19
    && DigitsAt(s, 0, 4) && s[4] == '-' && DigitsAt(s, 5, 2) && s[7] == '-' && DigitsAt(s, 8, 2)
    && s[10] == sep
    && DigitsAt(s, 11, 2) && s[13] == ':' && DigitsAt(s, 14, 2) && s[16] == ':' && DigitsAt(s, 17, 2)
  }

  function FieldsOf(s: string, sep: char): DateTime
    requires HasLayout(s, sep)
  {
    DateTime(DecimalValue(s[0..4]), DecimalValue(s[5..7]), DecimalValue(s[8..10]),
             DecimalValue(s[11..13]), DecimalValue(s[14..16]), DecimalValue(s[17..19]))
  }

  lemma {:induction false} LayoutRoundTrip(s: string, sep: char)
    requires HasLayout(s, sep) && Valid(FieldsOf(s, sep))
    ensures DatePart(FieldsOf(s, sep)) == s[..10]
    ensures TimePart(FieldsOf(s, sep)) == s[11..19]
  {
    Pad4OfValue(s[0..4]);
    Pad2OfValue(s[5..7]);
    Pad2OfValue(s[8..10]);
    Pad2OfValue(s[11..13]);
    Pad2OfValue(s[14..16]);
    Pad2OfValue(s[17..19]);
    assert s[..10] == s[0..4] + "-" + s[5..7] + "-" + s[8..10];
    assert s[11..19] == s[11..13] + ":" + s[14..16] + ":" + s[17..19];
  }

  lemma {:induction false} FieldsOfRendering(d: DateTime, sep: char, tail: string)
    requires Valid(d)
    ensures HasLayout(DatePart(d) + [sep] + TimePart(d) + tail, sep)
    ensures FieldsOf(DatePart(d) + [sep] + TimePart(d) + tail, sep) == d
  {
    var s := DatePart(d) + [sep] + TimePart(d) + tail;
    assert s[0..4] == Pad4(d.year);
    assert s[5..7] == Pad2(d.month);
    assert s[8..10] == Pad2(d.day);
    assert s[11..13] == Pad2(d.hour);
    assert s[14..16] == Pad2(d.minute);
    assert s[17..19] == Pad2(d.second);
    Pad4Value(d.year);
    Pad2Value(d.month);
    Pad2Value(d.day);
    Pad2Value(d.hour);
    Pad2Value(d.minute);
    Pad2Value(d.second);
  }

  /** `date_format:Y-m-d H:i:s` (with `date`): the string is exactly a valid
      date-time written in that format, so formatting the parsed value gives
      the string back. */
  function ParseYmdHis(s: string): (r: Option<DateTime>)
    ensures r.Some? ==> Valid(r.value) && FormatYmdHis(r.value) == s
  {
    if |s| == 19 && HasLayout(s, ' ') && Valid(FieldsOf(s, ' ')) then
      LayoutRoundTrip(s, ' ');
      assert s == s[..10] + " " + s[11..19];
      Some(FieldsOf(s, ' '))
    else None
  }

  /** Every valid date-time, once formatted, passes the format check and parses back. */
  lemma FormatThenParse(d: DateTime)
    requires Valid(d)
    ensures ParseYmdHis(FormatYmdHis(d)) == Some(d)
  {
    FieldsOfRendering(d, ' ', "");
    assert DatePart(d) + [' '] + TimePart(d) + "" == FormatYmdHis(d);
  }

  /** `Carbon::parse` on the three forms the pipeline meets: `Y-m-d H:i:s`,
      `Y-m-dTH:i:s`, and `Y-m-dTH:i:s+00:00` as `toIso8601String()` writes it. */
  function ParseCarbon(s: string): (r: Option<DateTime>)
    ensures ParseYmdHis(s).Some? ==> r == ParseYmdHis(s)
    ensures r.Some? ==> Valid(r.value)
  {
    if (|s| == 19 || (|s| == 25 && s[19..] == UtcOffset))
       && (HasLayout(s, ' ') || HasLayout(s, 'T'))
    then
      var d := FieldsOf(s, s[10]);
      if Valid(d) then Some(d) else None
    else None
  }

  /** Carbon reads its own ISO 8601 rendering back as the same date-time. */
  lemma Iso8601RoundTrip(d: DateTime)
    requires Valid(d)
    ensures ParseCarbon(Iso8601(d)) == Some(d)
  {
    var s := Iso8601(d);
    FieldsOfRendering(d, 'T', UtcOffset);
    assert s == DatePart(d) + ['T'] + TimePart(d) + UtcOffset;
    assert s[19..] == UtcOffset;
  }

  /** The ISO rendering of a timestamp given as `Y-m-d H:i:s` is that string with
      `T` in place of the space and the UTC offset appended: it is never the
      input echoed back. */
  lemma {:induction false} Iso8601OfParsed(s: string)
    requires ParseYmdHis(s).Some?
    ensures Iso8601(ParseYmdHis(s).value) == s[..10] + "T" + s[11..] + UtcOffset
    ensures Iso8601(ParseYmdHis(s).value) != s
  {
    var d := ParseYmdHis(s).value;
    LayoutRoundTrip(s, ' ');
    assert s[11..] == s[11..19];
    assert |Iso8601(d)| == 25;
  }
}

=== FILE: wrappers.dfy ===
/** Option, Result and Outcome: the failure-carrying values that stand in for
    PHP's nullable returns and thrown exceptions throughout the model. */
module Wrappers {

  datatype Option<+T> = None | Some(value: T) {
    function GetOr(default: T): T {
      match this
      case Some(v) => v
      case None => default
    }
  }

  datatype Result<+R, +E> = Success(value: R) | Failure(error: E)

  /** The outcome of a `void` PHP method: it returns normally or throws `error`. */
  datatype Outcome<+E> = Pass | Fail(error: E)
}
